=== FILE: README.md ===
# video_transcript in Dafny

This project models video_transcript, a small Python service for a learning
portal. A teacher uploads material: a video file, a PDF, a DOCX, or an
HTTP(S) link to a video. The service turns the upload into text:

- a video's audio is extracted, cut into 30-second segments and sent to a
  speech recogniser, and the transcript is also written out as a PDF;
- a document's text is read page by page or paragraph by paragraph.

It stores the text in a Chroma vector collection along with a nine-field
metadata record. Later, a student's question is answered as follows:

1. The most similar stored passages are retrieved, optionally only those
   of one video.
2. They are labelled with `[Source i: …]` headers and joined.
3. They are sent with a fixed teaching-assistant prompt to a Gemini model.

The model follows the program's modules, one Dafny module each:

| module | models |
|---|---|
| `Pipeline` | `src/pipeline.py`: file-type routing, `process_video`, `process_document`, `process_upload` |
| `AnswerGenerator` | `src/answer_generator.py`: retrieval filter, context block, credential check, prompt, `ask_question` |
| `VectorStore`, `Metadata` | `add_to_vector_db` in `src/vector_store.py`: empty-text refusal, metadata sanitising, id choice |
| `DownloadUtils`, `Urls` | `src/download_utils.py`, and the subset of `urllib.parse.urlparse` it relies on |
| `AudioUtils` | `src/audio_utils.py`: the audio file name, and the segment plan of `split_audio_into_chunks` |
| `Transcription` | `src/transcription.py`: per-segment recognition outcomes and joining the transcript |
| `DocumentUtils` | `src/document_utils.py`: suffix dispatch, PDF page and DOCX paragraph filtering |
| `PdfGenerator` | `src/pdf_generator.py`: output path, paragraph split, XML escaping, the story of flowables |
| `Strings`, `Paths`, `Wrappers` | Python's `str` methods, `posixpath` and `pathlib` path handling, and `Result`/`Option` |

Everything outside the program is a function-valued parameter:

- the Chroma queries and the chunked store;
- Gemini;
- ffmpeg through pydub;
- the speech recogniser;
- the PDF and DOCX readers;
- ReportLab;
- yt-dlp and urllib.

An exception the program lets escape is a `Failure` of `Result`. The
collection is a value that is threaded through the calls, so "nothing was
stored" is stated as "the collection returned is the one passed in".

Two behaviours of the code are worth knowing:

- **Source header with a chapter but no subject.** The header keeps the
  dash and an empty subject: `[Source 1: f.pdf — , Motion]`
  (src/answer_generator.py:55-58). `AnswerGenerator.ChapterWithoutSubject`
  states this header.
- **Unreadable audio.** A segment is skipped only when the recogniser did not
  understand it (`UnknownValueError`) or the request failed (`RequestError`).
  Either gives `None`. A segment file that cannot be opened raises
  (src/transcription.py:18-29).

## Model

| member | source | states |
|---|---|---|
| AnswerGenerator.WhereFilter | src/answer_generator.py:34 | A filter exists exactly when a non-empty video id is given, and it is the one-key map `video_id` to that id. |
| AnswerGenerator.GetContext | src/answer_generator.py:19-44 | A retrieval error propagates with its message. Otherwise the result is the documents and metadatas the store returned, with a missing list read as empty. |
| AnswerGenerator.Lookup | src/answer_generator.py:51-53 | The value under the key when the metadata exists and has it. Otherwise the default. |
| AnswerGenerator.Topic | src/answer_generator.py:55-58 | The topic part of a header is empty exactly when subject and chapter are both falsy. Otherwise it starts with " — subject", where a falsy subject gives its text too. It ends in ", chapter" when the chapter is truthy, and is just " — subject" when only the subject is. With a truthy chapter its length is exactly that of " — subject" + ", " + chapter, so nothing else is added. |
| AnswerGenerator.Header | src/answer_generator.py:50-59 | A header starts with "[Source i: filename", with "Unknown" for a missing filename. The topic of its subject and chapter follows at once, and the header ends with "]\n" right after it. |
| AnswerGenerator.HeaderNumberRoundTrip | src/answer_generator.py:50-54 | The digits between "[Source " and the first ':' decode back to the passage number. |
| AnswerGenerator.ChapterWithoutSubject | src/answer_generator.py:55-59 | With a chapter and no subject the header reads "[Source i: filename — , chapter]\n". |
| AnswerGenerator.BuildContextBlock | src/answer_generator.py:47-61 | The context block is empty exactly when `zip` yields no (document, metadata) pair. Each passage is followed in the block by the separator and then the next passage. |
| AnswerGenerator.PassageInContext | src/answer_generator.py:49-61 | Every pair's header followed by its text (or "" for `None`) occurs in the block. |
| AnswerGenerator.ResolveApiKey | src/answer_generator.py:82-86 | Fails with the "Gemini API key required" message exactly when both the argument and the environment variable are missing or empty. A non-empty argument wins over the environment. |
| AnswerGenerator.Assemble | src/answer_generator.py:92-108 | The prompt starts with the intro and ends with the closing line. The context and the question sit at fixed offsets. Its length is the sum of the parts. |
| AnswerGenerator.BuildPrompt | src/answer_generator.py:92-108 | The system prompt comes first, then the course material, then the question, then the closing instruction, each at a fixed offset. |
| AnswerGenerator.PromptDeterminesInputs | src/answer_generator.py:92-108 | Two prompts with material of the same length are equal only when the material and the question are. |
| AnswerGenerator.GenerateAnswer | src/answer_generator.py:64-114 | A missing key fails before the service is asked. Otherwise a service error propagates and the answer is the stripped reply, "" when the reply has no text. |
| AnswerGenerator.Passages | src/answer_generator.py:157-159 | One passage per zipped pair, in order, holding that document and metadata. |
| AnswerGenerator.NoMaterialAnswer | src/answer_generator.py:146-153 | With a video id, the fallback message starts with the fixed prefix, then the id, and ends with the fixed suffix. Its length is exactly the sum of the three, so it is nothing but those. Without an id, it is the general message. |
| AnswerGenerator.AskQuestion | src/answer_generator.py:117-168 | `success` holds exactly when there is no error, and a failure has an empty answer. A retrieval error becomes the error. No documents gives the fallback answer with `success` and no passages. A missing key is reported as an error once there is material. With material, a generated answer is returned with `success`, and a generation error becomes the error. The passages are the zipped pairs. |
| AnswerGenerator.GeneratorUnusedWithoutMaterialOrKey | src/answer_generator.py:137-163 | When retrieval fails, finds nothing, or no key is set, the generation service has no influence on the result. |
| Metadata.ValueText | src/answer_generator.py:54-58 | `str()` of a metadata value: a string is itself, a boolean is "True"/"False", an integer is its decimal digits with a leading '-' when negative, and a float is its kept `str()` text. |
| Metadata.IntTextReadsBack | src/answer_generator.py:54-58 | The text of an integer reads back as that integer, after its '-' when negative. |
| Metadata.Sanitize | src/vector_store.py:61-69 | A key survives exactly when its value is not `None`. Accepted scalars are kept as they are. Any other value becomes its text. |
| Metadata.SanitizeLift | src/vector_store.py:61-69 | Metadata that already holds only accepted scalars passes through unchanged. |
| Metadata.SanitizeIdempotent | src/vector_store.py:61-69 | Sanitising an already sanitised record changes nothing. |
| VectorStore.AddToVectorDb | src/vector_store.py:56-80 | Refuses exactly the empty or whitespace-only texts, with the source's message and no change. Otherwise the id is the given one or else the fresh one. The key set gains exactly that id. A new id stores the stripped text with the sanitised metadata. |
| VectorStore.StoredRecordShape | src/vector_store.py:75-79 | A newly stored text is non-empty without surrounding whitespace, and every other record is unchanged. |
| VectorStore.ReAddIsStable | src/vector_store.py:61-79 | Re-adding a stored record's text and metadata under a fresh id stores an identical record. |
| DownloadUtils.IsUrl | src/download_utils.py:25-28 | Only a given text that is not blank can be a URL. |
| DownloadUtils.IsUrlMeansHttpScheme | src/download_utils.py:25-28 | A string `is_url` accepts parses, once stripped, with scheme "http" or "https". |
| DownloadUtils.HostKey | src/download_utils.py:35 | The lowercased netloc with its leading run of 'w' and '.' characters removed (a character-set strip). |
| DownloadUtils.HostKeyIrrelevant | src/download_utils.py:35-36 | Stripping 'w' and '.' never changes whether the netloc mentions a listed domain. |
| DownloadUtils.StripRunIrrelevant | src/download_utils.py:35-36 | For any domain list in which a domain starting with 'w' or '.' ends with another listed domain, cutting a leading run of 'w' and '.' keeps the verdict. |
| DownloadUtils.IsYtDlpDomain | src/download_utils.py:31-38 | yt-dlp is chosen exactly when `urlparse` succeeds and its lowercased netloc contains a listed domain. The `lstrip("www.")` never changes the verdict, and a parse error gives `False`. |
| DownloadUtils.YtDlpVerdict | src/download_utils.py:31-38 | For a clean http(s) URL with a well-formed host, yt-dlp is chosen exactly when the lowercased host contains a listed domain as a substring. |
| DownloadUtils.WithMediaExtension | src/download_utils.py:93-94 | The name is kept when it ends in one of the eight media extensions, case-insensitively. Otherwise ".mp4" is appended. The result always has one. |
| DownloadUtils.SegmentName | src/download_utils.py:92 | The stripped last path segment when it is not blank. Otherwise, and for an empty path, "video". Never empty and never containing '/'. |
| DownloadUtils.DirectFileName | src/download_utils.py:91-94 | Fails exactly when `urlparse` does. Otherwise it is the URL path's segment name with a media extension ensured: a non-empty name without '/'. |
| DownloadUtils.FirstFree | src/download_utils.py:99-102 | The first numbered candidate from `i` that does not exist, or 99, with every candidate before it taken. |
| DownloadUtils.UniquePath | src/download_utils.py:95-102 | The plain path when it is free. Otherwise one of the 99 numbered `{base}_{i}{ext}` candidates. |
| DownloadUtils.NoOverwriteWhileSlotFree | src/download_utils.py:96-102 | While any numbered slot is free, the chosen path is not an existing file. |
| DownloadUtils.NormaliseExt | src/download_utils.py:74-76 | The lowercased extension when it is mp4, webm, mkv or m4a. Otherwise "mp4". |
| DownloadUtils.VideoId | src/download_utils.py:73 | The id when it is non-empty. A missing or empty id gives "video". |
| DownloadUtils.NewestMedia | src/download_utils.py:81-85 | An entry whose lowercased suffix is a fallback media extension and before which, newest first, no entry has one. None when no entry has one. |
| DownloadUtils.ResolveYtDlpPath | src/download_utils.py:65-85 | No info is an error. An existing requested file path wins. Next comes `{dir}/{id}.{ext}` when that file exists, with id "video" and ext "mp4" by default. Next comes the newest media entry of the directory. With none of these it fails with "yt-dlp did not produce a recognizable file". Any result is an existing file or a directory entry. |
| DownloadUtils.DirectDownload | src/download_utils.py:88-107 | A URL without a parsable name fails. Otherwise the URL is fetched to the unique path for its file name: a completed fetch returns that path, and a failed fetch fails with the fetch's message. |
| DownloadUtils.DownloadMedia | src/download_utils.py:110-132 | A non-URL is refused with "Not a valid URL". A stripped URL on a yt-dlp domain is run through yt-dlp: its error propagates, and otherwise the path is resolved from its outcome. Any other URL is downloaded directly and lands at the unique path for its file name. |
| Urls.UrlParse | src/download_utils.py:34 | The scheme and netloc split of `urlparse` as in CPython 3.12. It first drops leading C0 controls and spaces, then removes every tab, CR and LF. It fails exactly on unbalanced IPv6 brackets, with "Invalid IPv6 URL". |
| DownloadUtils.LStripC0KeepsUrl | src/download_utils.py:127-132 | The leading control-and-space strip never changes a stripped URL that `is_url` accepts, so it makes no difference on any URL the program parses. |
| AudioUtils.ExtractAudioPath | src/audio_utils.py:26-27 | The extracted audio is written inside the output directory, at `{output_dir}/{stem}_audio.{format}`, with no extra '/' after a directory that ends in one. Its file name is `{stem}_audio.{format}`. |
| AudioUtils.ExtractAudioFromVideo | src/audio_utils.py:9-32 | Fails exactly when the export fails. Otherwise returns the path it exported to. |
| AudioUtils.SegmentPathsDistinct | src/audio_utils.py:60 | Different segment numbers give different segment paths. |
| AudioUtils.SplitAudio | src/audio_utils.py:52-65 | The loop produces exactly the segment plan. |
| AudioUtils.PlanTilesAudio | src/audio_utils.py:56-64 | ceil(length/chunk) non-empty segments cover the audio: the first starts at 0, each ends where the next starts, and the last ends at the audio's end. |
| AudioUtils.CountBounds | src/audio_utils.py:58-64 | The segment count is the least count whose chunks reach the audio's length. |
| AudioUtils.SegmentOfMillisecond | src/audio_utils.py:58-64 | Every millisecond of the audio lies in exactly one segment, number t / chunk. |
| AudioUtils.ExportAll | src/audio_utils.py:61 | Exporting succeeds exactly when every segment's export does. |
| AudioUtils.SplitAudioIntoChunks | src/audio_utils.py:35-65 | An unreadable audio file fails with the reader's message. Otherwise it succeeds exactly when every planned segment's export does, and then the result is the plan's segment paths, in order. |
| Transcription.AudioToText | src/transcription.py:6-29 | Text exactly when recognised. `None` when not understood or on a request error. An unreadable file raises. |
| Transcription.FirstUnreadable | src/transcription.py:55-57 | The reason of the first unreadable segment, or none when there is no unreadable segment. |
| Transcription.Transcript | src/transcription.py:55-60 | Fails exactly when some segment is unreadable. The transcript is empty exactly when every heard text is whitespace. A transcript has no surrounding whitespace. |
| Transcription.HeardTextKept | src/transcription.py:55-60 | Every non-empty heard text appears in the joined transcript. Its stripped form appears in the transcript the pipeline returns. |
| Transcription.TranscribeChunks | src/transcription.py:55-60 | The loop over segments computes the transcript. |
| Transcription.TranscribeLongAudio | src/transcription.py:32-60 | A splitting failure propagates with its message. Otherwise it is the transcript of the segment paths. |
| DocumentUtils.ExtractTextFromPdf | src/document_utils.py:19-25 | Empty exactly when every page text is whitespace. Otherwise it has no surrounding whitespace. |
| DocumentUtils.PdfKeepsPage | src/document_utils.py:19-25 | Every page's stripped text appears in the extracted text. |
| DocumentUtils.PdfPagesAdjacent | src/document_utils.py:19-25 | Two non-empty pages with only empty pages between them appear in page order, separated by one "\n". |
| DocumentUtils.ExtractTextFromDocx | src/document_utils.py:38-43 | Empty exactly when every paragraph is whitespace. Otherwise it has no surrounding whitespace. |
| DocumentUtils.NonBlankKeptIff | src/document_utils.py:40-42 | The kept paragraphs are all blank exactly when all paragraphs are. |
| DocumentUtils.DocxKeepsParagraph | src/document_utils.py:40-43 | Every paragraph with visible text appears in the joined text, and its stripped text appears in the extracted text. |
| DocumentUtils.DocxParagraphsAdjacent | src/document_utils.py:40-43 | Two non-blank paragraphs with only blank paragraphs between them appear in document order, separated by one "\n". |
| DocumentUtils.ExtractDocumentText | src/document_utils.py:46-65 | ".pdf" is read as a PDF and ".docx" as a DOCX, by lowercased suffix. ".doc" and every other suffix give `None`. Reader errors propagate. |
| PdfGenerator.GetTranscriptPdfPath | src/pdf_generator.py:58-64 | `os.path.join(output_dir, "{base}_transcript.pdf")`. The path is `{output_dir}/{base}_transcript.pdf`, with no extra '/' after a directory that ends in one. A base starting with '/' discards the directory. The file name is `{base}_transcript.pdf` when the base has no '/'. |
| PdfGenerator.Blocks | src/pdf_generator.py:45-48 | The transcript is split on "\n\n". Every paragraph is non-empty, has no surrounding whitespace, appears in the transcript and holds no blank line "\n\n". |
| PdfGenerator.BlocksOfJoin | src/pdf_generator.py:45-48 | Joining non-empty, unpadded paragraphs with "\n\n", where none holds "\n\n", and splitting the result again gives back exactly those paragraphs. |
| Strings.SplitOfJoin | src/pdf_generator.py:45 | `split(sep)` undoes `sep.join(parts)` when no part contains `sep` and no non-empty part ends in a character of `sep`. |
| PdfGenerator.BlocksEmptyIff | src/pdf_generator.py:45-48 | There are no paragraphs exactly when the transcript is whitespace only. |
| PdfGenerator.EscapeIsPerCharacter | src/pdf_generator.py:50 | The three chained replacements escape '&', '<' and '>' character by character, with no double escaping. |
| PdfGenerator.UnescapeEscape | src/pdf_generator.py:50 | Undoing the entities gives back the paragraph. |
| PdfGenerator.EscapedHasNoAngles | src/pdf_generator.py:50 | Escaped text contains no '<' and no '>'. |
| PdfGenerator.BuildStory | src/pdf_generator.py:39-52 | The story is the title paragraph and a 0.2-inch spacer, then each paragraph, escaped, with a 0.1-inch spacer. Its length is 2 + 2k. |
| PdfGenerator.StoryRecoversBlocks | src/pdf_generator.py:45-52 | Unescaping the story's k-th body paragraph gives the transcript's k-th paragraph. |
| PdfGenerator.TranscriptToPdf | src/pdf_generator.py:12-55 | Fails exactly when rendering the story fails. Otherwise returns the output path. |
| Pipeline.FileTypeOfSuffix | src/pipeline.py:22-31 | By lowercased suffix: the seven video extensions, ".pdf", ".docx" and ".doc" each get their type, and anything else is unknown. |
| Pipeline.DocumentType | src/pipeline.py:112 | The stored `file_type` is the suffix without its dot, lowercased, and "" when there is no suffix. |
| Pipeline.RoutedDocumentsAreRead | src/pipeline.py:170-171 | A path is routed to `process_document` exactly when `extract_document_text` reads it rather than returning `None`. |
| Pipeline.BuildStoreMetadata | src/pipeline.py:72-82 | Exactly the nine keys. The file type and base name are set. Each caller key is copied, or "" when the caller did not give it. |
| Pipeline.StoredMetadataKeys | src/pipeline.py:111-122 | After sanitising, all nine keys are stored except a caller key the caller set to `None`, and the file name is stored as a string. |
| Pipeline.DocumentTypeMatchesRoute | src/pipeline.py:112 | A document routed as PDF or DOCX is stored with file type "pdf" or "docx". |
| Pipeline.VideoAudioPath | src/pipeline.py:58 | The audio a video is transcribed from is `{audio_dir}/{stem}_audio.wav`: it starts with the audio directory and is named `{stem}_audio.wav`. |
| Pipeline.ProcessVideo | src/pipeline.py:34-86 | It fails exactly when the extraction fails, the transcription fails, or, for a non-empty transcript, the PDF rendering or the store fails. `success` holds exactly when the transcript is non-empty. An empty transcript stores nothing and returns the blank report. On success the report holds the transcript, the PDF path the story was rendered to, and the id the store returned for the transcript and the video metadata. |
| Pipeline.StoredTranscriptIsClean | src/pipeline.py:60-64 | A successfully processed transcript is non-blank and has no surrounding whitespace. |
| Pipeline.ProcessDocument | src/pipeline.py:89-125 | Fails exactly when reading fails, or when storing a non-empty text fails. A missing or empty text stores nothing. On success the report holds the text and the id the store returned for it. |
| Pipeline.Located | src/pipeline.py:155-159 | A local path is used as it is. A URL is replaced by the outcome of `download_media`. |
| Pipeline.ProcessUpload | src/pipeline.py:152-161 | A URL is downloaded first. A failed download is reported as "Download failed: …" with nothing stored. Otherwise the downloaded file, or the local path, is routed with `{}` for missing metadata. |
| Pipeline.Route | src/pipeline.py:161-173 | Videos go to `process_video`, PDF and DOCX to `process_document`, and ".doc" or unknown types are reported as "Unsupported file type: …" with nothing stored. |
| Pipeline.FailedUploadStoresNothing | src/pipeline.py:128-173 | An upload whose report is not a success leaves the collection unchanged. |
| Pipeline.ReportFollowsRoute | src/pipeline.py:155-173 | The report kind is a video's, a document's or an error exactly according to the download outcome and the file type. |
| Pipeline.SuccessMeansStored | src/pipeline.py:83-85 | A successful upload's collection and id are what the store returned for its text and nine-key metadata. |
| Strings.Strip | src/vector_store.py:56 | `str.strip()`: empty exactly for whitespace-only input, with no whitespace left at either end. |
| Strings.StripKeepsContained | src/document_utils.py:25 | Stripping a text keeps the stripped form of any part of it. |
| Strings.JoinContainsAdjacent | src/answer_generator.py:61 | Any two neighbouring parts of a join appear in it with the separator between them. |
| Strings.SplitJoin | src/pdf_generator.py:45 | Joining the pieces of `split(sep)` with `sep` gives back the text. |
| Paths.SplitExt | src/download_utils.py:98 | `os.path.splitext`: the two parts concatenate to the name. A non-empty extension is a dot, then no further dot and no '/', and follows a character that is not '/'. The extension is non-empty exactly when, after the last '/', some character other than a dot comes before a dot. |
| Paths.Suffix | src/pipeline.py:24 | `Path.suffix`: either empty, or a dot followed by at least one character and no further dot. |
| Paths.SuffixFound | src/pipeline.py:24 | `Path.suffix` is non-empty exactly when the file name has a dot after its first character and does not end in a dot. Then the suffix is a proper ending of the name. |
| Paths.BasenameOfJoin | src/pdf_generator.py:64 | The base name of `os.path.join(dir, name)` is `name` when the name has no '/'. |
| Paths.Basename | src/download_utils.py:92 | `os.path.basename`: an ending of the path with no '/', which is either the whole path or preceded by a '/'. That makes it everything after the last '/'. |
| Paths.JoinPath | src/download_utils.py:95 | `os.path.join(a, b)`: `b` alone when it starts with '/'. Otherwise it starts with `a` and ends with `b`, with a '/' between them when `a` is non-empty and does not end in one. |
| Paths.PathNameIsLast | src/audio_utils.py:26 | The name pathlib reads is the last '/'-separated component that is neither empty nor ".". It is "" when there is none. |
| Paths.Stem | src/pipeline.py:54 | `Path.stem`: free of '/', and followed by the suffix it is the name. So it is the name without its suffix. |
| Strings.SplitPartsFree | src/pdf_generator.py:45 | No piece of `split(sep)` contains `sep`. |
| Strings.ReplaceMatch | src/pdf_generator.py:50 | `replace` turns a match at the start into the replacement and continues after it. |
| Strings.ReplaceSkips | src/pdf_generator.py:50 | Text that cannot start a match passes through `replace` unchanged. |
| Strings.LStripChars | src/download_utils.py:35 | `lstrip(chars)`: drops exactly the longest prefix made of characters in the set. Every dropped character is in the set, and the first kept one is not. |
| Strings.Lower | src/pipeline.py:24 | `str.lower()` character by character: the same length, with each ASCII capital mapped to its small letter and every other character kept. |

## Left out

- Chroma itself is left out: embeddings, persistence and `get_or_create_collection`. The collection is a map from id to text and metadata.
- `add_chunked_to_vector_db` and `query_vector_db` are not part of this model, and neither is `list_all_documents`. They are parameters: `storeChunked` and `QueryFn`.
- The Gemini client, its network use and its timeouts are a `GenerateFn` parameter.
- The internals of speech_recognition, pydub/ffmpeg, ReportLab, pypdf and python-docx are parameters. Their outcomes are given.
- yt-dlp's invocation, including the retry with format "best" that re-raises the first error, is the `runYtDlp` parameter. Its outcome is given.
- The modification-time sort of the download directory is given as a newest-first list.
- urllib's request, its User-Agent header, its timeout and the file write are the `fetch` parameter.
- Directory creation (`mkdir(parents=True, exist_ok=True)`) is left out, and with it its error path. It raises when the path exists as a file or cannot be created: in `extract_audio_from_video` and `split_audio_into_chunks` (src/audio_utils.py:25, 51), in `transcript_to_pdf` and `get_transcript_pdf_path` (src/pdf_generator.py:28, 63), and in both download paths (src/download_utils.py:45, 90). In the model, extracting, splitting, rendering and downloading never fail for that reason.
- `uuid.uuid4()` is the `freshId` parameter.
- The `print` diagnostics in `audio_to_text` are left out.
- query_chroma.py, main.py, src/api.py and src/__init__.py are not part of this model. They are the CLI, the HTTP API and the package marker.
- Floating-point values are kept as their `str()` text. ReportLab spacer sizes are `real` points, with no numerics.
- Strings.Lower: lowercases ASCII letters only, where Python's `str.lower` and `re.I` fold all of Unicode.
- AudioUtils.SplitAudioIntoChunks: requires a positive chunk length. With zero or less and non-empty audio, the source loop never ends. Every caller passes 30 000.
- Transcription.TranscribeLongAudio: requires a positive chunk length, for the same reason.
- AudioUtils.SplitAudio: requires a positive chunk length or empty audio, for the same reason.
- VectorStore.AddToVectorDb: adding an id the collection already holds keeps the old record. Chroma ignores such an add, and the library's behaviour is not part of this model.
- Exceptions are `Failure` values carrying their message. Exception types are not distinguished. `str(e)` is the message itself.
- Urls.UrlParse: `urlsplit` and `urlparse` are modelled as in the CPython 3.12 standard library. That covers the leading strip of C0 controls and spaces, the removal of tab, CR and LF, a scheme that must start with an ASCII letter, and "rtsps" among the schemes whose `;params` are split off. Apart from the two checks below, the model agrees with that library on every string. Older releases differ on strings the program never parses:
  - the leading strip arrived in 3.8.17, 3.9.17, 3.10.12 and 3.11.4;
  - older scheme detection does not insist on a leading letter;
  - a release whose `uses_params` lacks "rtsps" keeps the parameters of an rtsps URL in its path.

  Every URL the program parses is stripped and starts with "http://" or "https://". The leading strip is a no-op on such a URL (LStripC0KeepsUrl), and the other two differences do not touch it. So on those URLs the model also agrees with every release from 3.8.11, 3.9.5 and 3.10.0 on, which all remove tab, CR and LF. Earlier releases keep those characters in the URL, and that behaviour is not modelled. The check that a bracketed host is a valid IPv6 or IPvFuture address (CPython 3.11.4 and later) is not modelled, so "http://[youtube.com]/v" parses here where newer versions raise. The NFKC check on non-ASCII netlocs is not modelled either, because the model has no Unicode normalisation.
- DownloadUtils.IsUrl: its contract states only that a URL is a given, non-blank text. `IsUrlMeansHttpScheme` states the scheme.
- Pipeline.ProcessVideo: the output directories are parameters. `chroma_dir` is replaced by the collection passed in and returned.

=== FILE: answer_generator.dfy ===
/** Answering a student's question from stored course material
    (src/answer_generator.py). The vector-store query and the Gemini call
    are parameters; the model keeps the filter, the context block, the
    credential check, the prompt and the shape of the result. */
module AnswerGenerator {
  import opened Wrappers
  import opened Strings
  import opened Metadata

  type Meta = map<string, Value>

  /** The two entries of a query result the code reads; either may be
      missing or `None`. */
  datatype QueryResult = QueryResult(documents: Option<seq<Option<string>>>, metadatas: Option<seq<Option<Meta>>>)

  /** `query_vector_db(query_text, n_results, where)`; a raised exception is a `Failure`. */
  type QueryFn = (string, int, Option<Meta>) -> Result<QueryResult>

  /** The Gemini call on (api key, model name, prompt), giving `response.text`. */
  type GenerateFn = (string, string, string) -> Result<Option<string>>

  /** `where = {"video_id": video_id} if video_id else None`. */
  function WhereFilter(videoId: Option<string>): (r: Option<Meta>)
    ensures r.Some? <==> videoId.Some? && videoId.value != ""
    ensures r.Some? ==> r.value.Keys == {"video_id"} && r.value["video_id"] == Str(videoId.value)
  {
    if videoId.Some? && videoId.value != "" then Some(map["video_id" := Str(videoId.value)]) else None
  }

  /** `get_context_from_vector_db`: one query, scoped to the video when an id
      is given; a missing or `None` list reads as empty. */
  function GetContext(question: string, nResults: int, videoId: Option<string>, query: QueryFn)
    : (r: Result<(seq<Option<string>>, seq<Option<Meta>>)>)
    ensures r.Failure? <==> query(question, nResults, WhereFilter(videoId)).Failure?
    ensures r.Failure? ==> r.error == query(question, nResults, WhereFilter(videoId)).error
    ensures r.Success? ==> var q := query(question, nResults, WhereFilter(videoId)).value;
      && (q.documents.Some? ==> r.value.0 == q.documents.value)
      && (q.documents.None? ==> r.value.0 == [])
      && (q.metadatas.Some? ==> r.value.1 == q.metadatas.value)
      && (q.metadatas.None? ==> r.value.1 == [])
  {
    match query(question, nResults, WhereFilter(videoId))
    case Failure(e) => Failure(e)
    case Success(q) => Success((q.documents.GetOr([]), q.metadatas.GetOr([])))
  }

  /** `(meta or {}).get(key, default)`. */
  function Lookup(meta: Option<Meta>, key: string, default: Value): (r: Value)
    ensures meta.Some? && key in meta.value ==> r == meta.value[key]
    ensures meta.None? || key !in meta.value ==> r == default
  {
    if meta.Some? && key in meta.value then meta.value[key] else default
  }

  const SourceOpen: string := "[Source "
  const EmDash: string := " \U{2014} "

  /** The part of a source header after the file name: " — subject" when the
      subject or the chapter is truthy, then ", chapter" when the chapter is. */
  function Topic(subject: Value, chapter: Value): (r: string)
    ensures r == "" <==> !Truthy(subject) && !Truthy(chapter)
    ensures Truthy(chapter) ==> EndsWith(r, ", " + ValueText(chapter))
    ensures Truthy(subject) && !Truthy(chapter) ==> r == EmDash + ValueText(subject)
    ensures Truthy(subject) || Truthy(chapter) ==> StartsWith(r, EmDash + ValueText(subject))
    ensures Truthy(chapter) ==> |r| == |EmDash| + |ValueText(subject)| + 2 + |ValueText(chapter)|
  {
    if Truthy(subject) || Truthy(chapter) then
      var lead := EmDash + ValueText(subject);
      var r := lead + (if Truthy(chapter) then ", " + ValueText(chapter) else "");
      assert r[..|lead|] == lead;
      r
    else ""
  }

  /** `[Source i: filename — subject, chapter]` and a line break; the file
      name defaults to "Unknown", subject and chapter to "". */
  function Header(i: nat, meta: Option<Meta>): (r: string)
    ensures StartsWith(r, SourceOpen + NatToString(i) + ": " + ValueText(Lookup(meta, "filename", Str("Unknown"))))
    ensures EndsWith(r, "]\n")
    ensures OccursAt(r, Topic(Lookup(meta, "subject", Str("")), Lookup(meta, "chapter", Str(""))),
                     |SourceOpen + NatToString(i) + ": " + ValueText(Lookup(meta, "filename", Str("Unknown")))|)
    ensures |r| == |SourceOpen + NatToString(i) + ": " + ValueText(Lookup(meta, "filename", Str("Unknown")))|
      + |Topic(Lookup(meta, "subject", Str("")), Lookup(meta, "chapter", Str("")))| + 2
  {
    var filename := Lookup(meta, "filename", Str("Unknown"));
    var subject := Lookup(meta, "subject", Str(""));
    var chapter := Lookup(meta, "chapter", Str(""));
    var lead := SourceOpen + NatToString(i) + ": " + ValueText(filename);
    var r := lead + Topic(subject, chapter) + "]\n";
    MiddleOccurs(lead, Topic(subject, chapter), "]\n");
    r
  }

  /** The source number reads back from the header: the text between
      "[Source " and the first ':' is the decimal form of `i`. */
  lemma {:induction false} HeaderNumberRoundTrip(i: nat, meta: Option<Meta>)
    ensures var rest := Header(i, meta)[|SourceOpen|..];
      var c := IndexOf(rest, ":");
      0 <= c && rest[..c] == NatToString(i) && DigitsValue(rest[..c]) == i
  {
    var digits := NatToString(i);
    var tail := HeaderAfterNumber(i, meta);
    FirstColonAfterDigits(digits, tail);
    assert (digits + ":" + tail)[..|digits|] == digits;
    NatToStringRoundTrip(i);
  }

  /** After "[Source " comes the number and then a ':'. */
  lemma {:induction false} HeaderAfterNumber(i: nat, meta: Option<Meta>) returns (tail: string)
    ensures Header(i, meta)[|SourceOpen|..] == NatToString(i) + ":" + tail
  {
    var h := Header(i, meta);
    var digits := NatToString(i);
    LeadFacts(SourceOpen, digits, ": ", ValueText(Lookup(meta, "filename", Str("Unknown"))), h);
    tail := AfterMarked(h, |SourceOpen|, digits, ':');
  }

  /** What a text starting with `o + d + mark + f` holds right after `o`. */
  lemma {:induction false} LeadFacts(o: string, d: string, mark: string, f: string, h: string)
    requires |mark| >= 1 && StartsWith(h, o + d + mark + f)
    ensures |o| + |d| < |h| && h[|o|..|o| + |d|] == d && h[|o| + |d|] == mark[0]
  {
    var lead := o + d + mark + f;
    assert h[..|lead|] == lead;
    forall k | 0 <= k <= |o| + |d|
      ensures h[k] == lead[k]
    {
      assert h[..|lead|][k] == h[k];
    }
    assert lead[|o|..|o| + |d|] == d;
    assert h[|o|..|o| + |d|] == lead[|o|..|o| + |d|];
    assert lead[|o| + |d|] == mark[0];
  }

  /** The text from `o` on is `d`, the character `c`, and what follows. */
  lemma {:induction false} AfterMarked(h: string, o: nat, d: string, c: char) returns (tail: string)
    requires o + |d| < |h| && h[o..o + |d|] == d && h[o + |d|] == c
    ensures h[o..] == d + [c] + tail
  {
    tail := h[o + |d| + 1..];
    assert h[o..] == h[o..o + |d|] + [h[o + |d|]] + tail;
  }

  /** A chapter set without a subject still produces the dash, followed by an
      empty subject: "[Source 1: f.pdf — , Motion]\n". */
  lemma {:induction false} ChapterWithoutSubject(i: nat, filename: string, chapter: string)
    requires chapter != ""
    ensures Header(i, Some(map["filename" := Str(filename), "chapter" := Str(chapter)]))
      == SourceOpen + NatToString(i) + ": " + filename + EmDash + ", " + chapter + "]\n"
  {
    var meta := map["filename" := Str(filename), "chapter" := Str(chapter)];
    assert "subject" !in meta;
    assert Lookup(Some(meta), "subject", Str("")) == Str("");
    assert Lookup(Some(meta), "chapter", Str("")) == Str(chapter);
    assert Lookup(Some(meta), "filename", Str("Unknown")) == Str(filename);
    TopicWithoutSubject(chapter);
    assert Header(i, Some(meta)) == SourceOpen + NatToString(i) + ": " + ValueText(Str(filename))
      + Topic(Str(""), Str(chapter)) + "]\n";
  }

  /** The topic of a chapter alone keeps the dash and an empty subject. */
  lemma {:induction false} TopicWithoutSubject(chapter: string)
    requires chapter != ""
    ensures Topic(Str(""), Str(chapter)) == EmDash + ", " + chapter
  {
    assert Truthy(Str(chapter)) && ValueText(Str("")) == "" && ValueText(Str(chapter)) == chapter;
    assert EmDash + "" == EmDash;
  }

  const ContextSeparator: string := "\n\n---\n\n"

  /** The passages `zip` pairs up: as many as the shorter list. */
  function PairCount(documents: seq<Option<string>>, metadatas: seq<Option<Meta>>): nat {
    if |documents| <= |metadatas| then |documents| else |metadatas|
  }

  /** Each paired passage as its header (numbered from 1) and its text (`doc or ""`). */
  function ContextParts(documents: seq<Option<string>>, metadatas: seq<Option<Meta>>): (r: seq<string>)
    ensures |r| == PairCount(documents, metadatas)
    ensures forall k :: 0 <= k < |r| ==> |r[k]| > 0
    ensures forall k :: 0 <= k < |r| ==> r[k] == Header(k + 1, metadatas[k]) + documents[k].GetOr("")
  {
    seq(PairCount(documents, metadatas), k requires 0 <= k < PairCount(documents, metadatas) =>
      Header(k + 1, metadatas[k]) + documents[k].GetOr(""))
  }

  /** `build_context_block`: the parts joined by a "---" line between blank lines. */
  function BuildContextBlock(documents: seq<Option<string>>, metadatas: seq<Option<Meta>>): (r: string)
    ensures r == "" <==> PairCount(documents, metadatas) == 0
    ensures forall k :: 0 <= k < PairCount(documents, metadatas) - 1 ==>
      Contains(r, ContextParts(documents, metadatas)[k] + ContextSeparator + ContextParts(documents, metadatas)[k + 1])
  {
    var parts := ContextParts(documents, metadatas);
    forall k | 0 <= k < |parts| - 1
      ensures Contains(Join(ContextSeparator, parts), parts[k] + ContextSeparator + parts[k + 1])
    {
      JoinContainsAdjacent(ContextSeparator, parts, k);
    }
    if |parts| > 0 then
      JoinContainsPart(ContextSeparator, parts, 0);
      var r := Join(ContextSeparator, parts);
      assert OccursAt(r, parts[0], IndexOf(r, parts[0]));
      r
    else Join(ContextSeparator, parts)
  }

  /** Every paired passage, under its numbered header, is in the context block. */
  lemma {:induction false} PassageInContext(documents: seq<Option<string>>, metadatas: seq<Option<Meta>>, k: nat)
    requires k < |documents| && k < |metadatas|
    ensures Contains(BuildContextBlock(documents, metadatas), Header(k + 1, metadatas[k]) + documents[k].GetOr(""))
  {
    var parts := ContextParts(documents, metadatas);
    JoinContainsPart(ContextSeparator, parts, k);
    ContextBlockJoins(documents, metadatas);
  }

  /** With at least one pair, the block is the parts joined by the separator. */
  lemma {:induction false} ContextBlockJoins(documents: seq<Option<string>>, metadatas: seq<Option<Meta>>)
    requires PairCount(documents, metadatas) > 0
    ensures BuildContextBlock(documents, metadatas) == Join(ContextSeparator, ContextParts(documents, metadatas))
  {
  }

  const MissingKeyError: string :=
    "Gemini API key required. Set GEMINI_API_KEY environment variable or pass api_key=..."

  /** `api_key or os.environ.get("GEMINI_API_KEY")`, refused when falsy. */
  function ResolveApiKey(apiKey: Option<string>, env: Option<string>): (r: Result<string>)
    ensures r.Failure? <==> (apiKey.None? || apiKey.value == "") && (env.None? || env.value == "")
    ensures r.Failure? ==> r.error == MissingKeyError
    ensures apiKey.Some? && apiKey.value != "" ==> r == Success(apiKey.value)
    ensures (apiKey.None? || apiKey.value == "") && env.Some? && env.value != "" ==> r == Success(env.value)
  {
    var key := if apiKey.Some? && apiKey.value != "" then apiKey else env;
    if key.None? || key.value == "" then Failure(MissingKeyError) else Success(key.value)
  }

  /** Line `i` of the system prompt, counted from 0. */
  function SystemPromptLine(i: int): string {
    if i <= 0 then
      "You are an expert teaching assistant for a learning portal. Your role is to answer student questions based ONLY on the provided course material (transcripts and documents)."
    else if i == 1 then ""
    else if i == 2 then "Rules:"
    else if i == 3 then
      "- Answer precisely and clearly using only the context given below. Do not add information that is not in the context."
    else if i == 4 then
      "- Use a structured, educational tone suitable for students (clear explanations, step-by-step when helpful)."
    else if i == 5 then
      "- If the context does not contain enough information to answer the question, say so clearly and suggest what topic to review."
    else if i == 6 then "- Keep answers focused and concise but complete enough for learning."
    else "- You may cite the source (e.g. \"From the chapter on Motion...\") when it helps clarity."
  }

  /** `LEARNING_PORTAL_SYSTEM_PROMPT`: its eight lines joined by newlines. */
  function SystemPromptLines(): seq<string> {
    seq(8, i requires 0 <= i < 8 => SystemPromptLine(i))
  }

  const SystemPrompt: string := Join("\n", SystemPromptLines())
  const MaterialHeading: string := "\n\n---\n\n## Course material (use only this to answer):\n\n"
  const QuestionHeading: string := "\n\n---\n\n## Student's question:\n\n"
  const ClosingLine: string :=
    "\n\n---\n\nProvide a precise, clear answer suitable for a learning portal based only on the course material above."

  /** Text, material heading, material, question heading, question, closing. */
  function Assemble(intro: string, materialHeading: string, questionHeading: string, closing: string,
                    context: string, question: string): (r: string)
    ensures StartsWith(r, intro)
    ensures OccursAt(r, context, |intro + materialHeading|)
    ensures OccursAt(r, question, |intro + materialHeading + context + questionHeading|)
    ensures EndsWith(r, closing)
    ensures |r| == |intro| + |materialHeading| + |questionHeading| + |closing| + |context| + |question|
  {
    var a := intro + materialHeading;
    var withContext := a + context;
    var withHeading := withContext + questionHeading;
    var withQuestion := withHeading + question;
    MiddleOccurs(intro, materialHeading, context);
    MiddleOccurs(a, context, questionHeading);
    MiddleOccurs(withHeading, question, closing);
    PrefixBeforeSuffix(withContext, questionHeading, intro);
    PrefixBeforeSuffix(withHeading, question, intro);
    PrefixBeforeSuffix(withQuestion, closing, intro);
    OccursBeforeSuffix(withHeading, question, context, |a|);
    OccursBeforeSuffix(withQuestion, closing, context, |a|);
    withQuestion + closing
  }

  /** The prompt: instructions, then the course material, then the question. */
  function BuildPrompt(context: string, question: string): (r: string)
    ensures StartsWith(r, SystemPrompt)
    ensures OccursAt(r, context, |SystemPrompt + MaterialHeading|)
    ensures OccursAt(r, question, |SystemPrompt + MaterialHeading + context + QuestionHeading|)
    ensures EndsWith(r, ClosingLine)
    ensures |r| == |SystemPrompt| + |MaterialHeading| + |QuestionHeading| + |ClosingLine| + |context| + |question|
  {
    Assemble(SystemPrompt, MaterialHeading, QuestionHeading, ClosingLine, context, question)
  }

  /** Two prompts agree only if their material and question agree, once the
      material's length is fixed. */
  lemma {:induction false} PromptDeterminesInputs(c1: string, q1: string, c2: string, q2: string)
    requires |c1| == |c2|
    requires BuildPrompt(c1, q1) == BuildPrompt(c2, q2)
    ensures c1 == c2 && q1 == q2
  {
    AssembleDeterminesInputs(SystemPrompt, MaterialHeading, QuestionHeading, ClosingLine, c1, q1, c2, q2);
  }

  lemma {:induction false} AssembleDeterminesInputs(intro: string, materialHeading: string, questionHeading: string,
                                 closing: string, c1: string, q1: string, c2: string, q2: string)
    requires |c1| == |c2|
    requires Assemble(intro, materialHeading, questionHeading, closing, c1, q1)
      == Assemble(intro, materialHeading, questionHeading, closing, c2, q2)
    ensures c1 == c2 && q1 == q2
  {
    var p := Assemble(intro, materialHeading, questionHeading, closing, c1, q1);
    var a := |intro| + |materialHeading|;
    assert c1 == p[a..a + |c1|] == c2;
    var b := a + |c1| + |questionHeading|;
    assert |q1| == |q2|;
    assert q1 == p[b..b + |q1|] == q2;
  }

  /** `generate_answer_with_gemini`: the credential is checked before the
      service is asked anything; the answer is the stripped response text,
      "" when the response has none. */
  function GenerateAnswer(question: string, context: string, apiKey: Option<string>, env: Option<string>,
                          model: string, generate: GenerateFn): (r: Result<string>)
    ensures ResolveApiKey(apiKey, env).Failure? ==> r == Failure(MissingKeyError)
    ensures ResolveApiKey(apiKey, env).Success? ==>
      var reply := generate(ResolveApiKey(apiKey, env).value, model, BuildPrompt(context, question));
      && (r.Failure? <==> reply.Failure?)
      && (r.Failure? ==> r.error == reply.error)
      && (r.Success? ==> r.value == Strip(reply.value.GetOr("")))
    ensures r.Success? && r.value != "" ==> !IsSpace(r.value[0]) && !IsSpace(r.value[|r.value| - 1])
  {
    match ResolveApiKey(apiKey, env)
    case Failure(e) => Failure(e)
    case Success(key) =>
      match generate(key, model, BuildPrompt(context, question))
      case Failure(e) => Failure(e)
      case Success(text) => Success(Strip(text.GetOr("")))
  }

  /** One entry of `passages_used`. */
  datatype Passage = Passage(text: Option<string>, metadata: Option<Meta>)

  /** The result dict of `ask_question`. */
  datatype AskResult = AskResult(answer: string, passagesUsed: seq<Passage>, success: bool, error: Option<string>)

  function Passages(documents: seq<Option<string>>, metadatas: seq<Option<Meta>>): (r: seq<Passage>)
    ensures |r| == PairCount(documents, metadatas)
    ensures forall k :: 0 <= k < |r| ==> r[k] == Passage(documents[k], metadatas[k])
  {
    seq(PairCount(documents, metadatas), k requires 0 <= k < PairCount(documents, metadatas) =>
      Passage(documents[k], metadatas[k]))
  }

  const ScopedFallbackPrefix: string := "No relevant course material found for video_id '"
  const ScopedFallbackSuffix: string :=
    "'. Make sure the video was uploaded with this video_id and try rephrasing your question."
  const GeneralFallback: string :=
    "No relevant course material found. Please make sure videos or documents have been uploaded and try rephrasing your question."

  /** The answer given when retrieval finds nothing: it names the video when
      one was asked for. */
  function NoMaterialAnswer(videoId: Option<string>): (r: string)
    ensures videoId.Some? && videoId.value != "" ==>
      StartsWith(r, ScopedFallbackPrefix) && OccursAt(r, videoId.value, |ScopedFallbackPrefix|)
      && EndsWith(r, ScopedFallbackSuffix)
    ensures videoId.Some? && videoId.value != "" ==>
      |r| == |ScopedFallbackPrefix| + |videoId.value| + |ScopedFallbackSuffix|
    ensures videoId.None? || videoId.value == "" ==> r == GeneralFallback
  {
    if videoId.Some? && videoId.value != "" then
      var r := ScopedFallbackPrefix + videoId.value + ScopedFallbackSuffix;
      assert r[..|ScopedFallbackPrefix|] == ScopedFallbackPrefix;
      assert r[|ScopedFallbackPrefix|..|ScopedFallbackPrefix| + |videoId.value|] == videoId.value;
      r
    else GeneralFallback
  }

  /** `ask_question`: every failure is reported in the result, never raised. */
  function AskQuestion(question: string, nContext: int, videoId: Option<string>, apiKey: Option<string>,
                       env: Option<string>, model: string, query: QueryFn, generate: GenerateFn): (r: AskResult)
    ensures r.success <==> r.error.None?
    ensures !r.success ==> r.answer == ""
    ensures var ctx := GetContext(question, nContext, videoId, query);
      && (ctx.Failure? ==> r == AskResult("", [], false, Some(ctx.error)))
      && (ctx.Success? && |ctx.value.0| == 0 ==> r == AskResult(NoMaterialAnswer(videoId), [], true, None))
      && (ctx.Success? && |ctx.value.0| > 0 ==> r.passagesUsed == Passages(ctx.value.0, ctx.value.1))
      && (ctx.Success? && |ctx.value.0| > 0 && ResolveApiKey(apiKey, env).Failure? ==>
            !r.success && r.error == Some(MissingKeyError))
      && (ctx.Success? && |ctx.value.0| > 0 ==>
            var g := GenerateAnswer(question, BuildContextBlock(ctx.value.0, ctx.value.1), apiKey, env, model, generate);
            && (g.Success? ==> r.success && r.answer == g.value)
            && (g.Failure? ==> r.error == Some(g.error)))
    ensures r.success && r.answer != "" && r.passagesUsed != [] ==>
      !IsSpace(r.answer[0]) && !IsSpace(r.answer[|r.answer| - 1])
  {
    match GetContext(question, nContext, videoId, query)
    case Failure(e) => AskResult("", [], false, Some(e))
    case Success((documents, metadatas)) =>
      if |documents| == 0 then
        AskResult(NoMaterialAnswer(videoId), [], true, None)
      else
        var passages := Passages(documents, metadatas);
        match GenerateAnswer(question, BuildContextBlock(documents, metadatas), apiKey, env, model, generate)
        case Failure(e) => AskResult("", passages, false, Some(e))
        case Success(answer) => AskResult(answer, passages, true, None)
  }

  /** When retrieval comes back empty, or no credential is available, the
      generation service plays no part in the result. */
  lemma {:induction false} GeneratorUnusedWithoutMaterialOrKey(question: string, nContext: int, videoId: Option<string>,
      apiKey: Option<string>, env: Option<string>, model: string, query: QueryFn, g1: GenerateFn, g2: GenerateFn)
    requires var ctx := GetContext(question, nContext, videoId, query);
      ctx.Failure? || |ctx.value.0| == 0 || ResolveApiKey(apiKey, env).Failure?
    ensures AskQuestion(question, nContext, videoId, apiKey, env, model, query, g1)
      == AskQuestion(question, nContext, videoId, apiKey, env, model, query, g2)
  {
  }
}

=== FILE: audio_utils.dfy ===
/** Audio extraction and fixed-length segmentation (src/audio_utils.py).
    Decoding and encoding audio are left to parameters; the model keeps the
    output names and the arithmetic of the segments. Durations are in
    milliseconds, the unit pydub slices by. */
module AudioUtils {
  import opened Wrappers
  import opened Strings
  import opened Paths

  const DefaultChunkMs: int := 30000

  /** Where `extract_audio_from_video` writes: `{stem}_audio.{format}` in the output directory. */
  function ExtractAudioPath(videoPath: string, outputDir: string, format: string): (r: string)
    ensures outputDir != "" && !EndsWith(outputDir, "/") ==> r == outputDir + "/" + Stem(videoPath) + "_audio." + format
    ensures outputDir == "" || EndsWith(outputDir, "/") ==> r == outputDir + Stem(videoPath) + "_audio." + format
    ensures Free(format, '/') ==> Basename(r) == Stem(videoPath) + "_audio." + format
    ensures StartsWith(r, outputDir)
  {
    var stem := Stem(videoPath);
    AudioNameJoined(stem, outputDir, format);
    JoinPath(outputDir, stem + "_audio." + format)
  }

  /** The audio file name has no '/' in its stem, so it never starts with one
      and always lands inside the output directory. */
  lemma {:induction false} AudioNameJoined(stem: string, outputDir: string, format: string)
    requires Free(stem, '/')
    ensures var r := JoinPath(outputDir, stem + "_audio." + format);
      && (outputDir != "" && !EndsWith(outputDir, "/") ==> r == outputDir + "/" + stem + "_audio." + format)
      && (outputDir == "" || EndsWith(outputDir, "/") ==> r == outputDir + stem + "_audio." + format)
      && (Free(format, '/') ==> Basename(r) == stem + "_audio." + format)
      && StartsWith(r, outputDir)
  {
    var name := stem + "_audio." + format;
    AudioNameRelative(stem, format);
    assert outputDir + "/" + name == outputDir + "/" + stem + "_audio." + format;
    assert outputDir + name == outputDir + stem + "_audio." + format;
    if Free(format, '/') {
      assert Free(name, '/');
      BasenameOfJoin(outputDir, name);
    }
  }

  /** The audio file name never starts with '/'. */
  lemma {:induction false} AudioNameRelative(stem: string, format: string)
    requires Free(stem, '/')
    ensures !StartsWith(stem + "_audio." + format, "/")
  {
    var name := stem + "_audio." + format;
    if stem == "" {
      assert name[0] == '_';
    } else {
      assert name[0] == stem[0];
    }
  }

  /** `extract_audio_from_video`: `encode` (pydub's load and export) writes the audio
      of the video to the path; its failure is the exception raised. */
  function ExtractAudioFromVideo(videoPath: string, outputDir: string, format: string,
                                 encode: (string, string, string) -> Outcome): (r: Result<string>)
    ensures r.Failure? <==> encode(videoPath, ExtractAudioPath(videoPath, outputDir, format), format).Fail?
    ensures r.Success? ==> r.value == ExtractAudioPath(videoPath, outputDir, format)
  {
    var out := ExtractAudioPath(videoPath, outputDir, format);
    match encode(videoPath, out, format)
    case Fail(e) => Failure(e)
    case Pass => Success(out)
  }

  /** One exported segment: its file and the slice `[startMs, endMs)` of the audio. */
  datatype Segment = Segment(path: string, startMs: int, endMs: int)

  function Min(a: int, b: int): int {
    if a <= b then a else b
  }

  /** `{base}_segment_{i}.wav` in the output directory. */
  function SegmentPath(outputDir: string, base: string, i: nat): string {
    JoinPath(outputDir, base + "_segment_" + NatToString(i) + ".wav")
  }

  /** Different segments are written to different files. */
  lemma {:induction false} SegmentPathsDistinct(outputDir: string, base: string, i: nat, j: nat)
    requires Free(base, '/') && i != j
    ensures SegmentPath(outputDir, base, i) != SegmentPath(outputDir, base, j)
  {
    var ni := base + "_segment_" + NatToString(i) + ".wav";
    var nj := base + "_segment_" + NatToString(j) + ".wav";
    SegmentNameFree(base, i);
    SegmentNameFree(base, j);
    BasenameOfJoin(outputDir, ni);
    BasenameOfJoin(outputDir, nj);
    if ni == nj {
      var p := |base| + 9;
      assert |NatToString(i)| == |NatToString(j)|;
      assert ni[p..p + |NatToString(i)|] == NatToString(i);
      assert nj[p..p + |NatToString(j)|] == NatToString(j);
      NatToStringInjective(i, j);
    }
  }

  lemma {:induction false} SegmentNameFree(base: string, i: nat)
    requires Free(base, '/')
    ensures Free(base + "_segment_" + NatToString(i) + ".wav", '/')
  {
    var digits := NatToString(i);
    assert forall k :: 0 <= k < |digits| ==> IsDigit(digits[k]);
  }

  /** The `i`-th slice: `audio[i*L : i*L + L]`, clipped to the audio's length. */
  function SegmentAt(base: string, outputDir: string, chunkMs: int, lengthMs: nat, i: nat): Segment {
    Segment(SegmentPath(outputDir, base, i), i * chunkMs, Min((i + 1) * chunkMs, lengthMs))
  }

  /** ceil(lengthMs / chunkMs). */
  function SegmentCount(lengthMs: nat, chunkMs: int): nat
    requires chunkMs > 0
  {
    (lengthMs + chunkMs - 1) / chunkMs
  }

  /** The segments `split_audio_into_chunks` produces, as a reference definition. */
  function SegmentPlan(audioPath: string, chunkMs: int, outputDir: string, lengthMs: nat): (r: seq<Segment>)
    requires chunkMs > 0 || lengthMs == 0
  {
    if lengthMs == 0 then []
    else
      seq(SegmentCount(lengthMs, chunkMs), i requires 0 <= i =>
        SegmentAt(Stem(audioPath), outputDir, chunkMs, lengthMs, i))
  }

  /** `q` is ceil(n / d) when the first q slices reach n and q - 1 do not. */
  lemma {:induction false} CeilDiv(n: nat, d: int, q: nat)
    requires d > 0 && q * d >= n && (q == 0 || (q - 1) * d < n)
    ensures q == (n + d - 1) / d
  {
    if q > 0 {
      assert (q - 1) * d == q * d - d;
    }
    DivUnique(n + d - 1, d, q, n + d - 1 - q * d);
  }

  /** Euclidean division has one quotient. */
  lemma {:induction false} DivUnique(a: int, d: int, q: int, r: int)
    requires d > 0 && 0 <= r < d && a == q * d + r
    ensures a / d == q
  {
    var q1 := a / d;
    var r1 := a % d;
    assert a == q1 * d + r1;
    assert (q - q1) * d == r1 - r;
    if q > q1 {
      MulMono(1, q - q1, d);
      assert false;
    } else if q < q1 {
      MulMono(1, q1 - q, d);
      assert false;
    }
  }

  lemma {:induction false} MulMono(a: int, b: int, d: int)
    requires a <= b && d >= 0
    ensures a * d <= b * d
  {
    assert b * d - a * d == (b - a) * d;
  }

  lemma {:induction false} MulStep(i: int, d: int)
    ensures (i + 1) * d == i * d + d
  {
  }

  /** Cancelling a positive factor from a strict inequality. */
  lemma {:induction false} MulLessCancel(a: int, b: int, d: int)
    requires d > 0 && a * d < b * d
    ensures a < b
  {
    if a >= b {
      MulMono(b, a, d);
      assert false;
    }
  }

  /** `split_audio_into_chunks` on audio of `lengthMs` milliseconds: the loop
      slices from 0 in steps of `chunkMs` while the start is inside the audio.
      With `chunkMs <= 0` and non-empty audio the loop never ends, hence the
      precondition. */
  method SplitAudio(audioPath: string, chunkMs: int, outputDir: string, lengthMs: nat)
    returns (segments: seq<Segment>)
    requires chunkMs > 0 || lengthMs == 0
    ensures segments == SegmentPlan(audioPath, chunkMs, outputDir, lengthMs)
  {
    segments := SliceLoop(Stem(audioPath), chunkMs, outputDir, lengthMs);
    PlanFromLayout(segments, audioPath, chunkMs, outputDir, lengthMs);
  }

  /** The loop of `split_audio_into_chunks` for segment files named after `base`:
      it cuts exactly ceil(length / L) slices, the k-th being segment k. */
  method SliceLoop(base: string, chunkMs: int, outputDir: string, lengthMs: nat)
    returns (segments: seq<Segment>)
    requires chunkMs > 0 || lengthMs == 0
    ensures lengthMs == 0 ==> segments == []
    ensures lengthMs > 0 ==> |segments| == SegmentCount(lengthMs, chunkMs)
    ensures forall k :: 0 <= k < |segments| ==> segments[k] == SegmentAt(base, outputDir, chunkMs, lengthMs, k)
  {
    segments := [];
    var start := 0;
    var i: nat := 0;
    while start < lengthMs
      invariant start == i * chunkMs
      invariant i > 0 ==> chunkMs > 0 && (i - 1) * chunkMs < lengthMs
      invariant |segments| == i
      invariant forall k :: 0 <= k < i ==> segments[k] == SegmentAt(base, outputDir, chunkMs, lengthMs, k)
      decreases lengthMs - start
    {
      var end := Min(start + chunkMs, lengthMs);
      var segment := Segment(SegmentPath(outputDir, base, i), start, end);
      AppendSegmentAt(segments, base, outputDir, chunkMs, lengthMs, i, start);
      segments := segments + [segment];
      start := start + chunkMs;
      i := i + 1;
    }
    if lengthMs > 0 {
      CeilDiv(lengthMs, chunkMs, i);
    }
  }

  /** Appending the slice the loop cuts at `start = i * chunkMs` extends the
      layout by segment `i`. */
  lemma {:induction false} AppendSegmentAt(segments: seq<Segment>, base: string, outputDir: string, chunkMs: int, lengthMs: nat, i: nat, start: int)
    requires start == i * chunkMs && |segments| == i
    requires forall k :: 0 <= k < i ==> segments[k] == SegmentAt(base, outputDir, chunkMs, lengthMs, k)
    ensures var next := segments + [Segment(SegmentPath(outputDir, base, i), start, Min(start + chunkMs, lengthMs))];
      forall k :: 0 <= k < i + 1 ==> next[k] == SegmentAt(base, outputDir, chunkMs, lengthMs, k)
    ensures start + chunkMs == (i + 1) * chunkMs
  {
    SliceIsSegmentAt(base, outputDir, chunkMs, lengthMs, i, start);
  }

  /** The slice the loop cuts at `start = i * chunkMs` is segment `i`. */
  lemma {:induction false} SliceIsSegmentAt(base: string, outputDir: string, chunkMs: int, lengthMs: nat, i: nat, start: int)
    requires start == i * chunkMs
    ensures SegmentAt(base, outputDir, chunkMs, lengthMs, i)
      == Segment(SegmentPath(outputDir, base, i), start, Min(start + chunkMs, lengthMs))
    ensures start + chunkMs == (i + 1) * chunkMs
  {
    MulStep(i, chunkMs);
  }

  lemma {:induction false} PlanFromLayout(segments: seq<Segment>, audioPath: string, chunkMs: int, outputDir: string, lengthMs: nat)
    requires chunkMs > 0 || lengthMs == 0
    requires lengthMs == 0 ==> segments == []
    requires lengthMs > 0 ==> |segments| == SegmentCount(lengthMs, chunkMs)
    requires forall k :: 0 <= k < |segments| ==>
      segments[k] == SegmentAt(Stem(audioPath), outputDir, chunkMs, lengthMs, k)
    ensures segments == SegmentPlan(audioPath, chunkMs, outputDir, lengthMs)
  {
  }

  /** Segment `i` of `q` starts inside the audio and is not empty; all but the
      last end a full chunk later, and the last ends with the audio. */
  lemma {:induction false} SegmentFacts(chunkMs: int, lengthMs: nat, i: nat)
    requires chunkMs > 0 && lengthMs > 0 && i < SegmentCount(lengthMs, chunkMs)
    ensures i * chunkMs < lengthMs
    ensures i * chunkMs < Min((i + 1) * chunkMs, lengthMs)
    ensures i + 1 < SegmentCount(lengthMs, chunkMs) ==> Min((i + 1) * chunkMs, lengthMs) == (i + 1) * chunkMs
    ensures i + 1 == SegmentCount(lengthMs, chunkMs) ==> Min((i + 1) * chunkMs, lengthMs) == lengthMs
  {
    var q := SegmentCount(lengthMs, chunkMs);
    CountBounds(lengthMs, chunkMs);
    MulMono(i, q - 1, chunkMs);
    MulStep(i, chunkMs);
    if i + 1 < q {
      MulMono(i + 1, q - 1, chunkMs);
    }
  }

  /** The plan tiles the audio: ceil(length / L) segments, each non-empty, the
      first starting at 0, each ending where the next starts, the last ending
      at the audio's end. */
  lemma {:induction false} PlanTilesAudio(audioPath: string, chunkMs: int, outputDir: string, lengthMs: nat)
    requires chunkMs > 0
    ensures var plan := SegmentPlan(audioPath, chunkMs, outputDir, lengthMs);
      && |plan| == SegmentCount(lengthMs, chunkMs)
      && (forall i :: 0 <= i < |plan| ==> plan[i].startMs < plan[i].endMs)
      && (|plan| > 0 ==> plan[0].startMs == 0 && plan[|plan| - 1].endMs == lengthMs)
      && (forall i :: 0 <= i < |plan| - 1 ==> plan[i].endMs == plan[i + 1].startMs)
  {
    var plan := SegmentPlan(audioPath, chunkMs, outputDir, lengthMs);
    if lengthMs == 0 {
      DivUnique(chunkMs - 1, chunkMs, 0, chunkMs - 1);
    } else {
      forall i | 0 <= i < |plan|
        ensures plan[i].startMs < plan[i].endMs
      {
        SegmentFacts(chunkMs, lengthMs, i);
      }
      forall i | 0 <= i < |plan| - 1
        ensures plan[i].endMs == plan[i + 1].startMs
      {
        SegmentFacts(chunkMs, lengthMs, i);
      }
      SegmentFacts(chunkMs, lengthMs, |plan| - 1);
    }
  }

  /** The count reaches the end of the audio and one segment fewer does not. */
  lemma {:induction false} CountBounds(lengthMs: nat, chunkMs: int)
    requires chunkMs > 0 && lengthMs > 0
    ensures var q := SegmentCount(lengthMs, chunkMs);
      q >= 1 && q * chunkMs >= lengthMs && (q - 1) * chunkMs < lengthMs
  {
    var q := SegmentCount(lengthMs, chunkMs);
    var rem := (lengthMs + chunkMs - 1) % chunkMs;
    assert lengthMs + chunkMs - 1 == q * chunkMs + rem;
    assert (q - 1) * chunkMs == q * chunkMs - chunkMs;
    if q <= 0 {
      MulMono(q, 0, chunkMs);
      assert false;
    }
  }

  /** Every millisecond of the audio lies in exactly one segment, the one
      numbered `t / chunkMs`. */
  lemma {:induction false} SegmentOfMillisecond(audioPath: string, chunkMs: int, outputDir: string, lengthMs: nat, t: int)
    requires chunkMs > 0 && 0 <= t < lengthMs
    ensures var plan := SegmentPlan(audioPath, chunkMs, outputDir, lengthMs);
      var k := t / chunkMs;
      && k < |plan| && plan[k].startMs <= t < plan[k].endMs
      && forall j :: 0 <= j < |plan| && j != k ==> !(plan[j].startMs <= t < plan[j].endMs)
  {
    var plan := SegmentPlan(audioPath, chunkMs, outputDir, lengthMs);
    var k := t / chunkMs;
    PlanBounds(audioPath, chunkMs, outputDir, lengthMs);
    SlotOf(chunkMs, lengthMs, t);
    forall j | 0 <= j < |plan| && j != k
      ensures !(plan[j].startMs <= t < plan[j].endMs)
    {
      OtherSegmentMisses(chunkMs, lengthMs, t, k, j);
    }
  }

  /** The plan has one segment per chunk, the j-th from j * chunkMs to the
      next chunk or the audio's end. */
  lemma {:induction false} PlanBounds(audioPath: string, chunkMs: int, outputDir: string, lengthMs: nat)
    requires chunkMs > 0
    ensures |SegmentPlan(audioPath, chunkMs, outputDir, lengthMs)| == SegmentCount(lengthMs, chunkMs)
    ensures forall j :: 0 <= j < |SegmentPlan(audioPath, chunkMs, outputDir, lengthMs)| ==>
      && SegmentPlan(audioPath, chunkMs, outputDir, lengthMs)[j].startMs == j * chunkMs
      && SegmentPlan(audioPath, chunkMs, outputDir, lengthMs)[j].endMs == Min((j + 1) * chunkMs, lengthMs)
  {
    if lengthMs == 0 {
      assert SegmentCount(lengthMs, chunkMs) == 0;
    }
  }

  /** The millisecond `t` falls in chunk `t / chunkMs`, which is one of the segments. */
  lemma {:induction false} SlotOf(chunkMs: int, lengthMs: nat, t: int)
    requires chunkMs > 0 && 0 <= t < lengthMs
    ensures t / chunkMs < SegmentCount(lengthMs, chunkMs)
    ensures (t / chunkMs) * chunkMs <= t < (t / chunkMs + 1) * chunkMs
  {
    var k := t / chunkMs;
    var q := SegmentCount(lengthMs, chunkMs);
    CountBounds(lengthMs, chunkMs);
    assert k * chunkMs <= t < k * chunkMs + chunkMs by {
      assert t == k * chunkMs + t % chunkMs;
    }
    MulStep(k, chunkMs);
    MulLessCancel(k, q, chunkMs);
  }

  lemma {:induction false} OtherSegmentMisses(chunkMs: int, lengthMs: nat, t: int, k: nat, j: nat)
    requires chunkMs > 0 && k * chunkMs <= t < (k + 1) * chunkMs && j != k
    ensures !(j * chunkMs <= t < Min((j + 1) * chunkMs, lengthMs))
  {
    if j < k {
      MulMono(j + 1, k, chunkMs);
    } else {
      MulMono(k + 1, j, chunkMs);
    }
  }

  /** Writing the segments one after the other; the first failure is raised. */
  function ExportAll(segments: seq<Segment>, write: Segment -> Outcome): (r: Outcome)
    ensures r.Pass? <==> forall k :: 0 <= k < |segments| ==> write(segments[k]).Pass?
    decreases |segments|
  {
    if |segments| == 0 then Pass
    else match write(segments[0])
      case Fail(e) => Fail(e)
      case Pass =>
        var rest := ExportAll(segments[1..], write);
        assert forall k :: 1 <= k < |segments| ==> segments[k] == segments[1..][k - 1];
        rest
  }

  /** The audio library as the segmentation sees it: the length in
      milliseconds of a decoded file, and writing one segment to its path. */
  datatype AudioFiles = AudioFiles(lengthOf: string -> Result<nat>, write: Segment -> Outcome)

  /** `split_audio_into_chunks` with its I/O: the paths of the written
      segments, in order. Takes the positive chunk length the callers pass. */
  function SplitAudioIntoChunks(audioPath: string, chunkMs: int, outputDir: string, io: AudioFiles)
    : (r: Result<seq<string>>)
    requires chunkMs > 0
    ensures io.lengthOf(audioPath).Failure? ==> r == Failure(io.lengthOf(audioPath).error)
    ensures io.lengthOf(audioPath).Success? ==>
      (r.Success? <==> ExportAll(SegmentPlan(audioPath, chunkMs, outputDir, io.lengthOf(audioPath).value), io.write).Pass?)
    ensures r.Success? ==> var plan := SegmentPlan(audioPath, chunkMs, outputDir, io.lengthOf(audioPath).value);
      |r.value| == |plan| && forall k :: 0 <= k < |plan| ==> r.value[k] == plan[k].path
  {
    match io.lengthOf(audioPath)
    case Failure(e) => Failure(e)
    case Success(lengthMs) =>
      var plan := SegmentPlan(audioPath, chunkMs, outputDir, lengthMs);
      match ExportAll(plan, io.write)
      case Fail(e) => Failure(e)
      case Pass => Success(seq(|plan|, k requires 0 <= k < |plan| => plan[k].path))
  }
}

=== FILE: document_utils.dfy ===
/** Text extraction from PDF and DOCX files (src/document_utils.py). The
    PDF and DOCX readers are parameters giving the page texts and paragraph
    texts; the model keeps the dispatch and the filtering and joining. */
module DocumentUtils {
  import opened Wrappers
  import opened Strings
  import opened Paths

  /** `extract_text_from_pdf` after reading: truthy page texts joined by
      newlines, stripped. */
  function ExtractTextFromPdf(pages: seq<string>): (r: string)
    ensures r == "" <==> forall k :: 0 <= k < |pages| ==> AllSpace(pages[k])
    ensures r != "" ==> !IsSpace(r[0]) && !IsSpace(r[|r| - 1])
  {
    StripJoinEmpty("\n", KeepNonEmpty(pages));
    KeepNonEmptyAllSpace(pages);
    Strip(Join("\n", KeepNonEmpty(pages)))
  }

  /** Every page's text, stripped, appears in the extracted PDF text. */
  lemma {:induction false} PdfKeepsPage(pages: seq<string>, k: nat)
    requires k < |pages|
    ensures Contains(ExtractTextFromPdf(pages), Strip(pages[k]))
  {
    var kept := KeepNonEmpty(pages);
    if pages[k] == "" {
      assert OccursAt(ExtractTextFromPdf(pages), Strip(pages[k]), 0);
    } else {
      var j := KeepNonEmptyMember(pages, k);
      JoinContainsPart("\n", kept, j);
      StripKeepsContained(Join("\n", kept), pages[k]);
    }
  }

  /** Two non-empty pages with only empty pages between them appear in the
      extracted text in page order, separated by one newline. */
  lemma {:induction false} PdfPagesAdjacent(pages: seq<string>, i: nat, i2: nat)
    requires i < i2 < |pages| && pages[i] != "" && pages[i2] != ""
    requires forall m :: i < m < i2 ==> pages[m] == ""
    ensures Contains(ExtractTextFromPdf(pages), Strip(pages[i] + "\n" + pages[i2]))
  {
    var kept := KeepNonEmpty(pages);
    var j := KeepNonEmptyNeighbours(pages, i, i2);
    JoinContainsAdjacent("\n", kept, j);
    StripKeepsContained(Join("\n", kept), pages[i] + "\n" + pages[i2]);
  }

  /** `extract_text_from_docx` after reading: the paragraphs that are not
      whitespace only, joined by newlines, stripped. */
  function ExtractTextFromDocx(paragraphs: seq<string>): (r: string)
    ensures r == "" <==> forall k :: 0 <= k < |paragraphs| ==> AllSpace(paragraphs[k])
    ensures r != "" ==> !IsSpace(r[0]) && !IsSpace(r[|r| - 1])
  {
    DocxBlankIff(paragraphs);
    Strip(Join("\n", KeepNonBlank(paragraphs)))
  }

  /** The extracted DOCX text is empty exactly when every paragraph is blank. */
  lemma {:induction false} DocxBlankIff(paragraphs: seq<string>)
    ensures Strip(Join("\n", KeepNonBlank(paragraphs))) == "" <==> forall k :: 0 <= k < |paragraphs| ==> AllSpace(paragraphs[k])
  {
    StripJoinEmpty("\n", KeepNonBlank(paragraphs));
    NonBlankKeptIff(paragraphs);
  }

  /** No paragraph survives the filter exactly when all are whitespace. */
  lemma {:induction false} NonBlankKeptIff(paragraphs: seq<string>)
    ensures (forall k :: 0 <= k < |KeepNonBlank(paragraphs)| ==> AllSpace(KeepNonBlank(paragraphs)[k]))
        <==> (forall k :: 0 <= k < |paragraphs| ==> AllSpace(paragraphs[k]))
  {
    var kept := KeepNonBlank(paragraphs);
    if exists k :: 0 <= k < |paragraphs| && !AllSpace(paragraphs[k]) {
      var k :| 0 <= k < |paragraphs| && !AllSpace(paragraphs[k]);
      assert paragraphs[k] in kept;
      var j :| 0 <= j < |kept| && kept[j] == paragraphs[k];
      assert !AllSpace(kept[j]);
    } else {
      NothingKept(paragraphs);
    }
  }

  lemma {:induction false} NothingKept(paragraphs: seq<string>)
    requires forall k :: 0 <= k < |paragraphs| ==> AllSpace(paragraphs[k])
    ensures KeepNonBlank(paragraphs) == []
    decreases |paragraphs|
  {
    if |paragraphs| > 0 {
      NothingKept(paragraphs[..|paragraphs| - 1]);
    }
  }

  /** Every paragraph with visible text appears in the joined DOCX text, and
      stripped, in the extracted text. */
  lemma {:induction false} DocxKeepsParagraph(paragraphs: seq<string>, k: nat)
    requires k < |paragraphs| && !AllSpace(paragraphs[k])
    ensures Contains(Join("\n", KeepNonBlank(paragraphs)), paragraphs[k])
    ensures Contains(ExtractTextFromDocx(paragraphs), Strip(paragraphs[k]))
  {
    var kept := KeepNonBlank(paragraphs);
    assert paragraphs[k] in kept;
    var j :| 0 <= j < |kept| && kept[j] == paragraphs[k];
    JoinContainsPart("\n", kept, j);
    StripKeepsContained(Join("\n", kept), paragraphs[k]);
  }

  /** Two non-blank paragraphs with only blank paragraphs between them appear
      in document order, separated by one newline. */
  lemma {:induction false} DocxParagraphsAdjacent(paragraphs: seq<string>, i: nat, i2: nat)
    requires i < i2 < |paragraphs| && !AllSpace(paragraphs[i]) && !AllSpace(paragraphs[i2])
    requires forall m :: i < m < i2 ==> AllSpace(paragraphs[m])
    ensures Contains(Join("\n", KeepNonBlank(paragraphs)), paragraphs[i] + "\n" + paragraphs[i2])
    ensures Contains(ExtractTextFromDocx(paragraphs), Strip(paragraphs[i] + "\n" + paragraphs[i2]))
  {
    var kept := KeepNonBlank(paragraphs);
    var j := KeepNonBlankNeighbours(paragraphs, i, i2);
    JoinContainsAdjacent("\n", kept, j);
    StripKeepsContained(Join("\n", kept), paragraphs[i] + "\n" + paragraphs[i2]);
  }

  /** The readers: the page texts of a PDF and the paragraph texts of a DOCX
      file, or the exception a damaged or missing file raises. */
  datatype Readers = Readers(pdfPages: string -> Result<seq<string>>, docxParagraphs: string -> Result<seq<string>>)

  /** `extract_document_text`: dispatch on the lowercased suffix. ".pdf" and
      ".docx" are read; ".doc" and every other suffix give `None`. */
  function ExtractDocumentText(filePath: string, readers: Readers): (r: Result<Option<string>>)
    ensures Lower(Suffix(filePath)) != ".pdf" && Lower(Suffix(filePath)) != ".docx" ==> r == Success(None)
    ensures Lower(Suffix(filePath)) == ".pdf" ==>
      (r.Failure? <==> readers.pdfPages(filePath).Failure?)
      && (r.Success? ==> r.value == Some(ExtractTextFromPdf(readers.pdfPages(filePath).value)))
    ensures Lower(Suffix(filePath)) == ".docx" ==>
      (r.Failure? <==> readers.docxParagraphs(filePath).Failure?)
      && (r.Success? ==> r.value == Some(ExtractTextFromDocx(readers.docxParagraphs(filePath).value)))
  {
    var suffix := Lower(Suffix(filePath));
    if suffix == ".pdf" then
      match readers.pdfPages(filePath)
      case Failure(e) => Failure(e)
      case Success(pages) => Success(Some(ExtractTextFromPdf(pages)))
    else if suffix == ".docx" || suffix == ".doc" then
      if suffix == ".doc" then Success(None)
      else
        match readers.docxParagraphs(filePath)
        case Failure(e) => Failure(e)
        case Success(paragraphs) => Success(Some(ExtractTextFromDocx(paragraphs)))
    else
      Success(None)
  }
}

=== FILE: download_utils.dfy ===
/** Choosing how and where to download a media URL (src/download_utils.py).
    The network transfer itself, the yt-dlp run and the file system are
    parameters: what the model keeps is the routing and the naming. */
module DownloadUtils {
  import opened Wrappers
  import opened Strings
  import opened Paths
  import opened Urls

  /** Hosts handed to yt-dlp rather than fetched directly. */
  const YtDlpDomains: seq<string> := ["youtube.com", "www.youtube.com", "youtu.be", "m.youtube.com",
    "vimeo.com", "dailymotion.com", "facebook.com", "fb.watch", "twitter.com", "x.com"]

  /** `is_url`: `None` counts as ""; after stripping whitespace the text must
      start with "http://" or "https://" (case-sensitively). */
  predicate IsUrl(path: Option<string>): (r: bool)
    ensures r ==> path.Some? && !AllSpace(path.value)
  {
    var s := Strip(path.GetOr(""));
    StartsWith(s, "http://") || StartsWith(s, "https://")
  }

  /** The leading strip of control characters and spaces that `urlsplit`
      does first never changes a URL `is_url` accepts, once stripped: it
      starts with 'h'. */
  lemma {:induction false} LStripC0KeepsUrl(url: Option<string>)
    requires IsUrl(url)
    ensures LStripC0(Strip(url.value)) == Strip(url.value)
  {
    assert url.GetOr("") == url.value;
    HttpLeadKept(Strip(url.value));
  }

  /** Text starting with "http://" or "https://" has no leading control
      character or space to strip. */
  lemma {:induction false} HttpLeadKept(u: string)
    requires StartsWith(u, "http://") || StartsWith(u, "https://")
    ensures LStripC0(u) == u
  {
    assert u[0] == 'h' by {
      if StartsWith(u, "http://") {
        assert u[..7][0] == 'h';
      } else {
        assert u[..8][0] == 'h';
      }
    }
  }

  /** A URL starting with "http://" ("https://") is parsed with scheme "http" ("https"). */
  lemma {:induction false} HttpPrefixScheme(u: string, scheme: string)
    requires scheme == "http" || scheme == "https"
    requires StartsWith(u, scheme + "://")
    ensures UrlParse(u).Success? ==> UrlParse(u).value.scheme == scheme
  {
    var prefix := scheme + "://";
    HttpPrefixSafe(u, scheme);
    CleanPrefixSurvives(u, |prefix|);
    var v := RemoveUnsafe(LStripC0(u));
    assert v[..|prefix|] == u[..|prefix|];
    SchemeOfHttp(v, scheme);
  }

  /** The characters of a "http://" or "https://" prefix are neither control
      characters nor tabs or line breaks. */
  lemma {:induction false} HttpPrefixSafe(u: string, scheme: string)
    requires scheme == "http" || scheme == "https"
    requires StartsWith(u, scheme + "://")
    ensures |scheme + "://"| <= |u|
    ensures !IsC0OrSpace(u[0])
    ensures forall i :: 0 <= i < |scheme + "://"| ==> !IsUnsafe(u[i])
  {
    var prefix := scheme + "://";
    assert u[..|prefix|] == prefix;
    forall i | 0 <= i < |prefix|
      ensures !IsUnsafe(u[i])
    {
      assert u[i] == prefix[i];
    }
  }

  /** Preprocessing keeps a clean prefix of a URL that does not start with a
      control character or a space. */
  lemma {:induction false} CleanPrefixSurvives(u: string, n: nat)
    requires 0 < n <= |u| && !IsC0OrSpace(u[0])
    requires forall i :: 0 <= i < n ==> !IsUnsafe(u[i])
    ensures RemoveUnsafe(LStripC0(u)) == u[..n] + RemoveUnsafe(u[n..])
  {
    assert LStripC0(u) == u;
    assert u == u[..n] + u[n..];
    RemoveUnsafeKeeps(u[..n], u[n..]);
  }

  /** Whatever `is_url` accepts, `urlparse` reads with scheme "http" or "https". */
  lemma {:induction false} IsUrlMeansHttpScheme(s: string)
    requires IsUrl(Some(s))
    ensures UrlParse(Strip(s)).Success? ==>
      UrlParse(Strip(s)).value.scheme == "http" || UrlParse(Strip(s)).value.scheme == "https"
  {
    var u := Strip(s);
    HttpLeadScheme(u);
  }

  /** Text starting with "http://" or "https://" is parsed with the scheme it names. */
  lemma {:induction false} HttpLeadScheme(u: string)
    requires StartsWith(u, "http://") || StartsWith(u, "https://")
    ensures UrlParse(u).Success? ==> UrlParse(u).value.scheme == "http" || UrlParse(u).value.scheme == "https"
  {
    if StartsWith(u, "http://") {
      assert "http" + "://" == "http://";
      HttpPrefixScheme(u, "http");
    } else {
      assert "https" + "://" == "https://";
      HttpPrefixScheme(u, "https");
    }
  }

  /** The netloc, lowercased, with every leading 'w' and '.' removed: a
      character-set `lstrip("www.")`, not the removal of a "www." prefix. */
  function HostKey(netloc: string): (r: string)
    ensures |r| <= |netloc|
    ensures r == Lower(netloc)[|netloc| - |r|..]
    ensures forall i :: 0 <= i < |netloc| - |r| ==> Lower(netloc)[i] in {'w', '.'}
    ensures |r| > 0 ==> r[0] !in {'w', '.'}
  {
    LStripChars(Lower(netloc), {'w', '.'})
  }

  /** Some domain of `domains` occurs anywhere in `host` (a substring test). */
  predicate MentionsAny(host: string, domains: seq<string>) {
    exists k :: 0 <= k < |domains| && Contains(host, domains[k])
  }

  /** Some listed domain occurs anywhere in `host`. */
  predicate MentionsYtDlpDomain(host: string) {
    MentionsAny(host, YtDlpDomains)
  }

  /** `_is_yt_dlp_domain`: a parse failure counts as "no". */
  predicate IsYtDlpDomain(url: string): (r: bool)
    ensures r <==> UrlParse(url).Success? && MentionsYtDlpDomain(Lower(UrlParse(url).value.netloc))
  {
    match UrlParse(url)
    case Failure(_) => false
    case Success(p) => HostKeyIrrelevant(p.netloc); MentionsYtDlpDomain(HostKey(p.netloc))
  }

  lemma {:induction false} OccursInSuffix(s: string, cut: nat, pat: string, j: int)
    requires cut <= |s| && OccursAt(s[cut..], pat, j)
    ensures OccursAt(s, pat, cut + j)
  {
    assert s[cut + j..cut + j + |pat|] == s[cut..][j..j + |pat|];
  }

  lemma {:induction false} OccursBeyondCut(s: string, cut: nat, pat: string, j: int)
    requires cut <= j && OccursAt(s, pat, j)
    ensures OccursAt(s[cut..], pat, j - cut)
  {
    assert s[cut..][j - cut..j - cut + |pat|] == s[j..j + |pat|];
  }

  /** `e` ends `d` and starts with a character `lstrip("www.")` keeps. */
  predicate TailAfterRun(d: string, e: string) {
    0 < |e| <= |d| && d[|d| - |e|..] == e && e[0] !in {'w', '.'}
  }

  /** Every domain is non-empty, and one that starts with 'w' or '.' ends with
      another domain of the list that does not. */
  predicate StripSafe(domains: seq<string>) {
    forall k :: 0 <= k < |domains| ==>
      |domains[k]| > 0 && (domains[k][0] in {'w', '.'} ==> exists m :: 0 <= m < |domains| && TailAfterRun(domains[k], domains[m]))
  }

  /** The listed domains are strip-safe: only "www.youtube.com" starts with 'w'
      or '.', and it ends with "youtube.com". */
  lemma {:induction false} YtDlpDomainsStripSafe()
    ensures StripSafe(YtDlpDomains)
  {
    assert TailAfterRun(YtDlpDomains[1], YtDlpDomains[0]);
  }

  /** Stripping leading 'w' and '.' characters never changes the verdict: the
      lowercased netloc mentions a listed domain exactly when the stripped one does. */
  lemma {:induction false} HostKeyIrrelevant(netloc: string)
    ensures MentionsYtDlpDomain(HostKey(netloc)) <==> MentionsYtDlpDomain(Lower(netloc))
  {
    YtDlpDomainsStripSafe();
    HostKeyIrrelevantFor(netloc, YtDlpDomains);
  }

  /** For any strip-safe list, the stripped host mentions a domain exactly when
      the lowercased netloc does. */
  lemma {:induction false} HostKeyIrrelevantFor(netloc: string, domains: seq<string>)
    requires StripSafe(domains)
    ensures MentionsAny(HostKey(netloc), domains) <==> MentionsAny(Lower(netloc), domains)
  {
    var low := Lower(netloc);
    var cut := |low| - |HostKey(netloc)|;
    StripRunIrrelevant(low, cut, domains);
  }

  /** Cutting off a leading run of 'w' and '.' characters keeps the verdict. */
  lemma {:induction false} StripRunIrrelevant(low: string, cut: int, domains: seq<string>)
    requires StripSafe(domains)
    requires 0 <= cut <= |low| && forall i :: 0 <= i < cut ==> low[i] in {'w', '.'}
    ensures MentionsAny(low[cut..], domains) <==> MentionsAny(low, domains)
  {
    var host := low[cut..];
    if MentionsAny(host, domains) {
      var k :| 0 <= k < |domains| && Contains(host, domains[k]);
      var j := ContainsWitness(host, domains[k]);
      OccursInSuffix(low, cut, domains[k], j);
      ContainsAt(low, domains[k], cut + j);
    }
    if MentionsAny(low, domains) {
      var k :| 0 <= k < |domains| && Contains(low, domains[k]);
      StrippedStillMentions(low, cut, domains, k);
    }
  }

  lemma {:induction false} StrippedStillMentions(low: string, cut: int, domains: seq<string>, k: int)
    requires StripSafe(domains)
    requires 0 <= cut <= |low| && forall i :: 0 <= i < cut ==> low[i] in {'w', '.'}
    requires 0 <= k < |domains| && Contains(low, domains[k])
    ensures MentionsAny(low[cut..], domains)
  {
    var d := domains[k];
    var j := ContainsWitness(low, d);
    if j >= cut {
      OccursBeyondCut(low, cut, d, j);
      ContainsAt(low[cut..], d, j - cut);
    } else {
      MatchInsideStrippedRun(low, low[cut..], domains, k, j, cut);
    }
  }

  /** A match beginning inside the stripped run is of a domain starting with
      'w' or '.'; the domain it ends with starts where the strip stops or later. */
  lemma {:induction false} MatchInsideStrippedRun(low: string, host: string, domains: seq<string>, k: int, j: int, cut: int)
    requires StripSafe(domains) && 0 <= k < |domains|
    requires 0 <= j < cut <= |low| && host == low[cut..]
    requires OccursAt(low, domains[k], j)
    requires forall i :: 0 <= i < cut ==> low[i] in {'w', '.'}
    ensures MentionsAny(host, domains)
  {
    var d := domains[k];
    assert low[j..j + |d|] == d;
    assert low[j] == d[0];
    var m :| 0 <= m < |domains| && TailAfterRun(d, domains[m]);
    var e := domains[m];
    var o := |d| - |e|;
    assert low[j + o..j + o + |e|] == d[o..];
    assert OccursAt(low, e, j + o);
    assert low[j + o] == e[0];
    assert cut <= j + o;
    OccursBeyondCut(low, cut, e, j + o);
    ContainsAt(host, e, j + o - cut);
  }

  /** For an http(s) URL without tabs or line breaks whose host has balanced
      brackets, the verdict is exactly: the lowercased host (everything between
      "//" and the first '/', '?' or '#') contains a listed domain as a
      substring. So "https://dropbox.com/a.mp4" goes to yt-dlp ("x.com" is
      inside "dropbox.com"). */
  lemma {:induction false} YtDlpVerdict(url: string, scheme: string)
    requires scheme == "http" || scheme == "https"
    requires StartsWith(url, scheme + "://")
    requires forall i :: 0 <= i < |url| ==> !IsUnsafe(url[i])
    ensures var tail := url[|scheme| + 3..];
      var host := tail[..FirstOf(tail, NetlocStops)];
      !UnbalancedBrackets(host) ==> (IsYtDlpDomain(url) <==> MentionsYtDlpDomain(Lower(host)))
  {
    HttpUrlParts(url, scheme);
    var tail := url[|scheme| + 3..];
    var host := tail[..FirstOf(tail, NetlocStops)];
    if !UnbalancedBrackets(host) {
      assert UrlParse(url).Success?;
      assert UrlParse(url).value.netloc == host;
      HostKeyIrrelevant(host);
    }
  }

  /** Extensions that keep a direct-download file name as it is. */
  const MediaExtensions: seq<string> := ["mp4", "webm", "mkv", "mov", "avi", "m4a", "mp3", "wav"]

  /** The pattern `\.(mp4|webm|mkv|mov|avi|m4a|mp3|wav)$` under `re.I`. The names
      tested are stripped, so `$` matching before a final newline cannot arise. */
  predicate HasMediaExtension(name: string) {
    exists k :: 0 <= k < |MediaExtensions| && EndsWith(Lower(name), "." + MediaExtensions[k])
  }

  lemma {:induction false} StripKeepsFree(s: string, c: char)
    requires Free(s, c)
    ensures Free(Strip(s), c)
  {
    var l := LStrip(s);
    assert Free(l, c);
  }

  /** `os.path.basename(path or "video").strip() or "video"`. An empty path
      names nothing, so the trailing `or "video"` supplies the same default
      that substituting "video" first would give (`VideoIsItsOwnName`). */
  function SegmentName(path: string): (r: string)
    ensures r != "" && Free(r, '/')
    ensures Strip(Basename(path)) != "" ==> r == Strip(Basename(path))
    ensures path == "" || Strip(Basename(path)) == "" ==> r == "video"
  {
    var stripped := Strip(Basename(path));
    StripKeepsFree(Basename(path), '/');
    if stripped == "" then
      VideoIsItsOwnName();
      "video"
    else stripped
  }

  /** `basename("video").strip()` is "video" itself, so an empty path and
      a path naming nothing give the same default. */
  lemma {:induction false} VideoIsItsOwnName()
    ensures Basename("video") == "video" && Strip("video") == "video"
    ensures Strip(Basename("")) == "" && Free("video", '/')
  {
    var v := "video";
    assert v[0] == 'v' && v[4] == 'o';
    assert forall i :: 0 <= i < |v| ==> v[i] in {'v', 'i', 'd', 'e', 'o'};
    PlainNameIsItsOwn(v);
    PlainNameIsItsOwn("");
  }

  /** A trimmed name without '/' is its own basename and its own strip. */
  lemma {:induction false} PlainNameIsItsOwn(s: string)
    requires Free(s, '/') && Trimmed(s)
    ensures Basename(s) == s && Strip(s) == s
  {
    assert RFind(s, '/') == -1;
  }

  /** Appending ".mp4" always yields a name with a media extension. */
  lemma {:induction false} Mp4IsMedia(name: string)
    ensures HasMediaExtension(name + ".mp4")
  {
    var named := name + ".mp4";
    assert named[|named| - 4..] == ".mp4";
    assert Lower(named)[|named| - 4..] == Lower(".mp4");
    assert Lower(".mp4") == "." + MediaExtensions[0];
    assert EndsWith(Lower(named), "." + MediaExtensions[0]);
  }

  /** ".mp4" is appended unless the name already ends, ignoring case, in one of
      the eight media extensions; either way the result has one. */
  function WithMediaExtension(name: string): (r: string)
    ensures HasMediaExtension(r)
    ensures HasMediaExtension(name) ==> r == name
    ensures !HasMediaExtension(name) ==> r == name + ".mp4"
    ensures |r| >= |name| && (Free(name, '/') ==> Free(r, '/'))
  {
    if HasMediaExtension(name) then name else Mp4IsMedia(name); name + ".mp4"
  }

  /** The name `_download_direct_url` gives the file: the last segment of the
      URL path, stripped, "video" when that is empty, with ".mp4" appended
      unless it already ends in a media extension. Fails as `urlparse` does. */
  function DirectFileName(url: string): (r: Result<string>)
    ensures r.Failure? <==> UrlParse(url).Failure?
    ensures r.Success? ==> r.value != "" && Free(r.value, '/')
    ensures r.Success? ==> HasMediaExtension(r.value)
    ensures UrlParse(url).Success? ==> r == Success(WithMediaExtension(SegmentName(UrlParse(url).value.path)))
  {
    match UrlParse(url)
    case Failure(e) => Failure(e)
    case Success(p) => Success(WithMediaExtension(SegmentName(p.path)))
  }

  /** The `i`-th alternative path tried when the plain one is taken. */
  function Candidate(dir: string, base: string, ext: string, i: nat): string {
    JoinPath(dir, base + "_" + NatToString(i) + ext)
  }

  /** The first slot from `i` on whose candidate is not taken, or 99 when all are. */
  function FirstFree(dir: string, base: string, ext: string, existing: set<string>, i: nat): (r: nat)
    requires 1 <= i <= 99
    ensures i <= r <= 99
    ensures forall j :: i <= j < r ==> Candidate(dir, base, ext, j) in existing
    ensures r < 99 ==> Candidate(dir, base, ext, r) !in existing
    decreases 99 - i
  {
    if Candidate(dir, base, ext, i) !in existing || i == 99 then i
    else FirstFree(dir, base, ext, existing, i + 1)
  }

  /** The path the direct download writes to: `dir/name` when that is free,
      else the first free `dir/base_i.ext` for i in 1..99, else `base_99`. */
  function UniquePath(dir: string, name: string, existing: set<string>): (r: string)
    ensures JoinPath(dir, name) !in existing ==> r == JoinPath(dir, name)
    ensures JoinPath(dir, name) in existing ==>
      exists i :: ChosenSlot(dir, SplitExt(name).0, SplitExt(name).1, existing, i, r)
  {
    var plain := JoinPath(dir, name);
    if plain !in existing then plain
    else
      var base := SplitExt(name).0;
      var ext := SplitExt(name).1;
      var i := FirstFree(dir, base, ext, existing, 1);
      var r := Candidate(dir, base, ext, i);
      assert ChosenSlot(dir, base, ext, existing, i, r);
      r
  }

  /** `r` is the numbered candidate `i`: every earlier one is taken, and `r`
      is free unless it is the last, number 99. */
  predicate ChosenSlot(dir: string, base: string, ext: string, existing: set<string>, i: int, r: string) {
    && 1 <= i <= 99 && r == Candidate(dir, base, ext, i)
    && (forall j :: 1 <= j < i ==> Candidate(dir, base, ext, j) in existing)
    && (r !in existing || i == 99)
  }

  /** An existing file is overwritten only when the plain name and all 99
      numbered alternatives are taken. */
  lemma {:induction false} NoOverwriteWhileSlotFree(dir: string, name: string, existing: set<string>, k: nat)
    requires 1 <= k <= 99
    requires Candidate(dir, SplitExt(name).0, SplitExt(name).1, k) !in existing
    ensures UniquePath(dir, name, existing) !in existing
  {
    var base := SplitExt(name).0;
    var ext := SplitExt(name).1;
    if JoinPath(dir, name) in existing {
      var i := FirstFree(dir, base, ext, existing, 1);
      assert UniquePath(dir, name, existing) == Candidate(dir, base, ext, i);
      if i == 99 {
        assert k < i || k == 99;
      }
    }
  }

  /** Extensions yt-dlp output may keep; anything else is renamed to mp4. */
  const YtDlpExtensions: set<string> := {"mp4", "webm", "mkv", "m4a"}

  /** `(info.get("ext") or "mp4").lower()`, replaced by "mp4" unless it is one of
      mp4, webm, mkv, m4a. */
  function NormaliseExt(ext: Option<string>): (r: string)
    ensures r in YtDlpExtensions
    ensures ext.Some? && Lower(ext.value) in YtDlpExtensions ==> r == Lower(ext.value)
    ensures ext.None? || Lower(ext.value) !in YtDlpExtensions ==> r == "mp4"
  {
    var e := if ext.Some? && ext.value != "" then Lower(ext.value) else "mp4";
    if e in YtDlpExtensions then e else "mp4"
  }

  /** `info.get("id") or "video"`. */
  function VideoId(id: Option<string>): (r: string)
    ensures r != ""
    ensures id.Some? && id.value != "" ==> r == id.value
    ensures id.None? || id.value == "" ==> r == "video"
  {
    if id.Some? && id.value != "" then id.value else "video"
  }

  /** What yt-dlp reported: the first requested download's file path (if the
      list is non-empty and its first entry is a dict), the id and the ext. */
  datatype YtInfo = YtInfo(requestedPath: Option<string>, id: Option<string>, ext: Option<string>)

  /** One yt-dlp run (including its retry with format "best"): the info it
      returned, the files that exist afterwards, and the output directory's
      entries newest first. */
  datatype YtRun = YtRun(info: Option<YtInfo>, files: set<string>, newestFirst: seq<string>)

  const FallbackExtensions: set<string> := {".mp4", ".webm", ".mkv", ".m4a"}

  /** `f.suffix.lower() in exts`: a directory entry the fallback accepts. */
  predicate IsFallbackMedia(f: string) {
    Lower(Suffix(f)) in FallbackExtensions
  }

  /** The first directory entry whose lowercased suffix is a media extension. */
  function NewestMedia(entries: seq<string>): (r: Option<string>)
    ensures r.Some? ==> exists k :: FirstMediaAt(entries, k) && entries[k] == r.value
    ensures r.None? ==> forall k :: 0 <= k < |entries| ==> !IsFallbackMedia(entries[k])
  {
    if |entries| == 0 then None
    else if IsFallbackMedia(entries[0]) then
      assert FirstMediaAt(entries, 0);
      Some(entries[0])
    else
      var r := NewestMedia(entries[1..]);
      if r.Some? then
        var k :| FirstMediaAt(entries[1..], k) && entries[1..][k] == r.value;
        FirstMediaShift(entries, k);
        r
      else r
  }

  /** Skipping a leading non-media entry moves the first media file down by one. */
  lemma {:induction false} FirstMediaShift(entries: seq<string>, k: int)
    requires |entries| > 0 && !IsFallbackMedia(entries[0])
    requires FirstMediaAt(entries[1..], k)
    ensures FirstMediaAt(entries, k + 1) && entries[k + 1] == entries[1..][k]
  {
    forall j | 0 <= j < k + 1
      ensures !IsFallbackMedia(entries[j])
    {
      if j > 0 {
        assert entries[j] == entries[1..][j - 1];
      }
    }
  }

  /** Entry `k` is a media file and no entry before it is. */
  predicate FirstMediaAt(entries: seq<string>, k: int) {
    && 0 <= k < |entries|
    && IsFallbackMedia(entries[k])
    && forall j :: 0 <= j < k ==> !IsFallbackMedia(entries[j])
  }

  /** The file yt-dlp reported is there. */
  predicate RequestedExists(info: YtInfo, files: set<string>) {
    info.requestedPath.Some? && info.requestedPath.value != "" && info.requestedPath.value in files
  }

  /** `os.path.join(output_dir, f"{vid}.{ext}")`. */
  function IdPath(dir: string, info: YtInfo): string {
    JoinPath(dir, VideoId(info.id) + "." + NormaliseExt(info.ext))
  }

  /** The path `_download_with_yt_dlp` returns once yt-dlp has run: the
      reported file, else `{id}.{ext}`, else the newest media file. */
  function ResolveYtDlpPath(dir: string, run: YtRun): (r: Result<string>)
    ensures run.info.None? ==> r == Failure("yt-dlp could not extract video info")
    ensures r.Success? ==> r.value in run.files || r.value in run.newestFirst
    ensures run.info.Some? && RequestedExists(run.info.value, run.files) ==>
      r == Success(run.info.value.requestedPath.value)
    ensures run.info.Some? && !RequestedExists(run.info.value, run.files) && IdPath(dir, run.info.value) in run.files ==>
      r == Success(IdPath(dir, run.info.value))
    ensures run.info.Some? && !RequestedExists(run.info.value, run.files) && IdPath(dir, run.info.value) !in run.files ==>
      (NewestMedia(run.newestFirst).Some? ==> r == Success(NewestMedia(run.newestFirst).value))
      && (NewestMedia(run.newestFirst).None? ==> r == Failure("yt-dlp did not produce a recognizable file"))
  {
    match run.info
    case None => Failure("yt-dlp could not extract video info")
    case Some(info) =>
      if RequestedExists(info, run.files) then
        Success(info.requestedPath.value)
      else if IdPath(dir, info) in run.files then
        Success(IdPath(dir, info))
      else
        match NewestMedia(run.newestFirst)
        case Some(f) => Success(f)
        case None => Failure("yt-dlp did not produce a recognizable file")
  }

  /** The outside world a download sees. */
  datatype Downloader = Downloader(
    runYtDlp: (string, string) -> Result<YtRun>,  // yt-dlp on (url, output dir)
    existing: set<string>,                       // files present before a direct download
    fetch: (string, string) -> Outcome)          // urllib GET of the url, written to the path

  /** `download_media`: non-URLs are refused before anything is fetched;
      listed hosts go through yt-dlp, everything else is fetched directly. */
  function DownloadMedia(url: Option<string>, dir: string, d: Downloader): (r: Result<string>)
    ensures !IsUrl(url) ==> r == Failure("Not a valid URL")
    ensures IsUrl(url) && !IsYtDlpDomain(Strip(url.value)) ==> r == DirectDownload(Strip(url.value), dir, d)
    ensures IsUrl(url) && IsYtDlpDomain(Strip(url.value)) && d.runYtDlp(Strip(url.value), dir).Failure? ==>
      r == Failure(d.runYtDlp(Strip(url.value), dir).error)
    ensures IsUrl(url) && IsYtDlpDomain(Strip(url.value)) && d.runYtDlp(Strip(url.value), dir).Success? ==>
      r == ResolveYtDlpPath(dir, d.runYtDlp(Strip(url.value), dir).value)
    ensures url.Some? && IsUrl(url) && !IsYtDlpDomain(Strip(url.value)) && r.Success? ==>
      var name := DirectFileName(Strip(url.value));
      name.Success? && r.value == UniquePath(dir, name.value, d.existing)
  {
    var u := Strip(url.GetOr(""));
    StrippedIsUrl(url);
    if !IsUrl(Some(u)) then
      Failure("Not a valid URL")
    else if IsYtDlpDomain(u) then
      match d.runYtDlp(u, dir)
      case Failure(e) => Failure(e)
      case Success(run) => ResolveYtDlpPath(dir, run)
    else
      DirectDownload(u, dir, d)
  }

  /** `is_url` gives the same answer on the stripped text. */
  lemma {:induction false} StrippedIsUrl(url: Option<string>)
    ensures IsUrl(Some(Strip(url.GetOr("")))) == IsUrl(url)
  {
    var s := url.GetOr("");
    StripIdempotent(s);
    assert Some(Strip(s)).GetOr("") == Strip(s);
  }

  /** `_download_direct_url`: the file is written to the unique path for the
      URL's file name. */
  function DirectDownload(u: string, dir: string, d: Downloader): (r: Result<string>)
    ensures DirectFileName(u).Failure? ==> r.Failure?
    ensures r.Success? ==>
      DirectFileName(u).Success? && r.value == UniquePath(dir, DirectFileName(u).value, d.existing) && d.fetch(u, r.value).Pass?
    ensures DirectFileName(u).Success? && d.fetch(u, UniquePath(dir, DirectFileName(u).value, d.existing)).Pass? ==>
      r == Success(UniquePath(dir, DirectFileName(u).value, d.existing))
    ensures DirectFileName(u).Success? && d.fetch(u, UniquePath(dir, DirectFileName(u).value, d.existing)).Fail? ==>
      r == Failure(d.fetch(u, UniquePath(dir, DirectFileName(u).value, d.existing)).error)
  {
    match DirectFileName(u)
    case Failure(e) => Failure(e)
    case Success(name) =>
      var path := UniquePath(dir, name, d.existing);
      match d.fetch(u, path)
      case Fail(e) => Failure(e)
      case Pass => Success(path)
  }
}

=== FILE: metadata.dfy ===
/** Metadata values. Chroma stores only `str`, `int`, `float` and `bool`
    values; callers may pass anything, including `None`. */
module Metadata {
  import opened Strings

  /** A value Chroma accepts. A float is kept as its `str()` text, since the
      model does no floating-point arithmetic. */
  datatype Value = Str(s: string) | Int(i: int) | Float(repr: string) | Bool(b: bool)

  /** A metadata value as a caller hands it over: `None`, one of the four
      accepted kinds, or any other object, known here by its `str()` text. */
  datatype Raw = Null | Scalar(v: Value) | Other(text: string)

  /** Python truthiness of a stored value. A float is false exactly when it
      is zero, whose `str()` is "0.0" or "-0.0". */
  predicate Truthy(v: Value) {
    match v
    case Str(s) => s != ""
    case Int(i) => i != 0
    case Float(repr) => repr != "0.0" && repr != "-0.0"
    case Bool(b) => b
  }

  /** `str(v)`, which is also what an f-string inserts. */
  function ValueText(v: Value): (r: string)
    ensures v.Str? ==> r == v.s
    ensures v.Bool? ==> r == (if v.b then "True" else "False")
    ensures v.Int? && v.i >= 0 ==> r == NatToString(v.i)
    ensures v.Int? && v.i < 0 ==> r == "-" + NatToString(-v.i)
    ensures v.Float? ==> r == v.repr
  {
    match v
    case Str(s) => s
    case Int(i) => IntToString(i)
    case Float(repr) => repr
    case Bool(b) => if b then "True" else "False"
  }

  /** The text of an integer reads back as that integer: its digits, after a
      '-' when it is negative. */
  lemma {:induction false} IntTextReadsBack(i: int)
    ensures i >= 0 ==> DigitsValue(ValueText(Int(i))) == i
    ensures i < 0 ==> ValueText(Int(i))[0] == '-' && DigitsValue(ValueText(Int(i))[1..]) == -i
  {
    if i >= 0 {
      NatToStringRoundTrip(i);
    } else {
      assert ValueText(Int(i))[1..] == NatToString(-i);
      NatToStringRoundTrip(-i);
    }
  }

  /** The metadata loop of `add_to_vector_db`: `None` values are dropped,
      accepted kinds are kept as they are, anything else becomes its text. */
  function Sanitize(m: map<string, Raw>): (r: map<string, Value>)
    ensures forall k :: k in r <==> k in m && !m[k].Null?
    ensures forall k :: k in r && m[k].Scalar? ==> r[k] == m[k].v
    ensures forall k :: k in r && m[k].Other? ==> r[k] == Str(m[k].text)
  {
    map k | k in m && !m[k].Null? :: if m[k].Scalar? then m[k].v else Str(m[k].text)
  }

  /** Stored values seen again as caller values. */
  function Lift(vm: map<string, Value>): (r: map<string, Raw>)
    ensures r.Keys == vm.Keys
    ensures forall k :: k in r ==> r[k] == Scalar(vm[k])
  {
    map k | k in vm :: Scalar(vm[k])
  }

  /** Metadata that is already clean passes through unchanged. */
  lemma {:induction false} SanitizeLift(vm: map<string, Value>)
    ensures Sanitize(Lift(vm)) == vm
  {
  }

  /** Sanitising twice is sanitising once. */
  lemma {:induction false} SanitizeIdempotent(m: map<string, Raw>)
    ensures Sanitize(Lift(Sanitize(m))) == Sanitize(m)
  {
    SanitizeLift(Sanitize(m));
  }
}

=== FILE: paths.dfy ===
/** POSIX path helpers: `os.path` (posixpath) and `pathlib.PurePosixPath`,
    as far as the upload and download code uses them. */
module Paths {
  import opened Strings

  /** No character of `s` is `c`. */
  predicate Free(s: string, c: char) {
    forall i :: 0 <= i < |s| ==> s[i] != c
  }

  /** `os.path.basename(p)`: everything after the last '/'. */
  function Basename(p: string): (r: string)
    ensures Free(r, '/')
    ensures EndsWith(p, r)
    ensures |r| < |p| ==> p[|p| - |r| - 1] == '/'
  {
    p[RFind(p, '/') + 1..]
  }

  /** `os.path.join(a, b)` with two arguments. */
  function JoinPath(a: string, b: string): (r: string)
    ensures StartsWith(b, "/") ==> r == b
    ensures !StartsWith(b, "/") ==> StartsWith(r, a) && EndsWith(r, b)
    ensures !StartsWith(b, "/") && a != "" && !EndsWith(a, "/") ==> r == a + "/" + b
  {
    if StartsWith(b, "/") then b
    else if a == "" || EndsWith(a, "/") then a + b
    else a + "/" + b
  }

  /** A name without '/' joined under any directory is that path's basename. */
  lemma {:induction false} BasenameOfJoin(dir: string, name: string)
    requires Free(name, '/')
    ensures Basename(JoinPath(dir, name)) == name
  {
    var p := JoinPath(dir, name);
    assert EndsWith(p, name);
    var k := |p| - |name|;
    assert p[k..] == name;
    if k > 0 {
      assert p[k - 1] == '/';
    }
    var j := RFind(p, '/');
    assert forall i :: k <= i < |p| ==> p[i] == name[i - k];
    assert j == k - 1;
  }

  /** The last component pathlib keeps: parts that are empty or "." are dropped. */
  function LastPart(parts: seq<string>): (r: string)
    ensures r == "" || r in parts
    ensures r != "."
  {
    if |parts| == 0 then ""
    else
      var c := parts[|parts| - 1];
      if c != "" && c != "." then c else LastPart(parts[..|parts| - 1])
  }

  /** A string without the one-character text `[c]` has no `c` at all. */
  lemma {:induction false} NotContainsFree(s: string, c: char)
    requires !Contains(s, [c])
    ensures Free(s, c)
  {
    forall i | 0 <= i < |s|
      ensures s[i] != c
    {
      if s[i] == c {
        assert s[i..i + 1] == [c];
        ContainsAt(s, [c], i);
      }
    }
  }

  /** `LastPart` picks the last component that is neither empty nor ".":
      every later one is empty or ".", and when none is kept the result is "". */
  lemma {:induction false} LastPartIsLast(parts: seq<string>) returns (k: int)
    ensures -1 <= k < |parts|
    ensures k >= 0 ==> LastPart(parts) == parts[k] && parts[k] != "" && parts[k] != "."
    ensures k < 0 ==> LastPart(parts) == ""
    ensures forall m :: k < m < |parts| ==> parts[m] == "" || parts[m] == "."
    decreases |parts|
  {
    if |parts| == 0 {
      k := -1;
    } else {
      var c := parts[|parts| - 1];
      if c != "" && c != "." {
        k := |parts| - 1;
      } else {
        var init := parts[..|parts| - 1];
        k := LastPartIsLast(init);
        assert forall m :: k < m < |init| ==> parts[m] == init[m];
      }
    }
  }

  /** `PurePosixPath(p).name`. */
  function PathName(p: string): (r: string)
    ensures Free(r, '/')
    ensures r != "."
  {
    SplitPartsFree(p, "/");
    var r := LastPart(Split(p, "/"));
    NotContainsFree(r, '/');
    r
  }

  /** The name is the last '/'-separated component that is neither empty
      nor ".", or "" when there is none: "a/b/" and "a/b/." are named "b". */
  lemma {:induction false} PathNameIsLast(p: string) returns (k: int)
    ensures -1 <= k < |Split(p, "/")|
    ensures k >= 0 ==> PathName(p) == Split(p, "/")[k] && PathName(p) != ""
    ensures k < 0 ==> PathName(p) == ""
    ensures forall m :: k < m < |Split(p, "/")| ==> Split(p, "/")[m] == "" || Split(p, "/")[m] == "."
  {
    k := LastPartIsLast(Split(p, "/"));
  }

  /** The dot position pathlib uses for `suffix` and `stem`, or -1 when the
      name has no suffix (no dot, a leading dot only, or a trailing dot). */
  function SuffixDot(name: string): (r: int)
    ensures r == -1 || 0 < r < |name| - 1
    ensures r >= 0 ==> name[r] == '.' && Free(name[r + 1..], '.')
  {
    var i := RFind(name, '.');
    if 0 < i < |name| - 1 then i else -1
  }

  /** The name has a dot that is neither its first nor its last character,
      and it does not end in a dot: what pathlib needs to see a suffix. */
  predicate HasSuffix(name: string) {
    |name| >= 2 && name[|name| - 1] != '.' && !Free(name[1..|name| - 1], '.')
  }

  /** `PurePosixPath(p).suffix`: from the name's last dot to its end. */
  function Suffix(p: string): (r: string)
    ensures r == "" || (|r| >= 2 && r[0] == '.' && Free(r[1..], '.'))
  {
    var name := PathName(p);
    var i := SuffixDot(name);
    if i < 0 then "" else name[i..]
  }

  /** A path has a suffix exactly when its name has one, and the suffix then
      ends the name. */
  lemma {:induction false} SuffixFound(p: string)
    ensures Suffix(p) != "" <==> HasSuffix(PathName(p))
    ensures Suffix(p) != "" ==> EndsWith(PathName(p), Suffix(p)) && |Suffix(p)| < |PathName(p)|
  {
    SuffixDotFound(PathName(p));
  }

  /** pathlib finds a suffix dot exactly when the name has a suffix. */
  lemma {:induction false} SuffixDotFound(name: string)
    ensures SuffixDot(name) >= 0 <==> HasSuffix(name)
  {
    var i := RFind(name, '.');
    if 0 < i < |name| - 1 {
      assert name[1..|name| - 1][i - 1] == '.';
    }
    if HasSuffix(name) {
      var t :| 0 <= t < |name| - 2 && name[1..|name| - 1][t] == '.';
      assert name[t + 1] == '.';
    }
  }

  /** `PurePosixPath(p).stem`. */
  function Stem(p: string): (r: string)
    ensures Free(r, '/')
    ensures r + Suffix(p) == PathName(p)
  {
    var name := PathName(p);
    var i := SuffixDot(name);
    if i < 0 then name else name[..i]
  }

  /** The stem followed by the suffix is the final component's name. */
  lemma {:induction false} StemSuffix(p: string)
    ensures Stem(p) + Suffix(p) == PathName(p)
  {
  }

  /** Only dots. */
  predicate AllDots(s: string) {
    forall i :: 0 <= i < |s| ==> s[i] == '.'
  }

  /** `os.path.splitext(p)`: the extension starts at the last dot of the last
      component, unless that component has only dots before it. */
  function SplitExt(p: string): (r: (string, string))
    ensures r.0 + r.1 == p
    ensures r.1 == "" || (r.1[0] == '.' && Free(r.1[1..], '.') && Free(r.1, '/'))
    ensures r.1 != "" ==> |r.0| > 0 && r.0[|r.0| - 1] != '/'
    ensures r.1 != "" <==> HasExtension(p)
  {
    var i := ExtStart(p);
    assert p[..i] + p[i..] == p;
    (p[..i], p[i..])
  }

  /** After the last '/', some character other than a dot is followed later by a dot. */
  predicate HasExtension(p: string) {
    exists i, j :: RFind(p, '/') < i < j < |p| && p[i] != '.' && p[j] == '.'
  }

  /** Where the extension of `os.path.splitext` begins, or `|p|` when there is none. */
  function ExtStart(p: string): (i: nat)
    ensures i <= |p|
    ensures i < |p| ==> p[i..][0] == '.' && Free(p[i..][1..], '.') && Free(p[i..], '/')
    ensures i < |p| ==> i > 0 && p[i - 1] != '/'
    ensures i < |p| <==> HasExtension(p)
  {
    var sep := RFind(p, '/');
    var dot := RFind(p, '.');
    ExtensionFound(p, sep, dot);
    if dot > sep && !AllDots(p[sep + 1..dot]) then
      SplitExtFacts(p, sep, dot);
      dot
    else
      |p|
  }

  lemma {:induction false} SplitExtFacts(p: string, sep: int, dot: int)
    requires sep == RFind(p, '/') && dot == RFind(p, '.')
    requires dot > sep && !AllDots(p[sep + 1..dot])
    ensures 0 < dot < |p|
    ensures p[dot..][0] == '.' && Free(p[dot..][1..], '.') && Free(p[dot..], '/')
    ensures p[dot - 1] != '/'
  {
    var ext := p[dot..];
    forall i | 0 <= i < |ext|
      ensures ext[i] != '/' && (i > 0 ==> ext[i] != '.')
    {
      assert ext[i] == p[dot + i];
    }
    assert forall i :: 0 <= i < |ext[1..]| ==> ext[1..][i] == ext[i + 1];
    NoDotsIsAllDots(p[sep + 1..dot]);
  }

  /** `splitext` finds an extension exactly when the last component has a
      dot after a character that is not a dot. */
  lemma {:induction false} ExtensionFound(p: string, sep: int, dot: int)
    requires sep == RFind(p, '/') && dot == RFind(p, '.')
    ensures dot > sep && !AllDots(p[sep + 1..dot]) <==> HasExtension(p)
  {
    if dot > sep && !AllDots(p[sep + 1..dot]) {
      ExtensionWitness(p, sep, dot);
    }
    if HasExtension(p) {
      var i, j :| sep < i < j < |p| && p[i] != '.' && p[j] == '.';
      NotAllDots(p, sep, dot, i, j);
    }
  }

  /** A non-dot before the last dot, after the last '/', is an extension. */
  lemma {:induction false} ExtensionWitness(p: string, sep: int, dot: int)
    requires sep == RFind(p, '/') && 0 <= dot < |p| && p[dot] == '.'
    requires dot > sep && !AllDots(p[sep + 1..dot])
    ensures HasExtension(p)
  {
    var t :| 0 <= t < |p[sep + 1..dot]| && p[sep + 1..dot][t] != '.';
    assert p[sep + 1 + t] != '.';
  }

  /** A dot after a non-dot lies at or before the last dot, so the run
      before the last dot is not all dots. */
  lemma {:induction false} NotAllDots(p: string, sep: int, dot: int, i: int, j: int)
    requires sep == RFind(p, '/') && dot == RFind(p, '.')
    requires sep < i < j < |p| && p[i] != '.' && p[j] == '.'
    ensures dot > sep && !AllDots(p[sep + 1..dot])
  {
    assert j <= dot;
    assert p[sep + 1..dot][i - sep - 1] == p[i];
  }

  lemma {:induction false} NoDotsIsAllDots(s: string)
    ensures |s| == 0 ==> AllDots(s)
  {
  }
}

=== FILE: pdf_generator.dfy ===
/** Transcript PDFs (src/pdf_generator.py). ReportLab's layout and file
    writing are a parameter; the model keeps the output path, the split into
    paragraphs, the XML escaping and the list of flowables handed to it. */
module PdfGenerator {
  import opened Wrappers
  import opened Strings
  import opened Paths

  /** `get_transcript_pdf_path`: `{base}_transcript.pdf` in the output directory. */
  function GetTranscriptPdfPath(baseName: string, outputDir: string): (r: string)
    ensures EndsWith(r, baseName + "_transcript.pdf")
    ensures Free(baseName, '/') ==> Basename(r) == baseName + "_transcript.pdf"
    ensures !StartsWith(baseName, "/") && outputDir != "" && !EndsWith(outputDir, "/") ==>
      r == outputDir + "/" + baseName + "_transcript.pdf"
    ensures !StartsWith(baseName, "/") && (outputDir == "" || EndsWith(outputDir, "/")) ==>
      r == outputDir + baseName + "_transcript.pdf"
    ensures StartsWith(baseName, "/") ==> r == baseName + "_transcript.pdf"
  {
    var name := baseName + "_transcript.pdf";
    assert Free(baseName, '/') ==> Free(name, '/');
    assert StartsWith(name, "/") <==> StartsWith(baseName, "/") by {
      if baseName == "" {
        assert name[0] == '_';
      } else {
        assert name[0] == baseName[0];
      }
    }
    if Free(baseName, '/') then BasenameOfJoin(outputDir, name); JoinPath(outputDir, name)
    else JoinPath(outputDir, name)
  }

  /** Each piece stripped. */
  function StripAll(xs: seq<string>): (r: seq<string>)
    ensures |r| == |xs|
    ensures forall k :: 0 <= k < |xs| ==> r[k] == Strip(xs[k])
  {
    seq(|xs|, k requires 0 <= k < |xs| => Strip(xs[k]))
  }

  /** Non-empty, and neither starting nor ending with whitespace. */
  predicate Visible(x: string) {
    x != "" && !IsSpace(x[0]) && !IsSpace(x[|x| - 1])
  }

  /** The paragraphs of the transcript: the pieces between blank lines
      ("\n\n"), stripped, with the empty ones skipped. Each is a visible
      part of the transcript holding no blank line; `BlocksOfJoin` gives
      such paragraphs back from their join. */
  function Blocks(text: string): (r: seq<string>)
    ensures forall k :: 0 <= k < |r| ==> Visible(r[k])
    ensures forall k :: 0 <= k < |r| ==> Contains(text, r[k]) && !Contains(r[k], "\n\n")
  {
    KeptStrippedFacts(text);
    KeepNonEmpty(StripAll(Split(text, "\n\n")))
  }

  /** `x` is a paragraph cut from `text`: visible, occurring in it, and
      holding no blank line. */
  predicate CutFrom(text: string, x: string) {
    Visible(x) && Contains(text, x) && !Contains(x, "\n\n")
  }

  /** Every non-empty stripped piece is a paragraph cut from the text. */
  lemma {:induction false} KeptStrippedFacts(text: string)
    ensures forall k :: 0 <= k < |KeepNonEmpty(StripAll(Split(text, "\n\n")))| ==>
      CutFrom(text, KeepNonEmpty(StripAll(Split(text, "\n\n")))[k])
  {
    var pieces := Split(text, "\n\n");
    var stripped := StripAll(pieces);
    var r := KeepNonEmpty(stripped);
    forall k | 0 <= k < |r|
      ensures CutFrom(text, r[k])
    {
      var j := KeepNonEmptySource(stripped, k);
      assert r[k] == Strip(pieces[j]);
      StrippedPieceFacts(text, j);
    }
  }

  /** A non-empty stripped piece is a paragraph cut from the text. */
  lemma {:induction false} StrippedPieceFacts(text: string, j: nat)
    requires j < |Split(text, "\n\n")|
    ensures Strip(Split(text, "\n\n")[j]) != "" ==> CutFrom(text, Strip(Split(text, "\n\n")[j]))
  {
    var piece := Split(text, "\n\n")[j];
    var x := Strip(piece);
    SplitPartsFree(text, "\n\n");
    assert !Contains(piece, "\n\n");
    VisibleStripped(piece);
    StripContained(piece);
    SplitPartsContained(text, "\n\n", j);
    ContainsTransitive(text, piece, x);
    if Contains(x, "\n\n") {
      ContainsTransitive(piece, x, "\n\n");
    }
  }

  /** Visible paragraphs without a blank line, joined by blank lines, split
      back into the same paragraphs. */
  lemma {:induction false} BlocksOfJoin(bs: seq<string>)
    requires forall k :: 0 <= k < |bs| ==> Visible(bs[k]) && !Contains(bs[k], "\n\n")
    ensures Blocks(Join("\n\n", bs)) == bs
  {
    if |bs| == 0 {
      assert IndexOf("", "\n\n") < 0;
      assert Split("", "\n\n") == [""];
      assert StripAll([""]) == [""];
      assert KeepNonEmpty([""]) == KeepNonEmpty([]) == [];
    } else {
      forall k | 0 <= k < |bs|
        ensures SplitsCleanly(bs[k], "\n\n")
      {
        assert IsSpace('\n');
      }
      SplitOfJoin("\n\n", bs);
      assert StripAll(bs) == bs;
      KeepNonEmptyAll(bs);
    }
  }

  lemma {:induction false} VisibleStripped(s: string)
    ensures Strip(s) != "" ==> Visible(Strip(s))
  {
  }

  /** The stripped pieces are all empty exactly when the pieces are all whitespace. */
  lemma {:induction false} StripAllEmpty(pieces: seq<string>)
    ensures (forall k :: 0 <= k < |pieces| ==> StripAll(pieces)[k] == "")
        <==> (forall k :: 0 <= k < |pieces| ==> AllSpace(pieces[k]))
  {
    forall k | 0 <= k < |pieces|
      ensures StripAll(pieces)[k] == "" <==> AllSpace(pieces[k])
    {
      assert StripAll(pieces)[k] == Strip(pieces[k]);
    }
  }

  /** A transcript has no paragraph exactly when it is whitespace only. */
  lemma {:induction false} BlocksEmptyIff(text: string)
    ensures Blocks(text) == [] <==> AllSpace(text)
  {
    var pieces := Split(text, "\n\n");
    SplitJoin(text, "\n\n");
    AllSpaceJoin("\n\n", pieces);
    StripAllEmpty(pieces);
    KeepNonEmptyNone(StripAll(pieces));
  }

  /** `s` with every character `c` replaced by `f(c)`. */
  function Flat(s: string, f: char -> string): string
    decreases |s|
  {
    if |s| == 0 then "" else f(s[0]) + Flat(s[1..], f)
  }

  function Keep(c: char): string {
    [c]
  }

  lemma {:induction false} FlatKeep(s: string)
    ensures Flat(s, Keep) == s
    decreases |s|
  {
    if |s| > 0 {
      FlatKeep(s[1..]);
      assert s == [s[0]] + s[1..];
    }
  }

  /** Replacing in a per-character image, piece by piece. */
  lemma {:induction false} ReplaceFlat(s: string, f: char -> string, g: char -> string, pat: string, rep: string)
    requires |pat| > 0
    requires forall c: char, y: string :: Replace(f(c) + y, pat, rep) == g(c) + Replace(y, pat, rep)
    ensures Replace(Flat(s, f), pat, rep) == Flat(s, g)
    decreases |s|
  {
    if |s| > 0 {
      ReplaceFlat(s[1..], f, g, pat, rep);
      assert Flat(s, f) == f(s[0]) + Flat(s[1..], f);
    }
  }

  /** A piece that starts like the pattern but differs from it in its second
      character, with no other place a match could start, passes through
      unchanged. */
  lemma {:induction false} ReplaceSkipsHead(x: string, y: string, pat: string, rep: string)
    requires |pat| >= 2 && |x| >= 2 && x[1] != pat[1]
    requires forall i :: 1 <= i < |x| ==> x[i] != pat[0]
    ensures Replace(x + y, pat, rep) == x + Replace(y, pat, rep)
  {
    assert (x + y)[1] == x[1];
    assert !StartsWith(x + y, pat) by {
      if |pat| <= |x + y| {
        assert (x + y)[..|pat|][1] != pat[1];
      }
    }
    assert (x + y)[1..] == x[1..] + y;
    ReplaceSkips(x[1..], y, pat, rep);
    assert x == [x[0]] + x[1..];
  }

  /** XML's predefined entities for the three characters ReportLab's
      paragraph markup cannot take literally (section 4.6 of XML 1.0). */
  function EscapeChar(c: char): string {
    if c == '&' then "&amp;" else if c == '<' then "&lt;" else if c == '>' then "&gt;" else [c]
  }

  /** The block after the first replacement ('&' only). */
  function AmpEscaped(c: char): string {
    if c == '&' then "&amp;" else [c]
  }

  /** The block after the second replacement ('&' and '<'). */
  function AmpLtEscaped(c: char): string {
    if c == '&' then "&amp;" else if c == '<' then "&lt;" else [c]
  }

  /** `block.replace("&", "&amp;").replace("<", "&lt;").replace(">", "&gt;")`. */
  function Escape(block: string): string {
    Replace(Replace(Replace(block, "&", "&amp;"), "<", "&lt;"), ">", "&gt;")
  }

  /** The inverse replacements, applied in the opposite order. */
  function Unescape(markup: string): string {
    Replace(Replace(Replace(markup, "&gt;", ">"), "&lt;", "<"), "&amp;", "&")
  }

  lemma {:induction false} EscapeAmpPiece(c: char, y: string)
    ensures Replace(Keep(c) + y, "&", "&amp;") == AmpEscaped(c) + Replace(y, "&", "&amp;")
  {
    if c == '&' {
      ReplaceMatch(y, "&", "&amp;");
    } else {
      ReplaceSkips([c], y, "&", "&amp;");
    }
  }

  lemma {:induction false} EscapeLtPiece(c: char, y: string)
    ensures Replace(AmpEscaped(c) + y, "<", "&lt;") == AmpLtEscaped(c) + Replace(y, "<", "&lt;")
  {
    if c == '<' {
      ReplaceMatch(y, "<", "&lt;");
    } else {
      ReplaceSkips(AmpEscaped(c), y, "<", "&lt;");
    }
  }

  lemma {:induction false} EscapeGtPiece(c: char, y: string)
    ensures Replace(AmpLtEscaped(c) + y, ">", "&gt;") == EscapeChar(c) + Replace(y, ">", "&gt;")
  {
    if c == '>' {
      ReplaceMatch(y, ">", "&gt;");
    } else {
      ReplaceSkips(AmpLtEscaped(c), y, ">", "&gt;");
    }
  }

  /** The three replacements, in the source's order, escape each character on
      its own: '&' goes first, so the '&' of "&lt;" and "&gt;" is not escaped again. */
  lemma {:induction false} EscapeIsPerCharacter(block: string)
    ensures Escape(block) == Flat(block, EscapeChar)
  {
    FlatKeep(block);
    forall c: char, y: string
      ensures Replace(Keep(c) + y, "&", "&amp;") == AmpEscaped(c) + Replace(y, "&", "&amp;")
    {
      EscapeAmpPiece(c, y);
    }
    ReplaceFlat(block, Keep, AmpEscaped, "&", "&amp;");
    forall c: char, y: string
      ensures Replace(AmpEscaped(c) + y, "<", "&lt;") == AmpLtEscaped(c) + Replace(y, "<", "&lt;")
    {
      EscapeLtPiece(c, y);
    }
    ReplaceFlat(block, AmpEscaped, AmpLtEscaped, "<", "&lt;");
    forall c: char, y: string
      ensures Replace(AmpLtEscaped(c) + y, ">", "&gt;") == EscapeChar(c) + Replace(y, ">", "&gt;")
    {
      EscapeGtPiece(c, y);
    }
    ReplaceFlat(block, AmpLtEscaped, EscapeChar, ">", "&gt;");
  }

  /** The markup after undoing "&gt;". */
  function GtRestored(c: char): string {
    if c == '&' then "&amp;" else if c == '<' then "&lt;" else [c]
  }

  lemma {:induction false} UnescapeGtPiece(c: char, y: string)
    ensures Replace(EscapeChar(c) + y, "&gt;", ">") == GtRestored(c) + Replace(y, "&gt;", ">")
  {
    if c == '&' {
      ReplaceSkipsHead("&amp;", y, "&gt;", ">");
    } else if c == '<' {
      ReplaceSkipsHead("&lt;", y, "&gt;", ">");
    } else if c == '>' {
      ReplaceMatch(y, "&gt;", ">");
    } else {
      ReplaceSkips([c], y, "&gt;", ">");
    }
  }

  lemma {:induction false} UnescapeLtPiece(c: char, y: string)
    ensures Replace(GtRestored(c) + y, "&lt;", "<") == AmpEscaped(c) + Replace(y, "&lt;", "<")
  {
    if c == '&' {
      ReplaceSkipsHead("&amp;", y, "&lt;", "<");
    } else if c == '<' {
      ReplaceMatch(y, "&lt;", "<");
    } else {
      ReplaceSkips([c], y, "&lt;", "<");
    }
  }

  lemma {:induction false} UnescapeAmpPiece(c: char, y: string)
    ensures Replace(AmpEscaped(c) + y, "&amp;", "&") == Keep(c) + Replace(y, "&amp;", "&")
  {
    if c == '&' {
      ReplaceMatch(y, "&amp;", "&");
    } else {
      ReplaceSkips([c], y, "&amp;", "&");
    }
  }

  /** Undoing the entities in reverse order gives back the paragraph. */
  lemma {:induction false} UnescapeEscape(block: string)
    ensures Unescape(Escape(block)) == block
  {
    EscapeIsPerCharacter(block);
    forall c: char, y: string
      ensures Replace(EscapeChar(c) + y, "&gt;", ">") == GtRestored(c) + Replace(y, "&gt;", ">")
    {
      UnescapeGtPiece(c, y);
    }
    ReplaceFlat(block, EscapeChar, GtRestored, "&gt;", ">");
    forall c: char, y: string
      ensures Replace(GtRestored(c) + y, "&lt;", "<") == AmpEscaped(c) + Replace(y, "&lt;", "<")
    {
      UnescapeLtPiece(c, y);
    }
    ReplaceFlat(block, GtRestored, AmpEscaped, "&lt;", "<");
    forall c: char, y: string
      ensures Replace(AmpEscaped(c) + y, "&amp;", "&") == Keep(c) + Replace(y, "&amp;", "&")
    {
      UnescapeAmpPiece(c, y);
    }
    ReplaceFlat(block, AmpEscaped, Keep, "&amp;", "&");
    FlatKeep(block);
  }

  /** A character of `Flat(s, f)` comes from the image of some character of `s`. */
  lemma {:induction false} FlatChars(s: string, f: char -> string, bad: char)
    requires forall c: char :: Free(f(c), bad)
    ensures Free(Flat(s, f), bad)
    decreases |s|
  {
    if |s| > 0 {
      FlatChars(s[1..], f, bad);
      var head := f(s[0]);
      var tail := Flat(s[1..], f);
      assert Free(head, bad);
      assert forall i :: 0 <= i < |head + tail| ==> (head + tail)[i] == (if i < |head| then head[i] else tail[i - |head|]);
    }
  }

  /** Escaped text has no '<' and no '>' left. */
  lemma {:induction false} EscapedHasNoAngles(block: string)
    ensures Free(Escape(block), '<') && Free(Escape(block), '>')
  {
    EscapeIsPerCharacter(block);
    forall c: char
      ensures Free(EscapeChar(c), '<') && Free(EscapeChar(c), '>')
    {
    }
    FlatChars(block, EscapeChar, '<');
    FlatChars(block, EscapeChar, '>');
  }

  /** ReportLab's `inch`, in points. */
  const Inch: real := 72.0

  /** The flowables the story holds: a paragraph with a style name, or a spacer
      of the given width and height in points. */
  datatype Flowable = Paragraph(text: string, style: string) | Spacer(width: real, height: real)

  /** Each paragraph followed by its spacer. */
  function BlockFlowables(blocks: seq<string>): (r: seq<Flowable>)
    ensures |r| == 2 * |blocks|
    ensures forall k :: 0 <= k < |blocks| ==>
      r[2 * k] == Paragraph(Escape(blocks[k]), "Normal") && r[2 * k + 1] == Spacer(1.0, 0.1 * Inch)
  {
    seq(2 * |blocks|, i requires 0 <= i < 2 * |blocks| =>
      if i % 2 == 0 then Paragraph(Escape(blocks[i / 2]), "Normal") else Spacer(1.0, 0.1 * Inch))
  }

  /** The story `transcript_to_pdf` builds: the title, a spacer, then each
      paragraph of the transcript, escaped, followed by a smaller spacer. */
  function BuildStory(text: string, title: string): (r: seq<Flowable>)
    ensures |r| == 2 + 2 * |Blocks(text)|
    ensures r[0] == Paragraph(title, "Title") && r[1] == Spacer(1.0, 0.2 * Inch)
    ensures forall k :: 0 <= k < |Blocks(text)| ==>
      r[2 + 2 * k] == Paragraph(Escape(Blocks(text)[k]), "Normal") && r[3 + 2 * k] == Spacer(1.0, 0.1 * Inch)
  {
    [Paragraph(title, "Title"), Spacer(1.0, 0.2 * Inch)] + BlockFlowables(Blocks(text))
  }

  /** The paragraphs of the story, unescaped, are the transcript's paragraphs. */
  lemma {:induction false} StoryRecoversBlocks(text: string, title: string, k: nat)
    requires k < |Blocks(text)|
    ensures BuildStory(text, title)[2 + 2 * k].Paragraph?
    ensures Unescape(BuildStory(text, title)[2 + 2 * k].text) == Blocks(text)[k]
  {
    UnescapeEscape(Blocks(text)[k]);
  }

  /** `transcript_to_pdf`: `render` lays the story out and writes the file;
      the result is the path it was given. */
  function TranscriptToPdf(text: string, outputPath: string, title: string,
                           render: (string, seq<Flowable>) -> Outcome): (r: Result<string>)
    ensures r.Failure? <==> render(outputPath, BuildStory(text, title)).Fail?
    ensures r.Success? ==> r.value == outputPath
  {
    match render(outputPath, BuildStory(text, title))
    case Fail(e) => Failure(e)
    case Pass => Success(outputPath)
  }
}

=== FILE: pipeline.dfy ===
/** The upload pipeline (src/pipeline.py): route a local path or a URL by
    file type, then transcribe a video or read a document and store its
    text. Every outside effect is one of the `Services`; the Chroma
    collection is threaded through, so "nothing stored" reads `db' == db`. */
module Pipeline {
  import opened Wrappers
  import opened Strings
  import opened Paths
  import opened Metadata
  import opened VectorStore
  import opened DownloadUtils
  import opened AudioUtils
  import opened Transcription
  import opened DocumentUtils
  import opened PdfGenerator

  const VideoExtensions: set<string> := {".mp4", ".avi", ".mkv", ".mov", ".webm", ".flv", ".wmv"}

  datatype FileType = Video | Pdf | Docx | Doc | Unknown

  /** `_get_file_type`, on the lowercased suffix of the path. */
  function GetFileType(filePath: string): FileType {
    var suffix := Lower(Suffix(filePath));
    if suffix in VideoExtensions then Video
    else if suffix == ".pdf" then Pdf
    else if suffix == ".docx" || suffix == ".doc" then
      if suffix == ".docx" then Docx else Doc
    else Unknown
  }

  /** Each type is chosen by exactly its own suffixes; the rest are `Unknown`. */
  lemma {:induction false} FileTypeOfSuffix(filePath: string)
    ensures GetFileType(filePath) == Video <==> Lower(Suffix(filePath)) in VideoExtensions
    ensures GetFileType(filePath) == Pdf <==> Lower(Suffix(filePath)) == ".pdf"
    ensures GetFileType(filePath) == Docx <==> Lower(Suffix(filePath)) == ".docx"
    ensures GetFileType(filePath) == Doc <==> Lower(Suffix(filePath)) == ".doc"
  {
    DocumentSuffixesDistinct();
  }

  lemma {:induction false} DocumentSuffixesDistinct()
    ensures ".pdf" !in VideoExtensions && ".docx" !in VideoExtensions && ".doc" !in VideoExtensions
    ensures ".pdf" != ".docx" && ".pdf" != ".doc" && ".docx" != ".doc"
  {
    assert |".doc"| != |".pdf"| + 1 == |".docx"|;
    assert ".pdf"[1] == 'p' && ".doc"[1] == 'd';
  }

  /** The paths routed to `process_document` are exactly those
      `extract_document_text` reads; every other path reads as `None`. */
  lemma {:induction false} RoutedDocumentsAreRead(filePath: string, readers: Readers)
    ensures GetFileType(filePath) in {Pdf, Docx} <==> ExtractDocumentText(filePath, readers) != Success(None)
  {
    FileTypeOfSuffix(filePath);
  }

  /** The caller-supplied keys copied into the stored metadata. */
  const CallerKeys: set<string> := {"video_id", "subject", "subject_id", "chapter", "chapter_id", "part", "user_id"}

  /** The nine keys of the stored metadata. */
  const StoreKeys: set<string> := CallerKeys + {"file_type", "filename"}

  /** The `meta` dict of `process_video` and `process_document`: the file
      type, the file's base name, and the caller's seven keys, each "" when
      the caller did not give it; any other key of the caller is dropped. */
  function BuildStoreMetadata(fileType: string, filePath: string, metadata: map<string, Raw>): (r: map<string, Raw>)
    ensures r.Keys == StoreKeys
    ensures r["file_type"] == Scalar(Str(fileType))
    ensures r["filename"] == Scalar(Str(Basename(filePath)))
    ensures forall k :: k in CallerKeys && k in metadata ==> r[k] == metadata[k]
    ensures forall k :: k in CallerKeys && k !in metadata ==> r[k] == Scalar(Str(""))
  {
    map k | k in StoreKeys ::
      if k == "file_type" then Scalar(Str(fileType))
      else if k == "filename" then Scalar(Str(Basename(filePath)))
      else if k in metadata then metadata[k]
      else Scalar(Str(""))
  }

  /** What the store keeps of that metadata: every one of the nine keys
      except a caller key the caller set to `None`. */
  lemma {:induction false} StoredMetadataKeys(fileType: string, filePath: string, metadata: map<string, Raw>)
    ensures forall k :: k in Sanitize(BuildStoreMetadata(fileType, filePath, metadata)) <==>
      k in StoreKeys && !(k in metadata && k in CallerKeys && metadata[k].Null?)
    ensures Sanitize(BuildStoreMetadata(fileType, filePath, metadata))["filename"] == Str(Basename(filePath))
  {
    FixedKeysAreNotCallerKeys();
    SanitizedKeys(BuildStoreMetadata(fileType, filePath, metadata), CallerKeys, {"file_type", "filename"}, metadata);
  }

  lemma {:induction false} FixedKeysAreNotCallerKeys()
    ensures CallerKeys !! {"file_type", "filename"}
  {
  }

  /** The keys left after sanitising a map built from fixed entries and the
      caller's entries (defaulted when absent): all, less the caller's `None`s. */
  lemma {:induction false} SanitizedKeys(b: map<string, Raw>, caller: set<string>, fixed: set<string>,
                                         metadata: map<string, Raw>)
    requires caller !! fixed && b.Keys == caller + fixed
    requires forall k :: k in fixed ==> b[k].Scalar?
    requires forall k :: k in caller && k in metadata ==> b[k] == metadata[k]
    requires forall k :: k in caller && k !in metadata ==> b[k].Scalar?
    ensures forall k :: k in Sanitize(b) <==> k in caller + fixed && !(k in metadata && k in caller && metadata[k].Null?)
  {
    forall k
      ensures k in Sanitize(b) <==> k in caller + fixed && !(k in metadata && k in caller && metadata[k].Null?)
    {
      if k in fixed {
        assert k !in caller;
      }
    }
  }

  /** The `file_type` a document is stored with: its suffix without the dot, lowercased. */
  function DocumentType(filePath: string): (r: string)
    ensures Suffix(filePath) == "" ==> r == ""
    ensures Suffix(filePath) != "" ==> r == Lower(Suffix(filePath)[1..]) && |r| + 1 == |Suffix(filePath)|
  {
    SuffixLStrip(filePath);
    Lower(LStripChars(Suffix(filePath), {'.'}))
  }

  /** `lstrip(".")` drops exactly the one dot a suffix starts with. */
  lemma {:induction false} SuffixLStrip(filePath: string)
    ensures Suffix(filePath) != "" ==> LStripChars(Suffix(filePath), {'.'}) == Suffix(filePath)[1..]
  {
    var s := Suffix(filePath);
    if s != "" {
      assert s[1..][0] == s[1];
    }
  }

  /** A routed document is stored with the type it was routed as. */
  lemma {:induction false} DocumentTypeMatchesRoute(filePath: string)
    ensures GetFileType(filePath) == Pdf ==> DocumentType(filePath) == "pdf"
    ensures GetFileType(filePath) == Docx ==> DocumentType(filePath) == "docx"
  {
    var s := Suffix(filePath);
    FileTypeOfSuffix(filePath);
    SuffixLStrip(filePath);
    if s != "" {
      assert Lower(s[1..]) == Lower(s)[1..];
    }
  }

  /** The result dicts: a video's, a document's, or an error. */
  datatype Report =
    | VideoReport(success: bool, transcriptText: string, pdfPath: string, docId: string)
    | DocumentReport(success: bool, text: string, docId: string)
    | ErrorReport(error: string)
  {
    predicate Succeeded() {
      !ErrorReport? && success
    }
  }

  /** The outside world: the downloader, ffmpeg (`encode`), the audio files,
      the speech recogniser, the document readers, ReportLab (`render`) and
      `add_chunked_to_vector_db` (`storeChunked`: the collection, the text
      and the metadata, giving the new collection and the source id). */
  datatype Services = Services(
    downloader: Downloader,
    encode: (string, string, string) -> Outcome,
    audio: AudioFiles,
    recognise: string -> Recognition,
    readers: Readers,
    render: (string, seq<Flowable>) -> Outcome,
    storeChunked: (Collection, string, map<string, Raw>) -> Result<(Collection, string)>)

  /** The output directories of `process_upload`. */
  datatype Dirs = Dirs(audio: string, transcripts: string, download: string)

  /** The audio file `process_video` extracts, in the default "wav" format. */
  function VideoAudioPath(videoPath: string, audioDir: string): (r: string)
    ensures Basename(r) == Stem(videoPath) + "_audio.wav"
    ensures StartsWith(r, audioDir)
    ensures audioDir != "" && !EndsWith(audioDir, "/") ==> r == audioDir + "/" + Stem(videoPath) + "_audio.wav"
    ensures audioDir == "" || EndsWith(audioDir, "/") ==> r == audioDir + Stem(videoPath) + "_audio.wav"
  {
    var stem := Stem(videoPath);
    WavName(stem);
    WavName(audioDir + "/" + stem);
    WavName(audioDir + stem);
    ExtractAudioPath(videoPath, audioDir, "wav")
  }

  /** "wav" names no directory, and completes the "_audio." name. */
  lemma {:induction false} WavName(stem: string)
    ensures Free("wav", '/')
    ensures stem + "_audio." + "wav" == stem + "_audio.wav"
  {
    assert forall i :: 0 <= i < 3 ==> "wav"[i] in {'w', 'a', 'v'};
  }

  /** The transcript `process_video` obtains from the audio it extracted. */
  function VideoTranscript(videoPath: string, audioDir: string, s: Services): Result<string> {
    TranscribeLongAudio(VideoAudioPath(videoPath, audioDir), DefaultChunkMs, audioDir, s.audio, s.recognise)
  }

  /** `process_video`. A failure is an exception that escapes: from the audio
      extraction, the transcription, the PDF or the store. An empty transcript
      returns the unsuccessful report and stores nothing; otherwise the PDF is
      written, the transcript is stored, and only then does the report carry
      the source id and `success`. */
  function ProcessVideo(videoPath: string, metadata: map<string, Raw>, audioDir: string, transcriptDir: string,
                        db: Collection, s: Services): (r: Result<(Collection, Report)>)
    ensures r.Failure? <==>
      || s.encode(videoPath, VideoAudioPath(videoPath, audioDir), "wav").Fail?
      || VideoTranscript(videoPath, audioDir, s).Failure?
      || (&& VideoTranscript(videoPath, audioDir, s).value != ""
          && (|| s.render(GetTranscriptPdfPath(Stem(videoPath), transcriptDir),
                          BuildStory(VideoTranscript(videoPath, audioDir, s).value, "Transcript: " + Stem(videoPath))).Fail?
              || s.storeChunked(db, VideoTranscript(videoPath, audioDir, s).value,
                                BuildStoreMetadata("video", videoPath, metadata)).Failure?))
    ensures r.Success? ==> r.value.1.VideoReport?
    ensures r.Success? ==> (r.value.1.success <==> r.value.1.transcriptText != "")
    ensures r.Success? && !r.value.1.success ==>
      r.value.0 == db && r.value.1 == VideoReport(false, "", "", "")
      && VideoTranscript(videoPath, audioDir, s) == Success("")
    ensures r.Success? && r.value.1.success ==>
      var rep := r.value.1;
      VideoTranscript(videoPath, audioDir, s) == Success(rep.transcriptText)
      && rep.pdfPath == GetTranscriptPdfPath(Stem(videoPath), transcriptDir)
      && s.render(rep.pdfPath, BuildStory(rep.transcriptText, "Transcript: " + Stem(videoPath))) == Pass
      && s.storeChunked(db, rep.transcriptText, BuildStoreMetadata("video", videoPath, metadata))
        == Success((r.value.0, rep.docId))
  {
    var baseName := Stem(videoPath);
    match ExtractAudioFromVideo(videoPath, audioDir, "wav", s.encode)
    case Failure(e) => Failure(e)
    case Success(audioPath) =>
      match TranscribeLongAudio(audioPath, DefaultChunkMs, audioDir, s.audio, s.recognise)
      case Failure(e) => Failure(e)
      case Success(transcript) =>
        if transcript == "" then Success((db, VideoReport(false, "", "", "")))
        else
          var pdfPath := GetTranscriptPdfPath(baseName, transcriptDir);
          match TranscriptToPdf(transcript, pdfPath, "Transcript: " + baseName, s.render)
          case Failure(e) => Failure(e)
          case Success(_) =>
            match s.storeChunked(db, transcript, BuildStoreMetadata("video", videoPath, metadata))
            case Failure(e) => Failure(e)
            case Success(stored) => Success((stored.0, VideoReport(true, transcript, pdfPath, stored.1)))
  }

  /** A stored transcript is never blank and has no surrounding whitespace. */
  lemma {:induction false} StoredTranscriptIsClean(videoPath: string, metadata: map<string, Raw>, audioDir: string,
                                transcriptDir: string, db: Collection, s: Services)
    requires ProcessVideo(videoPath, metadata, audioDir, transcriptDir, db, s).Success?
    requires ProcessVideo(videoPath, metadata, audioDir, transcriptDir, db, s).value.1.success
    ensures ProcessVideo(videoPath, metadata, audioDir, transcriptDir, db, s).value.1.transcriptText != ""
    ensures Trimmed(ProcessVideo(videoPath, metadata, audioDir, transcriptDir, db, s).value.1.transcriptText)
  {
    var text := ProcessVideo(videoPath, metadata, audioDir, transcriptDir, db, s).value.1.transcriptText;
    TranscriptIsClean(VideoAudioPath(videoPath, audioDir), DefaultChunkMs, audioDir, s.audio, s.recognise);
    assert VideoTranscript(videoPath, audioDir, s) == Success(text);
  }

  /** `process_document`. A missing or empty text returns the unsuccessful
      report and stores nothing; otherwise the text is stored and the report
      carries it with the source id. */
  function ProcessDocument(filePath: string, metadata: map<string, Raw>, db: Collection, s: Services)
    : (r: Result<(Collection, Report)>)
    ensures r.Failure? <==>
      ExtractDocumentText(filePath, s.readers).Failure?
      || (ExtractDocumentText(filePath, s.readers).value.Some?
          && ExtractDocumentText(filePath, s.readers).value.value != ""
          && s.storeChunked(db, ExtractDocumentText(filePath, s.readers).value.value,
                            BuildStoreMetadata(DocumentType(filePath), filePath, metadata)).Failure?)
    ensures r.Success? ==> r.value.1.DocumentReport?
    ensures r.Success? ==> (r.value.1.success <==> r.value.1.text != "")
    ensures r.Success? && !r.value.1.success ==> r.value.0 == db && r.value.1 == DocumentReport(false, "", "")
    ensures r.Success? && r.value.1.success ==>
      ExtractDocumentText(filePath, s.readers) == Success(Some(r.value.1.text))
      && s.storeChunked(db, r.value.1.text, BuildStoreMetadata(DocumentType(filePath), filePath, metadata))
        == Success((r.value.0, r.value.1.docId))
  {
    match ExtractDocumentText(filePath, s.readers)
    case Failure(e) => Failure(e)
    case Success(text) =>
      if text.None? || text.value == "" then Success((db, DocumentReport(false, "", "")))
      else
        match s.storeChunked(db, text.value, BuildStoreMetadata(DocumentType(filePath), filePath, metadata))
        case Failure(e) => Failure(e)
        case Success(stored) => Success((stored.0, DocumentReport(true, text.value, stored.1)))
  }

  /** Where the upload is read from: the path itself, or the file
      `download_media` saved when the path is an HTTP(S) URL. */
  function Located(filePath: string, dirs: Dirs, s: Services): (r: Result<string>)
    ensures !IsUrl(Some(filePath)) ==> r == Success(filePath)
    ensures IsUrl(Some(filePath)) ==> r == DownloadMedia(Some(filePath), dirs.download, s.downloader)
  {
    if IsUrl(Some(filePath)) then DownloadMedia(Some(filePath), dirs.download, s.downloader)
    else Success(filePath)
  }

  const DownloadFailedPrefix: string := "Download failed: "
  const UnsupportedPrefix: string := "Unsupported file type: "

  /** `process_upload`: missing metadata is `{}`; a URL is downloaded first,
      and a failed download is reported, not raised; then the file is routed
      by its type. */
  function ProcessUpload(filePath: string, metadata: Option<map<string, Raw>>, dirs: Dirs,
                         db: Collection, s: Services): (r: Result<(Collection, Report)>)
    ensures Located(filePath, dirs, s).Failure? ==>
      r == Success((db, ErrorReport(DownloadFailedPrefix + Located(filePath, dirs, s).error)))
    ensures Located(filePath, dirs, s).Success? ==>
      r == Route(Located(filePath, dirs, s).value, metadata.GetOr(map[]), dirs, db, s)
  {
    match Located(filePath, dirs, s)
    case Failure(e) => Success((db, ErrorReport(DownloadFailedPrefix + e)))
    case Success(path) => Route(path, metadata.GetOr(map[]), dirs, db, s)
  }

  /** The routing step of `process_upload`: videos go to `process_video`, PDF
      and DOCX files to `process_document`, and every other type, ".doc"
      included, is reported as unsupported. */
  function Route(path: string, meta: map<string, Raw>, dirs: Dirs, db: Collection, s: Services)
    : (r: Result<(Collection, Report)>)
    ensures GetFileType(path) == Video ==> r == ProcessVideo(path, meta, dirs.audio, dirs.transcripts, db, s)
    ensures GetFileType(path) in {Pdf, Docx} ==> r == ProcessDocument(path, meta, db, s)
    ensures GetFileType(path) in {Doc, Unknown} ==> r == Success((db, ErrorReport(UnsupportedPrefix + path)))
  {
    match GetFileType(path)
    case Video => ProcessVideo(path, meta, dirs.audio, dirs.transcripts, db, s)
    case Pdf => ProcessDocument(path, meta, db, s)
    case Docx => ProcessDocument(path, meta, db, s)
    case _ => Success((db, ErrorReport(UnsupportedPrefix + path)))
  }

  /** An upload that does not succeed leaves the collection as it was. */
  lemma {:induction false} FailedUploadStoresNothing(filePath: string, metadata: Option<map<string, Raw>>, dirs: Dirs,
                                                     db: Collection, s: Services)
    ensures ProcessUpload(filePath, metadata, dirs, db, s).Success?
      && !ProcessUpload(filePath, metadata, dirs, db, s).value.1.Succeeded()
      ==> ProcessUpload(filePath, metadata, dirs, db, s).value.0 == db
  {
    var located := Located(filePath, dirs, s);
    if located.Success? {
      FailedRouteStoresNothing(located.value, metadata.GetOr(map[]), dirs, db, s);
      assert ProcessUpload(filePath, metadata, dirs, db, s) == Route(located.value, metadata.GetOr(map[]), dirs, db, s);
    } else {
      assert ProcessUpload(filePath, metadata, dirs, db, s).value.0 == db;
    }
  }

  lemma {:induction false} FailedRouteStoresNothing(path: string, meta: map<string, Raw>, dirs: Dirs,
                                                    db: Collection, s: Services)
    ensures Route(path, meta, dirs, db, s).Success? && !Route(path, meta, dirs, db, s).value.1.Succeeded()
      ==> Route(path, meta, dirs, db, s).value.0 == db
  {
    match GetFileType(path)
    case Video =>
      var r := ProcessVideo(path, meta, dirs.audio, dirs.transcripts, db, s);
      assert r.Success? ==> r.value.1.VideoReport?;
    case Pdf =>
      var r := ProcessDocument(path, meta, db, s);
      assert r.Success? ==> r.value.1.DocumentReport?;
    case Docx =>
      var r := ProcessDocument(path, meta, db, s);
      assert r.Success? ==> r.value.1.DocumentReport?;
    case _ =>
  }

  /** The kind of report follows the route: a video report only for a video,
      a document report only for a PDF or DOCX file, and an error report for
      a failed download or an unsupported type. */
  lemma {:induction false} ReportFollowsRoute(filePath: string, metadata: Option<map<string, Raw>>, dirs: Dirs,
                           db: Collection, s: Services)
    requires ProcessUpload(filePath, metadata, dirs, db, s).Success?
    ensures ProcessUpload(filePath, metadata, dirs, db, s).value.1.VideoReport?
      <==> Located(filePath, dirs, s).Success? && GetFileType(Located(filePath, dirs, s).value) == Video
    ensures ProcessUpload(filePath, metadata, dirs, db, s).value.1.DocumentReport?
      <==> Located(filePath, dirs, s).Success? && GetFileType(Located(filePath, dirs, s).value) in {Pdf, Docx}
    ensures ProcessUpload(filePath, metadata, dirs, db, s).value.1.ErrorReport?
      <==> Located(filePath, dirs, s).Failure? || GetFileType(Located(filePath, dirs, s).value) in {Doc, Unknown}
  {
    var located := Located(filePath, dirs, s);
    if located.Success? {
      RouteReportKind(located.value, metadata.GetOr(map[]), dirs, db, s);
    }
  }

  lemma {:induction false} RouteReportKind(path: string, meta: map<string, Raw>, dirs: Dirs, db: Collection, s: Services)
    requires Route(path, meta, dirs, db, s).Success?
    ensures Route(path, meta, dirs, db, s).value.1.VideoReport? <==> GetFileType(path) == Video
    ensures Route(path, meta, dirs, db, s).value.1.DocumentReport? <==> GetFileType(path) in {Pdf, Docx}
    ensures Route(path, meta, dirs, db, s).value.1.ErrorReport? <==> GetFileType(path) in {Doc, Unknown}
  {
    match GetFileType(path)
    case Video =>
      assert Route(path, meta, dirs, db, s) == ProcessVideo(path, meta, dirs.audio, dirs.transcripts, db, s);
    case Pdf =>
      assert Route(path, meta, dirs, db, s) == ProcessDocument(path, meta, db, s);
    case Docx =>
      assert Route(path, meta, dirs, db, s) == ProcessDocument(path, meta, db, s);
    case _ =>
  }

  /** The stored entry behind a successful report: the collection and id
      `add_chunked_to_vector_db` returned for the report's text and the
      nine-key metadata. */
  predicate StoredAs(path: string, meta: map<string, Raw>, db: Collection, s: Services, out: (Collection, Report)) {
    && (out.1.VideoReport? ==>
          s.storeChunked(db, out.1.transcriptText, BuildStoreMetadata("video", path, meta)) == Success((out.0, out.1.docId)))
    && (out.1.DocumentReport? ==>
          s.storeChunked(db, out.1.text, BuildStoreMetadata(DocumentType(path), path, meta)) == Success((out.0, out.1.docId)))
  }

  /** A successful upload stored its text through `add_chunked_to_vector_db`. */
  lemma {:induction false} SuccessMeansStored(filePath: string, metadata: Option<map<string, Raw>>, dirs: Dirs,
                           db: Collection, s: Services)
    requires ProcessUpload(filePath, metadata, dirs, db, s).Success?
    requires ProcessUpload(filePath, metadata, dirs, db, s).value.1.Succeeded()
    ensures Located(filePath, dirs, s).Success?
    ensures StoredAs(Located(filePath, dirs, s).value, metadata.GetOr(map[]), db, s,
                     ProcessUpload(filePath, metadata, dirs, db, s).value)
  {
    var located := Located(filePath, dirs, s);
    if located.Success? {
      RouteSuccessStored(located.value, metadata.GetOr(map[]), dirs, db, s);
    }
  }

  lemma {:induction false} RouteSuccessStored(path: string, meta: map<string, Raw>, dirs: Dirs, db: Collection, s: Services)
    requires Route(path, meta, dirs, db, s).Success? && Route(path, meta, dirs, db, s).value.1.Succeeded()
    ensures StoredAs(path, meta, db, s, Route(path, meta, dirs, db, s).value)
  {
    match GetFileType(path)
    case Video =>
      assert Route(path, meta, dirs, db, s) == ProcessVideo(path, meta, dirs.audio, dirs.transcripts, db, s);
    case Pdf =>
      assert Route(path, meta, dirs, db, s) == ProcessDocument(path, meta, db, s);
    case Docx =>
      assert Route(path, meta, dirs, db, s) == ProcessDocument(path, meta, db, s);
    case _ =>
  }
}

=== FILE: strings.dfy ===
/** Python `str` operations the modelled code relies on, over `seq<char>`.
    Each one follows CPython's semantics for the cases it is used in. */
module Strings {

  /** Python's `str.isspace()` for a single character: the characters that
      `str.strip()` with no argument removes. */
  predicate IsSpace(c: char) {
    || ('\t' <= c <= '\r')
    || ('\U{1C}' <= c <= '\U{1F}')
    || c == ' '
    || c == '\U{85}'
    || c == '\U{A0}'
    || c == '\U{1680}'
    || ('\U{2000}' <= c <= '\U{200A}')
    || c == '\U{2028}'
    || c == '\U{2029}'
    || c == '\U{202F}'
    || c == '\U{205F}'
    || c == '\U{3000}'
  }

  /** Every character is whitespace (vacuously true of ""). */
  predicate AllSpace(s: string) {
    forall i :: 0 <= i < |s| ==> IsSpace(s[i])
  }

  /** Python's `s.lstrip()`: the suffix of `s` left after dropping leading whitespace. */
  function LStrip(s: string): (r: string)
    ensures |r| <= |s| && r == s[|s| - |r|..]
    ensures AllSpace(s[..|s| - |r|])
    ensures |r| > 0 ==> !IsSpace(r[0])
  {
    if |s| > 0 && IsSpace(s[0]) then LStrip(s[1..]) else s
  }

  /** Python's `s.rstrip()`: the prefix of `s` left after dropping trailing whitespace. */
  function RStrip(s: string): (r: string)
    ensures |r| <= |s| && r == s[..|r|]
    ensures AllSpace(s[|r|..])
    ensures |r| > 0 ==> !IsSpace(r[|r| - 1])
  {
    if |s| > 0 && IsSpace(s[|s| - 1]) then RStrip(s[..|s| - 1]) else s
  }

  /** Empty, or neither starting nor ending with whitespace: what `strip()` leaves. */
  predicate Trimmed(s: string) {
    |s| == 0 || (!IsSpace(s[0]) && !IsSpace(s[|s| - 1]))
  }

  /** Python's `s.strip()`. */
  function Strip(s: string): (r: string)
    ensures |r| <= |s|
    ensures r == "" <==> AllSpace(s)
    ensures |r| > 0 ==> !IsSpace(r[0]) && !IsSpace(r[|r| - 1])
    ensures (|s| == 0 || (!IsSpace(s[0]) && !IsSpace(s[|s| - 1]))) ==> r == s
  {
    StripFacts(s);
    RStrip(LStrip(s))
  }

  /** A string is all whitespace exactly when both of its parts are. */
  lemma {:induction false} AllSpaceSplit(s: string, k: nat)
    requires k <= |s|
    ensures AllSpace(s) <==> AllSpace(s[..k]) && AllSpace(s[k..])
  {
    if AllSpace(s[..k]) && AllSpace(s[k..]) {
      forall i | 0 <= i < |s|
        ensures IsSpace(s[i])
      {
        if i < k {
          assert s[..k][i] == s[i];
        } else {
          assert s[k..][i - k] == s[i];
        }
      }
    }
  }

  lemma {:induction false} LStripEmpty(s: string)
    ensures LStrip(s) == "" <==> AllSpace(s)
  {
    var l := LStrip(s);
    if |l| > 0 {
      assert l[0] == s[|s| - |l|];
    } else {
      assert s[..|s|] == s;
    }
  }

  lemma {:induction false} RStripEmpty(s: string)
    ensures RStrip(s) == "" <==> AllSpace(s)
  {
    var r := RStrip(s);
    if |r| > 0 {
      assert r[|r| - 1] == s[|r| - 1];
    } else {
      assert s[0..] == s;
    }
  }

  lemma {:induction false} StripFacts(s: string)
    ensures var r := RStrip(LStrip(s));
      && (r == "" <==> AllSpace(s))
      && (|r| > 0 ==> !IsSpace(r[0]))
      && ((|s| == 0 || (!IsSpace(s[0]) && !IsSpace(s[|s| - 1]))) ==> r == s)
  {
    var l := LStrip(s);
    var r := RStrip(l);
    LStripEmpty(s);
    RStripEmpty(l);
    AllSpaceSplit(s, |s| - |l|);
    assert s[|s| - |l|..] == l;
    if |r| > 0 {
      assert r[0] == l[0];
    }
  }

  /** `x` is the part of `s` from `p` on that only whitespace surrounds. */
  predicate Surrounded(s: string, p: nat, x: string) {
    && p + |x| <= |s| && x == s[p..p + |x|]
    && AllSpace(s[..p]) && AllSpace(s[p + |x|..])
  }

  /** `strip()` keeps a contiguous middle of the text: what precedes and what
      follows it is whitespace. */
  lemma {:induction false} StripSlice(s: string) returns (p: nat)
    ensures Surrounded(s, p, Strip(s))
  {
    var l := LStrip(s);
    p := |s| - |l|;
    assert Strip(s) == RStrip(l);
    SurroundedWithin(s, p, l, RStrip(l));
  }

  /** A whitespace-led suffix of `s` whose prefix `r` is followed by whitespace. */
  lemma {:induction false} SurroundedWithin(s: string, p: nat, l: string, r: string)
    requires p <= |s| && l == s[p..] && AllSpace(s[..p])
    requires |r| <= |l| && r == l[..|r|] && AllSpace(l[|r|..])
    ensures Surrounded(s, p, r)
  {
    assert s[p..p + |r|] == r;
    assert s[p + |r|..] == l[|r|..];
  }

  /** Text found inside `s` is, stripped, still found inside `s` stripped. */
  lemma {:induction false} StripKeepsContained(s: string, pat: string)
    requires Contains(s, pat)
    ensures Contains(Strip(s), Strip(pat))
  {
    if Strip(pat) == "" {
      assert OccursAt(Strip(s), Strip(pat), 0);
    } else {
      var j := ContainsWitness(s, pat);
      var o := StripOccurs(s, pat, j);
      ContainsAt(Strip(s), Strip(pat), o);
    }
  }

  lemma {:induction false} StripOccurs(s: string, pat: string, j: int) returns (o: int)
    requires OccursAt(s, pat, j) && Strip(pat) != ""
    ensures OccursAt(Strip(s), Strip(pat), o)
  {
    var a := StripSlice(pat);
    var p := StripSlice(s);
    o := TrimmedInsideTrimmed(s, pat, j, a, Strip(pat), Strip(s), p);
  }

  /** A trimmed middle of an occurrence in `s` occurs in any middle of `s`
      that only whitespace surrounds. */
  lemma {:induction false} TrimmedInsideTrimmed(s: string, pat: string, j: int, a: nat, t: string, x: string, p: nat)
    returns (o: int)
    requires OccursAt(s, pat, j) && Surrounded(pat, a, t) && Surrounded(s, p, x)
    requires t != "" && Trimmed(t)
    ensures OccursAt(x, t, o)
  {
    OccursWithin(s, pat, j, a, |t|);
    forall i | 0 <= i < p
      ensures IsSpace(s[i])
    {
      assert s[..p][i] == s[i];
    }
    forall i | p + |x| <= i < |s|
      ensures IsSpace(s[i])
    {
      assert s[p + |x|..][i - p - |x|] == s[i];
    }
    InnerOccurrence(s, x, p, t, j + a);
    o := j + a - p;
  }

  /** Some position where `pat` occurs. */
  lemma {:induction false} ContainsWitness(s: string, pat: string) returns (j: int)
    requires Contains(s, pat)
    ensures OccursAt(s, pat, j)
  {
    j := IndexOf(s, pat);
  }

  /** A slice of an occurrence occurs at the matching offset. */
  lemma {:induction false} OccursWithin(s: string, pat: string, j: int, a: nat, n: nat)
    requires OccursAt(s, pat, j) && a + n <= |pat|
    ensures OccursAt(s, pat[a..a + n], j + a)
  {
    forall i | j + a <= i < j + a + n
      ensures s[i] == pat[i - j]
    {
      assert s[j..j + |pat|][i - j] == s[i];
    }
    assert s[j + a..j + a + n] == pat[a..a + n];
  }

  /** An occurrence that starts and ends on non-whitespace lies inside the
      part of `s` between a whitespace prefix and a whitespace suffix. */
  lemma {:induction false} InnerOccurrence(s: string, x: string, p: nat, t: string, o: int)
    requires p + |x| <= |s| && x == s[p..p + |x|]
    requires forall i :: 0 <= i < p ==> IsSpace(s[i])
    requires forall i :: p + |x| <= i < |s| ==> IsSpace(s[i])
    requires |t| > 0 && !IsSpace(t[0]) && !IsSpace(t[|t| - 1]) && OccursAt(s, t, o)
    ensures OccursAt(x, t, o - p)
  {
    assert s[o] == t[0] && s[o + |t| - 1] == t[|t| - 1];
    assert p <= o;
    assert o + |t| <= p + |x|;
    forall i | 0 <= i < |t|
      ensures x[o - p + i] == t[i]
    {
      assert x[o - p + i] == s[p..p + |x|][o - p + i] == s[o + i];
      assert s[o..o + |t|][i] == s[o + i];
    }
  }

  /** Stripping twice is stripping once. */
  lemma {:induction false} StripIdempotent(s: string)
    ensures Strip(Strip(s)) == Strip(s)
  {
  }

  /** Python's `s.startswith(prefix)`. */
  predicate StartsWith(s: string, prefix: string) {
    |prefix| <= |s| && s[..|prefix|] == prefix
  }

  /** Python's `s.endswith(suffix)`. */
  predicate EndsWith(s: string, suffix: string) {
    |suffix| <= |s| && s[|s| - |suffix|..] == suffix
  }

  /** `pat` occurs in `s` starting at index `j`. */
  predicate OccursAt(s: string, pat: string, j: int) {
    0 <= j && j + |pat| <= |s| && s[j..j + |pat|] == pat
  }

  /** Python's `s.find(pat)`: the first index at which `pat` occurs, or -1. */
  function IndexOf(s: string, pat: string): (r: int)
    ensures -1 <= r <= |s|
    ensures r >= 0 ==> OccursAt(s, pat, r)
    ensures r >= 0 ==> forall j :: 0 <= j < r ==> !OccursAt(s, pat, j)
    ensures r == -1 ==> forall j :: !OccursAt(s, pat, j)
    decreases |s|
  {
    if |s| < |pat| then
      -1
    else if s[..|pat|] == pat then
      0
    else
      var k := IndexOf(s[1..], pat);
      assert forall j :: 1 <= j ==> (OccursAt(s, pat, j) <==> OccursAt(s[1..], pat, j - 1));
      if k < 0 then -1 else k + 1
  }

  /** Python's substring test `pat in s`. */
  predicate Contains(s: string, pat: string) {
    IndexOf(s, pat) >= 0
  }

  /** Python's `sep.join(parts)`. */
  function Join(sep: string, parts: seq<string>): string
    decreases |parts|
  {
    if |parts| == 0 then ""
    else if |parts| == 1 then parts[0]
    else parts[0] + sep + Join(sep, parts[1..])
  }

  /** With a whitespace separator, a join is whitespace exactly when every
      part is. */
  lemma {:induction false} AllSpaceJoin(sep: string, parts: seq<string>)
    requires AllSpace(sep)
    ensures AllSpace(Join(sep, parts)) <==> forall k :: 0 <= k < |parts| ==> AllSpace(parts[k])
    decreases |parts|
  {
    if |parts| >= 2 {
      var rest := Join(sep, parts[1..]);
      AllSpaceJoin(sep, parts[1..]);
      AllSpaceSplit(parts[0] + sep + rest, |parts[0]|);
      assert (parts[0] + sep + rest)[..|parts[0]|] == parts[0];
      assert (parts[0] + sep + rest)[|parts[0]|..] == sep + rest;
      AllSpaceSplit(sep + rest, |sep|);
      assert (sep + rest)[..|sep|] == sep;
      assert (sep + rest)[|sep|..] == rest;
      assert forall k :: 1 <= k < |parts| ==> parts[k] == parts[1..][k - 1];
    }
  }

  /** An occurrence survives putting text in front. */
  lemma {:induction false} OccursAfterPrefix(a: string, b: string, pat: string, j: int)
    requires OccursAt(b, pat, j)
    ensures OccursAt(a + b, pat, |a| + j)
  {
    assert (a + b)[|a| + j..|a| + j + |pat|] == b[j..j + |pat|];
  }

  /** An occurrence anywhere makes `Contains` true. */
  lemma {:induction false} ContainsAt(s: string, pat: string, j: int)
    requires OccursAt(s, pat, j)
    ensures Contains(s, pat)
  {
  }

  /** Every part occurs in the joined text. */
  lemma {:induction false} JoinContainsPart(sep: string, parts: seq<string>, k: int)
    requires 0 <= k < |parts|
    ensures Contains(Join(sep, parts), parts[k])
    decreases |parts|
  {
    var joined := Join(sep, parts);
    if k == 0 {
      assert joined[..|parts[0]|] == parts[0];
      ContainsAt(joined, parts[0], 0);
    } else {
      JoinContainsPart(sep, parts[1..], k - 1);
      var j := IndexOf(Join(sep, parts[1..]), parts[k]);
      OccursAfterPrefix(parts[0] + sep, Join(sep, parts[1..]), parts[k], j);
      assert joined == (parts[0] + sep) + Join(sep, parts[1..]);
      ContainsAt(joined, parts[k], |parts[0] + sep| + j);
    }
  }

  /** A join starts with its first part. */
  lemma {:induction false} JoinStartsWithFirst(sep: string, parts: seq<string>)
    requires |parts| > 0
    ensures StartsWith(Join(sep, parts), parts[0])
  {
    if |parts| > 1 {
      assert (parts[0] + sep + Join(sep, parts[1..]))[..|parts[0]|] == parts[0];
    }
  }

  /** Neighbouring parts occur in the joined text with the separator
      between them, in their order. */
  lemma {:induction false} JoinContainsAdjacent(sep: string, parts: seq<string>, k: int)
    requires 0 <= k < |parts| - 1
    ensures Contains(Join(sep, parts), parts[k] + sep + parts[k + 1])
    decreases |parts|
  {
    var joined := Join(sep, parts);
    var rest := Join(sep, parts[1..]);
    var pat := parts[k] + sep + parts[k + 1];
    assert joined == (parts[0] + sep) + rest;
    if k == 0 {
      JoinStartsWithFirst(sep, parts[1..]);
      assert rest[..|parts[1]|] == parts[1];
      assert joined[..|pat|] == pat;
      ContainsAt(joined, pat, 0);
    } else {
      JoinContainsAdjacent(sep, parts[1..], k - 1);
      assert parts[1..][k - 1] + sep + parts[1..][k] == pat;
      var j := IndexOf(rest, pat);
      OccursAfterPrefix(parts[0] + sep, rest, pat, j);
      ContainsAt(joined, pat, |parts[0] + sep| + j);
    }
  }

  /** In `x + y + z`, `y` occurs right after `x`. */
  lemma {:induction false} MiddleOccurs(x: string, y: string, z: string)
    ensures OccursAt(x + y + z, y, |x|)
    ensures StartsWith(x + y + z, x) && EndsWith(x + y + z, z)
  {
    assert (x + y + z)[|x|..|x| + |y|] == y;
    assert (x + y + z)[..|x|] == x;
    assert (x + y + z)[|x + y|..] == z;
  }

  /** An occurrence survives appending text. */
  lemma {:induction false} OccursBeforeSuffix(s: string, t: string, pat: string, j: int)
    requires OccursAt(s, pat, j)
    ensures OccursAt(s + t, pat, j)
  {
    assert (s + t)[j..j + |pat|] == s[j..j + |pat|];
  }

  /** A prefix survives appending text. */
  lemma {:induction false} PrefixBeforeSuffix(s: string, t: string, p: string)
    requires StartsWith(s, p)
    ensures StartsWith(s + t, p)
  {
    assert (s + t)[..|p|] == s[..|p|];
  }

  /** The first ':' after a run of digits is the one that ends it. */
  lemma {:induction false} FirstColonAfterDigits(digits: string, tail: string)
    requires forall k :: 0 <= k < |digits| ==> IsDigit(digits[k])
    ensures IndexOf(digits + ":" + tail, ":") == |digits|
  {
    var s := digits + ":" + tail;
    var n := |digits|;
    assert s[n..n + 1] == ":";
    assert OccursAt(s, ":", n);
    forall j | 0 <= j < n
      ensures !OccursAt(s, ":", j)
    {
      assert s[j..j + 1][0] == s[j] == digits[j];
    }
  }

  /** A whitespace-joined text strips to "" exactly when every part is whitespace. */
  lemma {:induction false} StripJoinEmpty(sep: string, parts: seq<string>)
    requires AllSpace(sep)
    ensures Strip(Join(sep, parts)) == "" <==> forall k :: 0 <= k < |parts| ==> AllSpace(parts[k])
  {
    AllSpaceJoin(sep, parts);
  }

  /** The parts that are truthy (`if text:`), in order. */
  function KeepNonEmpty(xs: seq<string>): (r: seq<string>)
    ensures |r| <= |xs|
    ensures forall x :: x in r <==> x in xs && x != ""
    decreases |xs|
  {
    if |xs| == 0 then []
    else
      var init := KeepNonEmpty(xs[..|xs| - 1]);
      assert xs == xs[..|xs| - 1] + [xs[|xs| - 1]];
      if xs[|xs| - 1] != "" then init + [xs[|xs| - 1]] else init
  }

  /** A non-empty part survives the filter, at some position. */
  lemma {:induction false} KeepNonEmptyMember(xs: seq<string>, k: nat) returns (j: nat)
    requires k < |xs| && xs[k] != ""
    ensures j < |KeepNonEmpty(xs)| && KeepNonEmpty(xs)[j] == xs[k]
  {
    assert xs[k] in xs;
    assert xs[k] in KeepNonEmpty(xs);
    j :| 0 <= j < |KeepNonEmpty(xs)| && KeepNonEmpty(xs)[j] == xs[k];
  }

  /** With no empty part, the filter keeps everything. */
  lemma {:induction false} KeepNonEmptyAll(xs: seq<string>)
    requires forall k :: 0 <= k < |xs| ==> xs[k] != ""
    ensures KeepNonEmpty(xs) == xs
    decreases |xs|
  {
    if |xs| > 0 {
      KeepNonEmptyAll(xs[..|xs| - 1]);
      assert xs == xs[..|xs| - 1] + [xs[|xs| - 1]];
    }
  }

  /** When only empty parts follow `xs[i]`, the filter ends with `xs[i]`. */
  lemma {:induction false} KeepNonEmptyLast(xs: seq<string>, i: nat)
    requires i < |xs| && xs[i] != ""
    requires forall m :: i < m < |xs| ==> xs[m] == ""
    ensures |KeepNonEmpty(xs)| > 0 && KeepNonEmpty(xs)[|KeepNonEmpty(xs)| - 1] == xs[i]
    decreases |xs|
  {
    if i < |xs| - 1 {
      KeepNonEmptyLast(xs[..|xs| - 1], i);
    }
  }

  /** Two non-empty parts with only empty parts between them stay neighbours,
      in the same order, after the filter. */
  lemma {:induction false} KeepNonEmptyNeighbours(xs: seq<string>, i: nat, i2: nat) returns (j: nat)
    requires i < i2 < |xs| && xs[i] != "" && xs[i2] != ""
    requires forall m :: i < m < i2 ==> xs[m] == ""
    ensures j + 1 < |KeepNonEmpty(xs)| && KeepNonEmpty(xs)[j] == xs[i] && KeepNonEmpty(xs)[j + 1] == xs[i2]
    decreases |xs|
  {
    var init := xs[..|xs| - 1];
    if i2 < |xs| - 1 {
      j := KeepNonEmptyNeighbours(init, i, i2);
    } else {
      KeepNonEmptyLast(init, i);
      j := |KeepNonEmpty(init)| - 1;
    }
  }

  /** Every surviving part is one of the parts. */
  lemma {:induction false} KeepNonEmptySource(xs: seq<string>, j: nat) returns (k: nat)
    requires j < |KeepNonEmpty(xs)|
    ensures k < |xs| && xs[k] == KeepNonEmpty(xs)[j] && xs[k] != ""
  {
    assert KeepNonEmpty(xs)[j] in KeepNonEmpty(xs);
    k :| 0 <= k < |xs| && xs[k] == KeepNonEmpty(xs)[j];
  }

  /** Dropping empty parts does not change whether all parts are whitespace. */
  lemma {:induction false} KeepNonEmptyAllSpace(xs: seq<string>)
    ensures (forall k :: 0 <= k < |KeepNonEmpty(xs)| ==> AllSpace(KeepNonEmpty(xs)[k]))
        <==> (forall k :: 0 <= k < |xs| ==> AllSpace(xs[k]))
  {
    var r := KeepNonEmpty(xs);
    if exists k :: 0 <= k < |xs| && !AllSpace(xs[k]) {
      var k :| 0 <= k < |xs| && !AllSpace(xs[k]);
      var j := KeepNonEmptyMember(xs, k);
      assert !AllSpace(r[j]);
    } else {
      forall j | 0 <= j < |r|
        ensures AllSpace(r[j])
      {
        var k := KeepNonEmptySource(xs, j);
      }
    }
  }

  /** Nothing survives exactly when every part is empty. */
  lemma {:induction false} KeepNonEmptyNone(xs: seq<string>)
    ensures KeepNonEmpty(xs) == [] <==> forall k :: 0 <= k < |xs| ==> xs[k] == ""
  {
    var r := KeepNonEmpty(xs);
    if r != [] {
      assert r[0] in xs;
    }
    if exists k :: 0 <= k < |xs| && xs[k] != "" {
      var k :| 0 <= k < |xs| && xs[k] != "";
      assert xs[k] in r;
    }
  }

  /** The parts that are not whitespace only (`if s.strip():`), in order. */
  function KeepNonBlank(xs: seq<string>): (r: seq<string>)
    ensures |r| <= |xs|
    ensures forall x :: x in r <==> x in xs && !AllSpace(x)
    decreases |xs|
  {
    if |xs| == 0 then []
    else
      var init := KeepNonBlank(xs[..|xs| - 1]);
      assert xs == xs[..|xs| - 1] + [xs[|xs| - 1]];
      if !AllSpace(xs[|xs| - 1]) then init + [xs[|xs| - 1]] else init
  }

  /** When only blank parts follow `xs[i]`, the filter ends with `xs[i]`. */
  lemma {:induction false} KeepNonBlankLast(xs: seq<string>, i: nat)
    requires i < |xs| && !AllSpace(xs[i])
    requires forall m :: i < m < |xs| ==> AllSpace(xs[m])
    ensures |KeepNonBlank(xs)| > 0 && KeepNonBlank(xs)[|KeepNonBlank(xs)| - 1] == xs[i]
    decreases |xs|
  {
    if i < |xs| - 1 {
      KeepNonBlankLast(xs[..|xs| - 1], i);
    }
  }

  /** Two non-blank parts with only blank parts between them stay neighbours,
      in the same order, after the filter. */
  lemma {:induction false} KeepNonBlankNeighbours(xs: seq<string>, i: nat, i2: nat) returns (j: nat)
    requires i < i2 < |xs| && !AllSpace(xs[i]) && !AllSpace(xs[i2])
    requires forall m :: i < m < i2 ==> AllSpace(xs[m])
    ensures j + 1 < |KeepNonBlank(xs)| && KeepNonBlank(xs)[j] == xs[i] && KeepNonBlank(xs)[j + 1] == xs[i2]
    decreases |xs|
  {
    var init := xs[..|xs| - 1];
    if i2 < |xs| - 1 {
      j := KeepNonBlankNeighbours(init, i, i2);
    } else {
      KeepNonBlankLast(init, i);
      j := |KeepNonBlank(init)| - 1;
    }
  }

  /** Python's `s.split(sep)` for a non-empty separator: the pieces between
      the non-overlapping occurrences of `sep`, scanning left to right. */
  function Split(s: string, sep: string): (r: seq<string>)
    requires |sep| > 0
    ensures |r| >= 1
    decreases |s|
  {
    var i := IndexOf(s, sep);
    if i < 0 then
      [s]
    else
      [s[..i]] + Split(s[i + |sep|..], sep)
  }

  /** No piece of a split holds the separator. */
  lemma {:induction false} SplitPartsFree(s: string, sep: string)
    requires |sep| > 0
    ensures forall k :: 0 <= k < |Split(s, sep)| ==> !Contains(Split(s, sep)[k], sep)
    decreases |s|
  {
    var i := IndexOf(s, sep);
    if i >= 0 {
      var rest := s[i + |sep|..];
      SplitPartsFree(rest, sep);
      SplitStep(s, sep, i);
      NoMatchBeforeFirst(s, sep, i);
    }
  }

  /** A match inside a prefix is a match in the whole string, ending inside the prefix. */
  lemma {:induction false} OccursInPrefix(s: string, i: nat, pat: string, j: int)
    requires i <= |s|
    ensures OccursAt(s[..i], pat, j) ==> OccursAt(s, pat, j) && j + |pat| <= i
  {
    if OccursAt(s[..i], pat, j) {
      assert s[..i][j..j + |pat|] == s[j..j + |pat|];
    }
  }

  /** The text before the first match holds no match. */
  lemma {:induction false} NoMatchBeforeFirst(s: string, pat: string, i: int)
    requires |pat| > 0 && i == IndexOf(s, pat) && i >= 0
    ensures !Contains(s[..i], pat)
  {
    forall j | 0 <= j
      ensures !OccursAt(s[..i], pat, j)
    {
      OccursInPrefix(s, i, pat, j);
    }
  }

  /** Containment is transitive: a text inside a text inside `s` is inside `s`. */
  lemma {:induction false} ContainsTransitive(s: string, mid: string, pat: string)
    requires Contains(s, mid) && Contains(mid, pat)
    ensures Contains(s, pat)
  {
    var i := ContainsWitness(s, mid);
    var j := ContainsWitness(mid, pat);
    OccursWithin(s, mid, i, j, |pat|);
    assert mid[j..j + |pat|] == pat;
    ContainsAt(s, pat, i + j);
  }

  /** `strip()` keeps a slice of its input. */
  lemma {:induction false} StripContained(s: string)
    ensures Contains(s, Strip(s))
  {
    var p := StripSlice(s);
    ContainsAt(s, Strip(s), p);
  }

  /** Every piece of a split occurs in the text. */
  lemma {:induction false} SplitPartsContained(s: string, sep: string, k: int)
    requires |sep| > 0 && 0 <= k < |Split(s, sep)|
    ensures Contains(s, Split(s, sep)[k])
  {
    SplitJoin(s, sep);
    JoinContainsPart(sep, Split(s, sep), k);
  }

  /** A part that holds no `sep` and does not end in a character of `sep`:
      a separator placed after it is the first match. */
  predicate SplitsCleanly(x: string, sep: string) {
    !Contains(x, sep) && (x == "" || x[|x| - 1] !in sep)
  }

  /** The first match in `x + sep + rest` is the separator right after a clean `x`. */
  lemma {:induction false} FirstSeparatorAt(x: string, sep: string, rest: string)
    requires |sep| > 0 && SplitsCleanly(x, sep)
    ensures IndexOf(x + sep + rest, sep) == |x|
  {
    var s := x + sep + rest;
    assert s[|x|..|x| + |sep|] == sep;
    forall j | 0 <= j < |x|
      ensures !OccursAt(s, sep, j)
    {
      if j + |sep| <= |x| {
        assert s[j..j + |sep|] == x[j..j + |sep|];
        assert !OccursAt(x, sep, j);
      } else if j + |sep| <= |s| {
        assert s[j..j + |sep|][|x| - 1 - j] == x[|x| - 1];
        assert sep[|x| - 1 - j] in sep;
      }
    }
    assert OccursAt(s, sep, |x|);
  }

  /** Splitting a join of clean parts on its separator gives the parts back. */
  lemma {:induction false} SplitOfJoin(sep: string, parts: seq<string>)
    requires |sep| > 0 && |parts| >= 1
    requires forall k :: 0 <= k < |parts| ==> SplitsCleanly(parts[k], sep)
    ensures Split(Join(sep, parts), sep) == parts
    decreases |parts|
  {
    if |parts| == 1 {
      assert Join(sep, parts) == parts[0];
      assert IndexOf(parts[0], sep) < 0;
    } else {
      var rest := Join(sep, parts[1..]);
      var s := parts[0] + sep + rest;
      assert Join(sep, parts) == s;
      FirstSeparatorAt(parts[0], sep, rest);
      assert s[..|parts[0]|] == parts[0];
      assert s[|parts[0]| + |sep|..] == rest;
      assert forall k :: 0 <= k < |parts| - 1 ==> parts[1..][k] == parts[k + 1];
      SplitOfJoin(sep, parts[1..]);
      SplitStep(s, sep, |parts[0]|);
      assert parts == [parts[0]] + parts[1..];
    }
  }

  /** Splitting on `sep` and joining the pieces with `sep` gives back the input. */
  lemma {:induction false} SplitJoin(s: string, sep: string)
    requires |sep| > 0
    ensures Join(sep, Split(s, sep)) == s
    decreases |s|
  {
    var i := IndexOf(s, sep);
    if i >= 0 {
      var rest := s[i + |sep|..];
      SplitJoin(rest, sep);
      SplitStep(s, sep, i);
      JoinCons(sep, s[..i], Split(rest, sep));
      ThreeSlices(s, i, |sep|);
    }
  }

  /** A string is its prefix, a middle slice and the remaining suffix. */
  lemma {:induction false} ThreeSlices(s: string, i: nat, n: nat)
    requires i + n <= |s|
    ensures s == s[..i] + s[i..i + n] + s[i + n..]
  {
  }

  /** One step of `Split`: the piece before the first match, then the rest split. */
  lemma {:induction false} SplitStep(s: string, sep: string, i: int)
    requires |sep| > 0 && i == IndexOf(s, sep) && i >= 0
    ensures Split(s, sep) == [s[..i]] + Split(s[i + |sep|..], sep)
  {
  }

  /** Joining a first part onto a non-empty list of parts. */
  lemma {:induction false} JoinCons(sep: string, head: string, tail: seq<string>)
    requires |tail| >= 1
    ensures Join(sep, [head] + tail) == head + sep + Join(sep, tail)
  {
    assert ([head] + tail)[1..] == tail;
  }

  /** Python's `s.replace(pat, rep)` for a non-empty pattern: every
      non-overlapping occurrence, found left to right, is replaced. */
  function Replace(s: string, pat: string, rep: string): string
    requires |pat| > 0
    decreases |s|
  {
    if |s| == 0 then ""
    else if StartsWith(s, pat) then rep + Replace(s[|pat|..], pat, rep)
    else [s[0]] + Replace(s[1..], pat, rep)
  }

  /** A prefix that cannot start a match passes through `Replace` untouched. */
  lemma {:induction false} ReplaceSkips(x: string, y: string, pat: string, rep: string)
    requires |pat| > 0
    requires forall i :: 0 <= i < |x| ==> x[i] != pat[0]
    ensures Replace(x + y, pat, rep) == x + Replace(y, pat, rep)
    decreases |x|
  {
    if |x| > 0 {
      assert (x + y)[0] == x[0];
      assert !StartsWith(x + y, pat);
      assert (x + y)[1..] == x[1..] + y;
      assert forall i :: 0 <= i < |x[1..]| ==> x[1..][i] == x[i + 1];
      ReplaceSkips(x[1..], y, pat, rep);
      calc {
        Replace(x + y, pat, rep);
        [x[0]] + Replace(x[1..] + y, pat, rep);
        [x[0]] + (x[1..] + Replace(y, pat, rep));
        { assert x == [x[0]] + x[1..]; }
        x + Replace(y, pat, rep);
      }
    } else {
      assert x + y == y;
    }
  }

  /** A match at the front is replaced and scanning resumes after it. */
  lemma {:induction false} ReplaceMatch(y: string, pat: string, rep: string)
    requires |pat| > 0
    ensures Replace(pat + y, pat, rep) == rep + Replace(y, pat, rep)
  {
    assert (pat + y)[..|pat|] == pat;
    assert (pat + y)[|pat|..] == y;
  }

  /** Python's `s.lstrip(chars)`: drop leading characters that belong to `chars`. */
  function LStripChars(s: string, chars: set<char>): (r: string)
    ensures |r| <= |s| && r == s[|s| - |r|..]
    ensures forall i :: 0 <= i < |s| - |r| ==> s[i] in chars
    ensures |r| > 0 ==> r[0] !in chars
  {
    if |s| > 0 && s[0] in chars then
      var r := LStripChars(s[1..], chars);
      assert forall i :: 1 <= i < |s| ==> s[i] == s[1..][i - 1];
      assert s[1..][|s| - 1 - |r|..] == s[|s| - |r|..];
      r
    else s
  }

  /** ASCII case mapping of `str.lower()` for one character. */
  function LowerChar(c: char): char {
    if 'A' <= c <= 'Z' then (c as int + 32) as char else c
  }

  /** `str.lower()`, restricted to ASCII letters. */
  function Lower(s: string): (r: string)
    ensures |r| == |s|
    ensures forall i :: 0 <= i < |s| ==> r[i] == LowerChar(s[i])
  {
    seq(|s|, i requires 0 <= i < |s| => LowerChar(s[i]))
  }

  predicate IsDigit(c: char) {
    '0' <= c <= '9'
  }

  function DigitChar(d: nat): char
    requires d < 10
  {
    ('0' as int + d) as char
  }

  /** Python's `s.rfind(c)` for one character: the last index of `c`, or -1. */
  function RFind(s: string, c: char): (r: int)
    ensures -1 <= r < |s|
    ensures r >= 0 ==> s[r] == c
    ensures forall i :: r < i < |s| ==> s[i] != c
  {
    if |s| == 0 then -1
    else if s[|s| - 1] == c then |s| - 1
    else RFind(s[..|s| - 1], c)
  }

  /** Python's `str(n)` / `f"{n}"` for a natural number: decimal digits, no
      leading zero except for 0 itself. */
  function NatToString(n: nat): (r: string)
    ensures |r| > 0
    ensures forall i :: 0 <= i < |r| ==> IsDigit(r[i])
    ensures |r| > 1 ==> r[0] != '0'
    decreases n
  {
    if n < 10 then [DigitChar(n)] else NatToString(n / 10) + [DigitChar(n % 10)]
  }

  /** The value of a string of decimal digits. */
  function DigitsValue(s: string): nat
    requires forall i :: 0 <= i < |s| ==> IsDigit(s[i])
  {
    if |s| == 0 then 0
    else
      var d := s[|s| - 1];
      assert IsDigit(d);
      DigitsValue(s[..|s| - 1]) * 10 + (d as int - '0' as int)
  }

  /** Reading the decimal text back gives the number. */
  lemma {:induction false} NatToStringRoundTrip(n: nat)
    ensures DigitsValue(NatToString(n)) == n
    decreases n
  {
    if n >= 10 {
      var r := NatToString(n);
      NatToStringRoundTrip(n / 10);
      assert r[..|r| - 1] == NatToString(n / 10);
    }
  }

  /** Distinct numbers have distinct decimal texts. */
  lemma {:induction false} NatToStringInjective(m: nat, n: nat)
    requires m != n
    ensures NatToString(m) != NatToString(n)
  {
    NatToStringRoundTrip(m);
    NatToStringRoundTrip(n);
  }

  /** Python's `str(i)` for any integer. */
  function IntToString(i: int): string {
    if i < 0 then "-" + NatToString(-i) else NatToString(i)
  }
}

=== FILE: transcription.dfy ===
/** Speech to text over the audio segments (src/transcription.py). The
    recogniser is a parameter; the model keeps which results are kept and
    how they are joined. */
module Transcription {
  import opened Wrappers
  import opened Strings
  import opened AudioUtils

  /** What one recognition attempt on a segment file ends in: text, speech
      that could not be understood, a failed request to the service, or a
      file that could not be opened (which is not caught). */
  datatype Recognition = Recognised(text: string) | Unintelligible | RequestFailed(reason: string) | Unreadable(reason: string)

  /** `audio_to_text`: the recognised text, `None` when the speech is not
      understood or the request fails; an unreadable file raises. */
  function AudioToText(rec: Recognition): (r: Result<Option<string>>)
    ensures r.Failure? <==> rec.Unreadable?
    ensures r.Success? && r.value.Some? <==> rec.Recognised?
    ensures rec.Recognised? ==> r == Success(Some(rec.text))
    ensures rec.Unreadable? ==> r.error == rec.reason
  {
    match rec
    case Recognised(text) => Success(Some(text))
    case Unintelligible => Success(None)
    case RequestFailed(_) => Success(None)
    case Unreadable(reason) => Failure(reason)
  }

  /** The text a recognition contributes before filtering: its text, or "" when there is none. */
  function HeardText(rec: Recognition): string {
    if rec.Recognised? then rec.text else ""
  }

  /** The heard text of each segment, in order. */
  function HeardTexts(paths: seq<string>, recognise: string -> Recognition): (r: seq<string>)
    ensures |r| == |paths|
    ensures forall k :: 0 <= k < |paths| ==> r[k] == HeardText(recognise(paths[k]))
  {
    seq(|paths|, k requires 0 <= k < |paths| => HeardText(recognise(paths[k])))
  }

  /** The reason of the first segment whose file cannot be read, if any. */
  function FirstUnreadable(paths: seq<string>, recognise: string -> Recognition): (r: Option<string>)
    ensures r.None? <==> forall k :: 0 <= k < |paths| ==> !recognise(paths[k]).Unreadable?
    ensures r.Some? ==> exists k :: 0 <= k < |paths| && recognise(paths[k]) == Unreadable(r.value)
    decreases |paths|
  {
    if |paths| == 0 then None
    else if recognise(paths[0]).Unreadable? then Some(recognise(paths[0]).reason)
    else
      var rest := FirstUnreadable(paths[1..], recognise);
      assert forall k :: 1 <= k < |paths| ==> paths[k] == paths[1..][k - 1];
      rest
  }

  /** The transcript of a list of segments: the non-empty recognised texts
      joined by single spaces, stripped; an unreadable segment raises. */
  function Transcript(paths: seq<string>, recognise: string -> Recognition): (r: Result<string>)
    ensures r.Failure? <==> exists k :: 0 <= k < |paths| && recognise(paths[k]).Unreadable?
    ensures r.Success? ==>
      (r.value == "" <==> forall k :: 0 <= k < |paths| ==> AllSpace(HeardText(recognise(paths[k]))))
    ensures r.Success? && r.value != "" ==> !IsSpace(r.value[0]) && !IsSpace(r.value[|r.value| - 1])
  {
    match FirstUnreadable(paths, recognise)
    case Some(reason) => Failure(reason)
    case None =>
      var heard := HeardTexts(paths, recognise);
      StripJoinEmpty(" ", KeepNonEmpty(heard));
      KeepNonEmptyAllSpace(heard);
      Success(Strip(Join(" ", KeepNonEmpty(heard))))
  }

  /** Every segment's non-empty text ends up in the joined text, and its
      stripped form in the transcript. */
  lemma {:induction false} HeardTextKept(paths: seq<string>, recognise: string -> Recognition, k: nat)
    requires k < |paths| && HeardText(recognise(paths[k])) != ""
    ensures Contains(Join(" ", KeepNonEmpty(HeardTexts(paths, recognise))), HeardText(recognise(paths[k])))
    ensures Transcript(paths, recognise).Success? ==>
      Contains(Transcript(paths, recognise).value, Strip(HeardText(recognise(paths[k]))))
  {
    var kept := KeepNonEmpty(HeardTexts(paths, recognise));
    var text := HeardText(recognise(paths[k]));
    assert HeardTexts(paths, recognise)[k] == text;
    assert text in kept;
    var j :| 0 <= j < |kept| && kept[j] == text;
    JoinContainsPart(" ", kept, j);
    if Transcript(paths, recognise).Success? {
      assert Transcript(paths, recognise).value == Strip(Join(" ", kept));
      StripKeepsContained(Join(" ", kept), text);
    }
  }

  /** The loop of `transcribe_long_audio` over the segment files. */
  method TranscribeChunks(paths: seq<string>, recognise: string -> Recognition) returns (r: Result<string>)
    ensures r == Transcript(paths, recognise)
  {
    var parts: seq<string> := [];
    var i := 0;
    while i < |paths|
      invariant 0 <= i <= |paths|
      invariant forall k :: 0 <= k < i ==> !recognise(paths[k]).Unreadable?
      invariant parts == KeepNonEmpty(HeardTexts(paths[..i], recognise))
    {
      var text := AudioToText(recognise(paths[i]));
      if text.Failure? {
        FirstUnreadableAt(paths, recognise, i);
        return Failure(text.error);
      }
      assert HeardTexts(paths[..i + 1], recognise) == HeardTexts(paths[..i], recognise) + [HeardText(recognise(paths[i]))];
      if text.value.Some? && text.value.value != "" {
        parts := parts + [text.value.value];
      }
      i := i + 1;
    }
    assert paths[..i] == paths;
    r := Success(Strip(Join(" ", parts)));
  }

  /** When the first `i` segments are readable and segment `i` is not, its
      reason is the one reported. */
  lemma {:induction false} FirstUnreadableAt(paths: seq<string>, recognise: string -> Recognition, i: nat)
    requires i < |paths| && recognise(paths[i]).Unreadable?
    requires forall k :: 0 <= k < i ==> !recognise(paths[k]).Unreadable?
    ensures FirstUnreadable(paths, recognise) == Some(recognise(paths[i]).reason)
    decreases i
  {
    if i > 0 {
      FirstUnreadableAt(paths[1..], recognise, i - 1);
    }
  }

  /** `transcribe_long_audio`: split the audio into segments, then transcribe them. */
  function TranscribeLongAudio(audioPath: string, chunkMs: int, outputDir: string, io: AudioFiles,
                               recognise: string -> Recognition): (r: Result<string>)
    requires chunkMs > 0
    ensures SplitAudioIntoChunks(audioPath, chunkMs, outputDir, io).Failure? ==>
      r == Failure(SplitAudioIntoChunks(audioPath, chunkMs, outputDir, io).error)
    ensures SplitAudioIntoChunks(audioPath, chunkMs, outputDir, io).Success? ==>
      r == Transcript(SplitAudioIntoChunks(audioPath, chunkMs, outputDir, io).value, recognise)
  {
    match SplitAudioIntoChunks(audioPath, chunkMs, outputDir, io)
    case Failure(e) => Failure(e)
    case Success(paths) => Transcript(paths, recognise)
  }

  /** A transcript of long audio has no surrounding whitespace. */
  lemma {:induction false} TranscriptIsClean(audioPath: string, chunkMs: int, outputDir: string, io: AudioFiles,
                                             recognise: string -> Recognition)
    requires chunkMs > 0
    ensures TranscribeLongAudio(audioPath, chunkMs, outputDir, io, recognise).Success? ==>
      Trimmed(TranscribeLongAudio(audioPath, chunkMs, outputDir, io, recognise).value)
  {
    var chunks := SplitAudioIntoChunks(audioPath, chunkMs, outputDir, io);
    if chunks.Success? {
      TranscriptClean(chunks.value, recognise);
      assert TranscribeLongAudio(audioPath, chunkMs, outputDir, io, recognise) == Transcript(chunks.value, recognise);
    }
  }

  lemma {:induction false} TranscriptClean(paths: seq<string>, recognise: string -> Recognition)
    ensures Transcript(paths, recognise).Success? ==> Trimmed(Transcript(paths, recognise).value)
  {
  }
}

=== FILE: urls.dfy ===
/** The part of Python's `urllib.parse.urlparse` the download code reads:
    scheme, network location (the authority component of section 3.2 of
    RFC 3986) and path. Query, fragment and `;params` are split off and dropped. */
module Urls {
  import opened Wrappers
  import opened Strings

  datatype ParsedUrl = ParsedUrl(scheme: string, netloc: string, path: string)

  /** `urlsplit` first drops leading C0 control characters and spaces. */
  predicate IsC0OrSpace(c: char) {
    c <= ' '
  }

  function LStripC0(s: string): (r: string)
    ensures |r| <= |s| && r == s[|s| - |r|..]
    ensures |r| > 0 ==> !IsC0OrSpace(r[0])
  {
    if |s| > 0 && IsC0OrSpace(s[0]) then LStripC0(s[1..]) else s
  }

  /** Tab, carriage return and line feed are removed everywhere in the URL. */
  predicate IsUnsafe(c: char) {
    c == '\t' || c == '\r' || c == '\n'
  }

  function RemoveUnsafe(s: string): (r: string)
    ensures |r| <= |s|
    ensures forall i :: 0 <= i < |r| ==> !IsUnsafe(r[i])
  {
    if |s| == 0 then ""
    else (if IsUnsafe(s[0]) then "" else [s[0]]) + RemoveUnsafe(s[1..])
  }

  /** A prefix free of unsafe characters survives `RemoveUnsafe` unchanged. */
  lemma {:induction false} RemoveUnsafeKeeps(x: string, y: string)
    requires forall i :: 0 <= i < |x| ==> !IsUnsafe(x[i])
    ensures RemoveUnsafe(x + y) == x + RemoveUnsafe(y)
    decreases |x|
  {
    if |x| == 0 {
      assert x + y == y;
    } else {
      assert (x + y)[0] == x[0];
      assert (x + y)[1..] == x[1..] + y;
      RemoveUnsafeKeeps(x[1..], y);
      assert x == [x[0]] + x[1..];
    }
  }

  predicate IsAsciiAlpha(c: char) {
    ('a' <= c <= 'z') || ('A' <= c <= 'Z')
  }

  /** `scheme_chars`: ASCII letters, digits, '+', '-' and '.'. */
  predicate IsSchemeChar(c: char) {
    IsAsciiAlpha(c) || IsDigit(c) || c == '+' || c == '-' || c == '.'
  }

  /** The text before the first ':' is a scheme when it is non-empty, starts
      with an ASCII letter and uses only scheme characters. */
  predicate HasScheme(s: string, i: int) {
    && 0 < i <= |s|
    && IsAsciiAlpha(s[0])
    && forall k :: 0 <= k < i ==> IsSchemeChar(s[k])
  }

  /** Index of the first character of `s` in `stops`, or `|s|` when there is none. */
  function FirstOf(s: string, stops: set<char>): (r: nat)
    ensures r <= |s|
    ensures r < |s| ==> s[r] in stops
    ensures forall k :: 0 <= k < r ==> s[k] !in stops
  {
    if |s| == 0 then 0
    else if s[0] in stops then 0
    else 1 + FirstOf(s[1..], stops)
  }

  /** Characters ending the network location. */
  const NetlocStops: set<char> := {'/', '?', '#'}

  /** Schemes for which `urlparse` splits off `;params` (`uses_params`, with
      "rtsps" as listed by CPython 3.11 and 3.12). */
  const UsesParams: set<string> := {"", "ftp", "hdl", "prospero", "http", "imap", "https",
    "shttp", "rtsp", "rtsps", "rtspu", "sip", "sips", "mms", "sftp", "tel"}

  /** `_splitparams`: the path up to the first ';' of its last segment. */
  function DropParams(path: string): (r: string)
    ensures |r| <= |path| && r == path[..|r|]
  {
    var slash := RFind(path, '/');
    var start := if slash < 0 then 0 else slash;
    var semi := FirstOf(path[start..], {';'});
    if start + semi < |path| then path[..start + semi] else path
  }

  /** Scheme detection of `urlsplit`: the lowercased scheme and the rest of the URL. */
  function SplitScheme(u: string): (r: (string, string))
  {
    var colon := IndexOf(u, ":");
    if HasScheme(u, colon) then (Lower(u[..colon]), u[colon + 1..]) else ("", u)
  }

  /** `_splitnetloc`: after a leading "//", the network location runs to the first
      '/', '?' or '#'; without "//" there is none. */
  function SplitNetloc(rest: string): (r: (string, string))
    ensures forall k :: 0 <= k < |r.0| ==> r.0[k] !in NetlocStops
    ensures StartsWith(rest, "//") ==> rest == "//" + r.0 + r.1
    ensures !StartsWith(rest, "//") ==> r == ("", rest)
  {
    if StartsWith(rest, "//") then
      var tail := rest[2..];
      var stop := FirstOf(tail, NetlocStops);
      assert rest == "//" + tail[..stop] + tail[stop..];
      (tail[..stop], tail[stop..])
    else
      ("", rest)
  }

  /** The path: what precedes the fragment and the query. */
  function PathPart(afterNetloc: string): (r: string)
    ensures forall k :: 0 <= k < |r| ==> r[k] != '?' && r[k] != '#'
  {
    afterNetloc[..FirstOf(afterNetloc, {'?', '#'})]
  }

  /** A network location with one square bracket but not the other. */
  predicate UnbalancedBrackets(netloc: string) {
    (Contains(netloc, "[") && !Contains(netloc, "]")) || (Contains(netloc, "]") && !Contains(netloc, "["))
  }

  /** `urlparse(url)` reduced to scheme, netloc and path. It fails, as the
      library raises `ValueError("Invalid IPv6 URL")`, when the network location
      has one square bracket without the other. */
  function UrlParse(url: string): (r: Result<ParsedUrl>)
    ensures r.Success? ==> forall k :: 0 <= k < |r.value.netloc| ==> r.value.netloc[k] !in NetlocStops
    ensures r.Failure? <==> UnbalancedBrackets(SplitNetloc(SplitScheme(RemoveUnsafe(LStripC0(url))).1).0)
    ensures r.Success? ==> r.value.scheme == SplitScheme(RemoveUnsafe(LStripC0(url))).0
    ensures r.Success? ==> r.value.netloc == SplitNetloc(SplitScheme(RemoveUnsafe(LStripC0(url))).1).0
    ensures r.Failure? ==> r.error == "Invalid IPv6 URL"
  {
    var (scheme, rest) := SplitScheme(RemoveUnsafe(LStripC0(url)));
    var (netloc, afterNetloc) := SplitNetloc(rest);
    var path := PathPart(afterNetloc);
    if UnbalancedBrackets(netloc) then
      Failure("Invalid IPv6 URL")
    else
      var finalPath := if scheme in UsesParams && Contains(path, ";") then DropParams(path) else path;
      Success(ParsedUrl(scheme, netloc, finalPath))
  }

  /** For a URL that starts with "http://" or "https://" and has no tab or line
      break, the scheme is that word and the network location is everything
      after "//" up to the first '/', '?' or '#'. */
  lemma {:induction false} HttpUrlParts(url: string, scheme: string)
    requires scheme == "http" || scheme == "https"
    requires StartsWith(url, scheme + "://")
    requires forall i :: 0 <= i < |url| ==> !IsUnsafe(url[i])
    ensures var tail := url[|scheme| + 3..];
      var parts := SplitScheme(RemoveUnsafe(LStripC0(url)));
      parts.0 == scheme && SplitNetloc(parts.1).0 == tail[..FirstOf(tail, NetlocStops)]
  {
    var n := |scheme|;
    HttpPrefixChars(url, scheme);
    CleanUrlUnchanged(url);
    SchemeOfHttp(url, scheme);
    var rest := url[n + 1..];
    NetlocAfterSlashes(rest);
    assert rest[2..] == url[n + 3..];
  }

  /** The characters a "http://" or "https://" prefix fixes. */
  lemma {:induction false} HttpPrefixChars(url: string, scheme: string)
    requires scheme == "http" || scheme == "https"
    requires StartsWith(url, scheme + "://")
    ensures |url| >= |scheme| + 3 && url[..|scheme|] == scheme
    ensures url[0] == 'h' && url[|scheme|] == ':' && url[|scheme| + 1] == '/' && url[|scheme| + 2] == '/'
  {
    var p := scheme + "://";
    var n := |scheme|;
    assert url[..|p|] == p;
    assert url[..n] == p[..n] == scheme;
    assert p[n] == ':' && p[n + 1] == '/' && p[n + 2] == '/';
    assert url[n] == p[n] && url[n + 1] == p[n + 1] && url[n + 2] == p[n + 2];
    assert url[0] == scheme[0];
  }

  /** Preprocessing leaves alone a URL that starts with a letter and has no tab or line break. */
  lemma {:induction false} CleanUrlUnchanged(url: string)
    requires |url| > 0 && !IsC0OrSpace(url[0])
    requires forall i :: 0 <= i < |url| ==> !IsUnsafe(url[i])
    ensures RemoveUnsafe(LStripC0(url)) == url
  {
    RemoveUnsafeKeeps(url, "");
    assert url + "" == url;
  }

  lemma {:induction false} NetlocAfterSlashes(rest: string)
    requires |rest| >= 2 && rest[0] == '/' && rest[1] == '/'
    ensures SplitNetloc(rest).0 == rest[2..][..FirstOf(rest[2..], NetlocStops)]
  {
    assert rest[..2] == "//";
  }

  lemma {:induction false} SchemeOfHttp(url: string, scheme: string)
    requires scheme == "http" || scheme == "https"
    requires StartsWith(url, scheme + "://")
    ensures SplitScheme(url) == (scheme, url[|scheme| + 1..])
  {
    var n := |scheme|;
    assert url[n] == ':';
    assert OccursAt(url, ":", n);
    forall j | 0 <= j < n
      ensures !OccursAt(url, ":", j)
    {
      assert url[j..j + 1][0] == url[j];
      assert url[j] == scheme[j];
    }
    assert IndexOf(url, ":") == n;
    assert HasScheme(url, n);
    assert Lower(url[..n]) == scheme;
  }
}

=== FILE: vector_store.dfy ===
/** Storing one document in the Chroma collection (`add_to_vector_db` in
    src/vector_store.py). The collection is a map from document id to the
    stored text and metadata; embedding and persistence are not modelled. */
module VectorStore {
  import opened Wrappers
  import opened Strings
  import opened Metadata

  datatype Record = Record(text: string, metadata: map<string, Value>)

  type Collection = map<string, Record>

  const EmptyTextError: string := "Cannot add empty text to vector store."

  /** `add_to_vector_db`. Text that is empty or only whitespace is refused
      before the collection is touched. Otherwise the id is `docId` when given
      and `freshId` (the generated UUID) when not, and the stripped text is
      stored with the sanitised metadata. An id already in the collection is
      ignored by Chroma's `add`, so the collection keeps its old record. */
  function AddToVectorDb(coll: Collection, text: string, metadata: map<string, Raw>,
                         docId: Option<string>, freshId: string): (r: Result<(Collection, string)>)
    ensures r.Failure? <==> AllSpace(text)
    ensures r.Failure? ==> r.error == EmptyTextError
    ensures r.Success? ==> r.value.1 == (if docId.Some? then docId.value else freshId)
    ensures r.Success? ==> r.value.0.Keys == coll.Keys + {r.value.1}
    ensures r.Success? && r.value.1 !in coll ==>
      r.value.0 == coll[r.value.1 := Record(Strip(text), Sanitize(metadata))]
    ensures r.Success? && r.value.1 in coll ==> r.value.0 == coll
  {
    if Strip(text) == "" then
      Failure(EmptyTextError)
    else
      var id := docId.GetOr(freshId);
      if id in coll then Success((coll, id))
      else Success((coll[id := Record(Strip(text), Sanitize(metadata))], id))
  }

  /** A newly stored record holds non-empty text with no surrounding
      whitespace, and every other record is left as it was. */
  lemma {:induction false} StoredRecordShape(coll: Collection, text: string, metadata: map<string, Raw>,
                          docId: Option<string>, freshId: string)
    requires !AllSpace(text)
    requires docId.GetOr(freshId) !in coll
    ensures var r := AddToVectorDb(coll, text, metadata, docId, freshId);
      && r.Success?
      && var rec := r.value.0[r.value.1];
      && rec.text != "" && !IsSpace(rec.text[0]) && !IsSpace(rec.text[|rec.text| - 1])
      && forall k :: k in coll ==> r.value.0[k] == coll[k]
  {
  }

  /** Adding a stored record's text and metadata again under a new id stores
      an identical record. */
  lemma {:induction false} ReAddIsStable(coll: Collection, id: string, freshId: string)
    requires id in coll && coll[id].text != "" && freshId !in coll
    requires !IsSpace(coll[id].text[0]) && !IsSpace(coll[id].text[|coll[id].text| - 1])
    ensures var r := AddToVectorDb(coll, coll[id].text, Lift(coll[id].metadata), None, freshId);
      r.Success? && r.value.0[freshId] == coll[id]
  {
    SanitizeLift(coll[id].metadata);
  }
}

=== FILE: wrappers.dfy ===
/** Failure-carrying datatypes. An exception raised by the modelled Python code is
    represented by a `Failure` (or `Fail`) holding the exception's `str()` text. */
module Wrappers {

  /** A value that may be absent (Python's `None`). */
  datatype Option<+T> = None | Some(value: T) {
    function GetOr(default: T): T {
      match this
      case Some(v) => v
      case None => default
    }
  }

  /** Either a computed value or the message of the exception that was raised. */
  datatype Result<+T> = Success(value: T) | Failure(error: string) {
    predicate IsFailure() {
      Failure?
    }

    function PropagateFailure<U>(): Result<U>
      requires Failure?
    {
      Failure(error)
    }
  }

  /** A step that returns nothing useful but may raise. */
  datatype Outcome = Pass | Fail(error: string) {
    predicate IsFailure() {
      Fail?
    }

    function PropagateFailure<U>(): Result<U>
      requires Fail?
    {
      Failure(error)
    }
  }
}
